=== FILE: README.md ===
# ushi backend: request guards, validators and counters in Dafny

This project models the decision logic behind the ushi restaurant
back end's Express/Sequelize plumbing. It covers seven pieces:

- **Sliding-window rate limiter** (`rateLimitMiddleware.js`). The
  registry maps each key to its request timestamps. It provides:
  - `checkLimit`, the 24-hour `cleanup` sweep, and `reset`/`destroy`;
  - the `createRateLimit` middleware, with its fail-open catch and its
    skip-on-outcome hook;
  - the six named policies and their key generators;
  - the read-only `checkRateLimit` peek and `resetRateLimit`.
- **Session guard** (`authMiddleware.js`). It tries the access token,
  then the refresh token, and writes or clears the session cookies.
- **Authorization guards** (`roleMiddleware.js`): `requireRole` and its
  three fixed instances, `requireOwnerOrAdmin`, `requirePermission` and
  `requireActive`.
- **Input validators** (`validationMiddeware.js`). The regular
  expressions are restated as character predicates. Each `validateX` is
  an error-list accumulator. Also covered: `validateId` and
  `sanitizeInput`.
- **Auth controller pre-checks** (`authController.js`): the ladders
  and error classification of `register`, `login`, `changePassword` and
  `resetPassword`, and the session cookies written at login and cleared
  at logout.
- **User controller pre-checks** (`userController.js`):
  - the `getAllUsers` role filter and search;
  - the `createUser` default;
  - the `updateUser` field stripping;
  - the `deleteUser`/`deactivateUser` self-guards;
  - error-message-to-status classification.
- **Promotion usage counter** (`promotionService.incrementUsageCount`).

Everything is a pure function over immutable datatypes. The clock is a
`now` parameter. Every call into code outside the model becomes a
parameter holding that call's answer, an `Attempt` (`Ok(value)` or
`Thrown(message)`). The one exception is `register`'s call of
`userAccountService.createUserAccount`, a method the account service does
not define: as written it always throws (see Findings), and the parameter
for its answer belongs to the corrected `AuthController.Register`. These
calls are:

- database lookups;
- token decoding and signing;
- the account service;
- the username-exists check;
- the custom permission predicate.

Where the code matters only through "this answer was not consulted",
that is stated as an independence lemma: the result is the same for any
two answers.

JavaScript values in request bodies, queries and parameters are a small
`Value` datatype (`values.dfy`): `undefined`, `null`, booleans, integral
numbers, strings and objects. It carries JavaScript's meaning of the
following:

- truthiness;
- `String(v)`;
- `===`;
- `.length`, including the `TypeError` on `null` and `undefined`;
- `parseInt`.

`text.dfy` holds the string operations the code relies on:

- `trim`, over the ECMAScript white-space set;
- ASCII `toLowerCase`;
- `includes`;
- integer printing, and `parseInt` with its round trip.

Modules, one per file:

| module | file | models |
|---|---|---|
| `Wrappers` | wrappers.dfy | `Option`, `Attempt` |
| `Text` | text.dfy | string operations |
| `Values` | values.dfy | request values |
| `RateLimiter` | rate_limiter.dfy | the `RateLimiter` class |
| `RatePolicy` | rate_policy.dfy | the middleware factories and policies |
| `Cookies` | cookies.dfy | cookie instructions and the browser's cookie jar |
| `Accounts` | accounts.dfy | the user record the guards read |
| `SessionGuard` | session_guard.dfy | `authMiddleware` |
| `RoleGuard` | role_guard.dfy | `roleMiddleware.js` |
| `Validators` | validators.dfy | `validators.*` |
| `Validation` | validation.dfy | the `validateX` middleware and `sanitizeInput` |
| `AuthController` | auth_controller.dfy | `authController.js` |
| `UserController` | user_controller.dfy | `userController.js` |
| `Promotions` | promotion.dfy | `incrementUsageCount` |
| `Seqs` | seqs.dfy | "keeps exactly these elements, in order", the shape of every `filter` |
| `Controllers` | controllers.dfy | how the two controllers classify the same service error |

### Behaviours worth knowing

- **`authMiddleware` does not look at `isActive`.** A deactivated
  account with a valid token is let through. This is stated as
  `SessionGuard.ActivityNotChecked`.
- **A request carrying no token at all gets its 401 without any cookie
  being cleared.** Every other 401 from the guard clears the three
  session cookies. See `SessionGuard.Authenticate`.
- **The guard's 401 messages differ by path.** A missing refresh token
  gets "Authentication expired…". A refresh error mentioning "expired"
  gets "Session expired…". A user missing after a refresh gets "Invalid
  authentication…". The model uses the code's four messages rather than
  one generic message.
- **A rate limit of 0 or less does not block anything.** The code fails
  open instead. See Findings.
- **`requireOwnerOrAdmin` reads the target id before checking for
  Admin.** When the request has no body and no truthy route parameter,
  reading `req.body[field]` throws. The catch answers 500, even for an
  Admin. See `RoleGuard.RequireOwnerOrAdmin`. This path needs a body
  parser that leaves `req.body` undefined when there is no body, as
  body-parser 2 (Express 5) does. Under body-parser 1.x (Express 4),
  `backend/src/config/serverConfig.js` lines 24 and 28 set `req.body` to
  `{}` for every request, and the read yields `undefined` instead.

## Model

| member | source | states |
|---|---|---|
| RateLimiter.Prune | backend/src/middleware/rateLimitMiddleware.js:26-35 | The pruned list is exactly the timestamps strictly after the window start, each kept once and in the original order, and sortedness is kept. |
| RateLimiter.PruneTwice | backend/src/middleware/rateLimitMiddleware.js:35 | Pruning at a later window start after an earlier one is the same as pruning once at the later start. |
| RateLimiter.CheckLimit | backend/src/middleware/rateLimitMiddleware.js:24-58 | `total` is the limit, and only the checked key changes. An admitted request ends the key's list with `now`, with remaining = limit − length ≥ 0. A denied request has remaining 0 and a full window. |
| RateLimiter.FirstRequestAdmitted | backend/src/middleware/rateLimitMiddleware.js:28-57 | A key with no history and a limit ≥ 1 is admitted with remaining = limit − 1 and reset = now + windowMs, and stores `[now]`. |
| RateLimiter.StoredHistoryIsPruned | backend/src/middleware/rateLimitMiddleware.js:26-36 | The stored list always starts with the survivors of the window, even when the request is denied. |
| RateLimiter.DenyIffWindowFull | backend/src/middleware/rateLimitMiddleware.js:38-46 | Deny happens exactly when the survivors number at least the limit. Then nothing is appended, and the reset is the oldest survivor + windowMs. With no survivors the reset is absent, which is possible only for a limit ≤ 0. |
| RateLimiter.AdmitAppendsNow | backend/src/middleware/rateLimitMiddleware.js:48-56 | On admit, the stored list is the survivors followed by exactly `now`, and the reset is now + windowMs. |
| RateLimiter.HistoryStaysWithinLimit | backend/src/middleware/rateLimitMiddleware.js:38-50 | For a fixed limit per key, the stored length never exceeds the limit. |
| RateLimiter.HistoryStaysSorted | backend/src/middleware/rateLimitMiddleware.js:35-49 | With a non-decreasing clock, the stored list stays sorted and never holds a time after `now`. |
| RateLimiter.AdmittedAfterWindowPasses | backend/src/middleware/rateLimitMiddleware.js:35-49 | Once every recorded request is a full window old, the next request is admitted. |
| RateLimiter.BurstLockout | backend/src/middleware/rateLimitMiddleware.js:24-58 | On a fresh key, `limit + 1` requests inside one window are admitted `limit` times and the last is denied. |
| RateLimiter.Cleanup | backend/src/middleware/rateLimitMiddleware.js:63-75 | A key's surviving entries are exactly those younger than 24 hours. Keys left empty are deleted, keys are never added, and sorted lists stay sorted. |
| RateLimiter.CleanupIdempotent | backend/src/middleware/rateLimitMiddleware.js:63-75 | A second sweep at the same time changes nothing. |
| RateLimiter.CleanupHistory | backend/src/middleware/rateLimitMiddleware.js:63-75 | After a sweep, a key's list is its old list pruned at the 24-hour horizon. |
| RateLimiter.CheckSeesOnlySurvivors | backend/src/middleware/rateLimitMiddleware.js:35-57 | Two registries that agree on a key's survivors give the same answer and store the same list. |
| RateLimiter.CleanupInvisibleToCheck | backend/src/middleware/rateLimitMiddleware.js:63-75 | A sweep whose horizon lies before the window cannot change any later check within that window. |
| RateLimiter.ResetAll | backend/src/middleware/rateLimitMiddleware.js:80-90 | `reset` and `destroy` leave every key without history. |
| RateLimiter.ForgetKey | backend/src/middleware/rateLimitMiddleware.js:284 | Deleting a key removes only that key's history. |
| RateLimiter.ForgottenKeyStartsAfresh | backend/src/middleware/rateLimitMiddleware.js:284 | After a key is deleted, its next check answers as on an empty registry. |
| RatePolicy.KeyHead | backend/src/middleware/rateLimitMiddleware.js:187-274 | Every key-deriving policy prefixes its keys with a five-character tag of its own. |
| RatePolicy.KeyStartsWithHead | backend/src/middleware/rateLimitMiddleware.js:187-274 | Each derived key starts with its policy's tag. |
| RatePolicy.KeysOfDistinctRulesDiffer | backend/src/middleware/rateLimitMiddleware.js:187-274 | Two different key rules never produce the same key, so each policy has its own quota. |
| RatePolicy.ApiUserAndAddressKeysDiffer | backend/src/middleware/rateLimitMiddleware.js:208-211 | Under the API and per-user policies, a signed-in caller's key never collides with a guest's key. |
| RatePolicy.Configure | backend/src/middleware/rateLimitMiddleware.js:108-116 | A given option overrides its default. An undefined one falls back to 100 requests, 15 minutes, the client address and the default "Too many requests" message. A skip flag is on only when given as true. |
| RatePolicy.Admit | backend/src/middleware/rateLimitMiddleware.js:118-176 | The middleware keeps the limiter's bookkeeping. It proceeds whenever the limiter admits, and a denial with a printable reset time is always the 429. The headers and the 429's limits carry the limiter's total, its remaining (0 on a 429) and the reset time, and a 429 carries the policy's message. An admitted request installs the skip hook exactly when the policy skips successes or failures. It proceeds without headers, and without the hook, exactly when the reset time is not a printable date. |
| RatePolicy.AdmitFollowsLimiter | backend/src/middleware/rateLimitMiddleware.js:121-149 | With a limit ≥ 1 and dates in range, the middleware answers 429 exactly when the limiter denies. |
| RatePolicy.ZeroLimitAlwaysAdmits | backend/src/middleware/rateLimitMiddleware.js:38-46 | As written: with a limit ≤ 0 and no history, the request proceeds through the catch, and the key stays empty. |
| RatePolicy.AdmitCorrected | backend/src/middleware/rateLimitMiddleware.js:118-176 | Corrected middleware, with a missing reset time read as now + windowMs: it keeps the limiter's registry, proceeds whenever the limiter admits and answers 429 on every denial with a printable reset. Headers, the 429's limits and the skip hook are as in `Admit`, with that reset time. |
| RatePolicy.CorrectedZeroLimitDenies | backend/src/middleware/rateLimitMiddleware.js:38-46 | Corrected: a limit ≤ 0 denies every request, with remaining 0. |
| RatePolicy.CorrectionAgreesOnPositiveLimits | backend/src/middleware/rateLimitMiddleware.js:118-176 | For every limit ≥ 1 the correction is exactly the code. |
| RatePolicy.NamedPoliciesHavePositiveLimits | backend/src/middleware/rateLimitMiddleware.js:183-275 | All six named policies have a positive limit and window, so the correction never changes them. |
| RatePolicy.Settle | backend/src/middleware/rateLimitMiddleware.js:152-164 | A skipped outcome removes the key's last timestamp and keeps the rest in order; a missing key becomes an empty list. A counted outcome changes nothing. Other keys are untouched. |
| RatePolicy.SkippedRequestNotCounted | backend/src/middleware/rateLimitMiddleware.js:152-164 | Admitting and then skipping a request leaves the key as if it had never been counted. |
| RatePolicy.CountedOutcomeKept | backend/src/middleware/rateLimitMiddleware.js:155-159 | An outcome the policy does not skip leaves the registry as it was. |
| RatePolicy.RefusalsCarryMessage | backend/src/middleware/rateLimitMiddleware.js:130-149 | In any sequence of requests, every refusal is the policy's 429 with nothing remaining. |
| RatePolicy.ReplayMatchesBurst | backend/src/middleware/rateLimitMiddleware.js:118-176 | For a limit ≥ 1, with no outcome the policy skips and every date in range, sequential middleware calls refuse exactly the requests the bare limiter would deny. |
| RatePolicy.PolicyLocksOut | backend/src/middleware/rateLimitMiddleware.js:118-176 | For any policy with a positive limit, on a fresh key, `max` counted requests in one window pass and the next gets the policy's 429. |
| RatePolicy.FailedLoginsLockOut | backend/src/middleware/rateLimitMiddleware.js:183-197 | Five failed logins within 15 minutes pass. The sixth gets "Too many login attempts…". |
| RatePolicy.SuccessfulLoginNotCounted | backend/src/middleware/rateLimitMiddleware.js:193 | A successful login takes its own timestamp back out of the login count. |
| RatePolicy.PeekLimit | backend/src/middleware/rateLimitMiddleware.js:297-324 | The peek reports the limit and, as used, the number of stored timestamps still inside the window. Remaining is 0 exactly when used reaches the limit, and otherwise limit − used. The reset is the oldest survivor + windowMs, or now + windowMs when none survive. |
| RatePolicy.PeekPredictsCheck | backend/src/middleware/rateLimitMiddleware.js:304-324 | The peek predicts the next check: it is admitted iff remaining > 0, leaves remaining − 1, and a denial resets when the peek said. |
| RatePolicy.ResetFor | backend/src/middleware/rateLimitMiddleware.js:280-292 | `resetRateLimit` deletes exactly the caller's derived key. |
| RatePolicy.ResetCallerStartsAfresh | backend/src/middleware/rateLimitMiddleware.js:280-292 | After a reset, the caller's next request is decided as on an empty registry. |
| Cookies.GuardLogout | backend/src/middleware/authMiddleware.js:22-32 | The guard's logout clears three httpOnly cookies, all session cookies. |
| Cookies.GuardAccessCookie | backend/src/middleware/authMiddleware.js:8-13 | The renewed access cookie is httpOnly, lasts seven days and carries the new token. |
| Cookies.SessionCookies | backend/src/controllers/authController.js:9-24 | A login writes the access token (15 minutes), the refresh token (7 days) and a script-readable `isLogin` flag (7 days), all at path "/". |
| Cookies.ControllerLogout | backend/src/controllers/authController.js:205-215 | The controller's logout clears three cookies, all session cookies. |
| Cookies.ApplyLeavesOthers | backend/src/controllers/authController.js:85-91 | Cookies a response does not name keep their value in the browser. |
| Cookies.GuardLogoutEndsSession | backend/src/middleware/authMiddleware.js:22-32 | After the guard's logout the browser holds no session cookie and nothing else changed. |
| Cookies.ControllerLogoutEndsSession | backend/src/controllers/authController.js:213-215 | The controller's logout has the same effect on the browser. |
| Cookies.LoginInstallsSession | backend/src/controllers/authController.js:161-167 | After a login the browser holds the issued tokens and the flag, and nothing else changed. |
| Cookies.LoginThenLogout | backend/src/controllers/authController.js:161-167 | Login followed by logout leaves the browser as before, minus any older session. |
| Cookies.OnlyLoginFlagIsScriptVisible | backend/src/controllers/authController.js:87-91 | Of the three session cookies only `isLogin` is readable by scripts. |
| SessionGuard.RefreshFailureMessage | backend/src/middleware/authMiddleware.js:123-126 | "Session expired" exactly when the error mentions "expired", otherwise "Invalid authentication". |
| SessionGuard.Authenticate | backend/src/middleware/authMiddleware.js:34-134 | Every outcome is a pass or a 401 with one of the four messages. A 401 clears the session cookies exactly when some token was presented. A pass writes at most the renewed access cookie. |
| SessionGuard.NoTokensRejectedUntouched | backend/src/middleware/authMiddleware.js:38-44 | With no token, the answer is a 401 and no cookie is touched, whatever the services would answer. |
| SessionGuard.ValidAccessTokenAdmits | backend/src/middleware/authMiddleware.js:48-68 | A valid access token whose user is found admits that user and writes no cookie. The refresh token and its services cannot change this. |
| SessionGuard.AttachedUserReused | backend/src/middleware/authMiddleware.js:52-56 | A user already attached under the token's id is admitted without a lookup. |
| SessionGuard.AccessUserMissingEndsSession | backend/src/middleware/authMiddleware.js:59-66 | A valid access token whose user is gone clears the cookies and returns 401, without consulting the refresh token. |
| SessionGuard.FailedAccessFallsThrough | backend/src/middleware/authMiddleware.js:46-73 | An absent access token, or one whose decode or lookup throws, gives exactly the refresh path's outcome. |
| SessionGuard.MissingRefreshEndsSession | backend/src/middleware/authMiddleware.js:76-83 | On the refresh path, a missing refresh token clears the cookies and returns "Authentication expired". |
| SessionGuard.RefreshRenewsAccess | backend/src/middleware/authMiddleware.js:85-115 | A valid refresh token with a found user writes exactly one access cookie, signed for that user's id, and admits the user. In the browser only the access cookie changes. |
| SessionGuard.RefreshUserMissingRejected | backend/src/middleware/authMiddleware.js:93-100 | A valid refresh token whose user is gone clears the cookies and returns "Invalid authentication". |
| SessionGuard.RefreshFailureClassified | backend/src/middleware/authMiddleware.js:117-133 | A refresh token that fails verification clears the cookies, and the message depends on "expired" in the error. |
| SessionGuard.RejectionEndsBrowserSession | backend/src/middleware/authMiddleware.js:59-132 | Whenever a presented token is refused, the browser ends up without any session cookie. |
| SessionGuard.ActivityNotChecked | backend/src/middleware/authMiddleware.js:48-68 | A deactivated account with a valid access token is admitted like any other. |
| RoleGuard.Normalise | backend/src/middleware/roleMiddleware.js:12 | A single role name becomes the one-element list, and a list is kept. |
| RoleGuard.RequireRole | backend/src/middleware/roleMiddleware.js:14-61 | The request passes iff a user is attached, has a named role, is active, and that role is allowed. A 401 happens exactly when no user is attached; every other refusal is 403. |
| RoleGuard.RoleLadderOrder | backend/src/middleware/roleMiddleware.js:26-56 | The 403s come in order: missing role, then inactive account, then insufficient role. |
| RoleGuard.SingleRoleIsOneElementList | backend/src/middleware/roleMiddleware.js:12 | Allowing one role name behaves exactly like allowing the one-element list. |
| RoleGuard.FixedGuardsNested | backend/src/middleware/roleMiddleware.js:77-87 | Whoever passes `requireAdmin` passes `requireManager`, and whoever passes `requireManager` passes `requireUser`. |
| RoleGuard.WiderListAdmitsMore | backend/src/middleware/roleMiddleware.js:46 | Widening the allowed list never refuses someone it admitted before. |
| RoleGuard.TargetId | backend/src/middleware/roleMiddleware.js:108-115 | A truthy route parameter is parsed. Otherwise a truthy body field is parsed, then a truthy query field; when none is truthy there is no target. Reading throws exactly when params give none and there is no body. |
| RoleGuard.TargetPrecedence | backend/src/middleware/roleMiddleware.js:108-115 | A truthy route parameter wins over body and query, and a truthy body field wins over the query. |
| RoleGuard.RequireOwnerOrAdmin | backend/src/middleware/roleMiddleware.js:93-146 | With no user the answer is 401. Otherwise an Admin, or a caller whose id equals the parsed target, passes. An unreadable target is the 500 "Authorization check failed", Admin or not. Every 403 is the "own resources" message. |
| RoleGuard.OwnerPassesByRouteId | backend/src/middleware/roleMiddleware.js:109-125 | A caller named by the route id passes, active or not. |
| RoleGuard.StrangerRefused | backend/src/middleware/roleMiddleware.js:123-135 | A non-admin targeting another id gets the 403 "own resources" message. |
| RoleGuard.NoTargetOnlyAdmin | backend/src/middleware/roleMiddleware.js:108-125 | When no source names a target, only an Admin passes. |
| RoleGuard.RequirePermission | backend/src/middleware/roleMiddleware.js:153-189 | The request passes iff a user is attached and the check answers truthy. A thrown check is 500. A falsy answer is 403 with the given message, or "Insufficient permissions" by default. |
| RoleGuard.PermissionNeedsUserFirst | backend/src/middleware/roleMiddleware.js:156-164 | With no user the permission check is never consulted. |
| RoleGuard.RequireActive | backend/src/middleware/roleMiddleware.js:194-212 | The request passes iff a user is attached and active; an inactive user gets the 403. |
| RoleGuard.RolePassImpliesActive | backend/src/middleware/roleMiddleware.js:35-41 | Passing `requireRole` implies passing `requireActive`. |
| RoleGuard.GuardsAgreeOnMissingUser | backend/src/middleware/roleMiddleware.js:17-23 | All four guards answer a missing user with the same 401. |
| Validators.ValidUsernameIsTrimmed | backend/src/middleware/validationMiddeware.js:21-25 | A username the pattern accepts has nothing for `trim` to remove. |
| Validators.CheckStrongPassword | backend/src/middleware/validationMiddeware.js:15-19 | The one-pass scan accepts exactly the strong passwords: ≥ 8 characters, no line terminator, a lower-case letter, an upper-case letter and a digit. |
| Validators.PhonePrefixesInterchangeable | backend/src/middleware/validationMiddeware.js:27-31 | A number is accepted with "0" exactly when it is accepted with "+84". |
| Validators.PhoneLength | backend/src/middleware/validationMiddeware.js:29 | Every accepted phone number has 10 to 13 characters. |
| Validators.EmailShape | backend/src/middleware/validationMiddeware.js:10-13 | An accepted address has no white space and exactly one "@", which is not first. |
| Validators.CheckEmail | backend/src/middleware/validationMiddeware.js:10-13 | The scan accepts exactly the addresses of the form local "@" domain "." suffix, each part non-empty and free of blanks and "@". |
| Validators.NotEmailWithoutDot | backend/src/middleware/validationMiddeware.js:11 | An address with no "." at least two characters after the "@" and before the last character is refused. |
| Validation.Conclude | backend/src/middleware/validationMiddeware.js:81-90 | The request proceeds iff the error list is empty; otherwise the 400 carries that list. |
| Validation.UsernameErrors | backend/src/middleware/validationMiddeware.js:43-58 | At most one username error. None exactly when the username is present, matches the pattern, and the existence check answered "not taken". |
| Validation.StrongPasswordErrors | backend/src/middleware/validationMiddeware.js:61-65 | At most one password error. None exactly when the password is present and strong. |
| Validation.ValidateRegister | backend/src/middleware/validationMiddeware.js:37-91 | Never crashes and lists 1 to 4 errors. Proceeds iff the username is valid and free, the password strong, the confirmation identical, and the role id absent, null or a positive integer. |
| Validation.RegisterChecksFormatBeforeExistence | backend/src/middleware/validationMiddeware.js:43-58 | A missing or malformed username never consults the existence check. |
| Validation.ValidateLogin | backend/src/middleware/validationMiddeware.js:96-123 | Crashes exactly on a truthy non-string username. Proceeds iff the trimmed username has ≥ 3 characters and the password is present with length ≥ 6. |
| Validation.RegisteredCredentialsPassLogin | backend/src/middleware/validationMiddeware.js:37-123 | String credentials that registration accepts also pass login validation. |
| Validation.ValidateUserCreate | backend/src/middleware/validationMiddeware.js:128-175 | Proceeds iff the username is valid and free, the password strong, and the role id a positive integer. |
| Validation.UserCreateIsRegisterWithRequiredRole | backend/src/middleware/validationMiddeware.js:37-175 | With a matching confirmation, user creation passes exactly when registration passes and the role id is a positive integer: creation is registration with the role required. |
| Validation.ValidateUserUpdate | backend/src/middleware/validationMiddeware.js:180-228 | Each given field must be valid. A given username must be free. A role id other than `undefined` must be a positive integer. |
| Validation.EmptyUpdatePasses | backend/src/middleware/validationMiddeware.js:180-228 | An update naming none of the checked fields proceeds. |
| Validation.NullRoleIdTreatedDifferently | backend/src/middleware/validationMiddeware.js:75-216 | A `null` role id blocks an update but raises no role error at registration. |
| Validation.ValidatePasswordChange | backend/src/middleware/validationMiddeware.js:233-270 | Proceeds iff all three fields are present, the new password is strong, equals the confirmation and differs from the old. Each failing rule adds its own message, independently. |
| Validation.ValidatePasswordReset | backend/src/middleware/validationMiddeware.js:275-302 | Proceeds iff the user id is a positive integer and the new password is present and strong. |
| Validation.ValidateRoleCreate | backend/src/middleware/validationMiddeware.js:307-334 | Crashes exactly on a truthy non-string name. Proceeds iff the trimmed name has 2 to 50 characters and any string description has at most 255. |
| Validation.ValidateRoleUpdate | backend/src/middleware/validationMiddeware.js:339-366 | Crashes on a truthy non-string name or a `null` description. Proceeds iff a given name trims to 2 to 50 characters and a given description fits 255. |
| Validation.RoleCreateAndUpdateAgree | backend/src/middleware/validationMiddeware.js:307-366 | For a non-empty string name and a string description, both role validators give the same verdict. |
| Validation.BlankRoleNameRefused | backend/src/middleware/validationMiddeware.js:312-350 | A name made only of white space is refused by both. |
| Validation.ValidateId | backend/src/middleware/validationMiddeware.js:371-386 | Accepted iff the parameter is truthy and parses to a positive integer. The parameter is then replaced by that number and nothing else changes. A rejection names the parameter. |
| Validation.ValidateIdIdempotent | backend/src/middleware/validationMiddeware.js:371-386 | Validating an already validated parameter changes nothing. |
| Validation.NumberIdAccepted | backend/src/middleware/validationMiddeware.js:375-384 | A positive numeric parameter is accepted unchanged. |
| Validation.DecimalIdAccepted | backend/src/middleware/validationMiddeware.js:375-384 | A route parameter printing a positive integer is accepted and replaced by that integer. |
| Validation.TrimValue | backend/src/middleware/validationMiddeware.js:397-398 | A string becomes its trimmed string and every other value is left alone. |
| Validation.Sanitize | backend/src/middleware/validationMiddeware.js:395-401 | The keys are kept, non-string values are unchanged, and every string value is replaced by its trimmed string. |
| Validation.SanitizeInputIdempotent | backend/src/middleware/validationMiddeware.js:392-412 | Running the sanitizer over its own output changes neither body nor query. |
| Validation.SanitizeIdempotent | backend/src/middleware/validationMiddeware.js:392-412 | Sanitizing twice is sanitizing once. |
| Validation.SanitizedStringsAreTrimmed | backend/src/middleware/validationMiddeware.js:397-398 | A sanitized non-empty string neither starts nor ends with white space. |
| AuthController.IssueSession | backend/src/controllers/authController.js:81-91 | When both tokens are signed, the reply carries exactly the three session cookies. A signing error, the access token's first, is handed to the handler's catch and writes no cookie. |
| AuthController.RegisterError | backend/src/controllers/authController.js:110-133 | 409 exactly when the error mentions "username" and "exists". Otherwise 400 exactly when it mentions "role" or "foreign key". No cookie is written. |
| AuthController.RegisterPrecheck | backend/src/controllers/authController.js:35-58 | Passes iff all three fields are truthy, the passwords are identical, and the password has at least 6 characters. Every refusal is a 400 without cookies. |
| AuthController.Register | backend/src/controllers/authController.js:30-135 | Corrected (the account created as intended). A pre-check refusal is returned as is. A taken name is 409 "Username already exists", and a throwing name check, account service or token signer is classified by `RegisterError`. The service is asked exactly when the pre-checks pass and the name is free, for an active account with a falsy role id replaced by 3. 201, with the session cookies, exactly when the account is created and both tokens are signed. |
| AuthController.RegisterAsWritten | backend/src/controllers/authController.js:72-133 | As written: no registration is ever answered 201 or writes a cookie. A request that passes the pre-checks with a free name gets the 500 "Registration failed. Please try again."; every other request is answered as by the corrected controller. |
| AuthController.NoCreateUserAccountIsUnexpected | backend/src/controllers/authController.js:110-133 | The `TypeError` raised by the undefined method mentions neither "username" nor "role" nor "foreign key", so the catch answers 500. |
| AuthController.RegisterAsWrittenFails | backend/src/controllers/authController.js:78 | For every request passing the pre-checks with a free name and working signers, the code as written answers 500 where the corrected controller answers 201. |
| AuthController.RegisterPrecheckShortCircuits | backend/src/controllers/authController.js:35-58 | A request the pre-checks refuse never reaches the services. |
| AuthController.ValidatedRegistrationPassesPrecheck | backend/src/controllers/authController.js:35-58 | Whatever registration validation lets through passes the controller's own pre-checks. |
| AuthController.RegistrationLogsIn | backend/src/controllers/authController.js:78-97 | Corrected: once the account is created, a registration answers 201 and leaves the browser holding the fresh session. |
| AuthController.Login | backend/src/controllers/authController.js:140-198 | A missing field is a 400 before any service call. 200 exactly when authentication and signing succeed. No cookie on failure. |
| AuthController.LoginFailuresIndistinguishable | backend/src/controllers/authController.js:188-196 | Every authentication failure gives the same 401, whatever the service said. |
| AuthController.Logout | backend/src/controllers/authController.js:203-224 | Logout answers 200 "Logout successful" and its cookie instructions clear exactly the three session cookies. |
| AuthController.LoginLogoutRoundTrip | backend/src/controllers/authController.js:161-215 | Logging in and then out leaves the browser without a session and otherwise unchanged. |
| AuthController.ChangePasswordPrecheck | backend/src/controllers/authController.js:278-300 | Passes iff all three fields are truthy, the new password equals the confirmation and has at least 6 characters. Every refusal is a 400. |
| AuthController.ChangePassword | backend/src/controllers/authController.js:273-330 | A pre-check refusal is returned as is. A service error is 400 iff it mentions "Current password is incorrect", else 500. 200 exactly when the service succeeds. |
| AuthController.ValidatedChangeReachesService | backend/src/controllers/authController.js:278-300 | Whatever password-change validation lets through reaches the account service. |
| AuthController.ResetPasswordPrecheck | backend/src/controllers/authController.js:401-415 | Passes iff the user id and new password are truthy and the password has at least 6 characters. |
| AuthController.ResetPassword | backend/src/controllers/authController.js:396-445 | A service error is 404 iff it mentions "User account not found", else 500. 200 exactly when the service succeeds. |
| AuthController.ValidatedResetReachesService | backend/src/controllers/authController.js:401-415 | Whatever password-reset validation lets through reaches the account service. |
| UserController.Filter | backend/src/controllers/userController.js:19-29 | The kept users are exactly those satisfying the predicate, each kept once and in the original order. |
| UserController.FiltersCompose | backend/src/controllers/userController.js:17-30 | Two filters in a row equal one filter on the conjunction, in either order. |
| UserController.Selected | backend/src/controllers/userController.js:17-30 | A user is listed iff it is in the list, has the requested role id when one is given, and matches the search when one is given. |
| UserController.ListUsers | backend/src/controllers/userController.js:10-52 | Fails with 500 "Failed to retrieve users" exactly when the service throws or the search is not a string. `total` is the number listed. `page` and `limit` are the parsed query values. |
| UserController.ListedUsersMatch | backend/src/controllers/userController.js:17-30 | A user is listed iff it has the requested role and matches the lower-cased search in its username, employee full name or role name. |
| UserController.SearchIgnoresCase | backend/src/controllers/userController.js:23-28 | Two searches that differ only in letter case list the same users. |
| UserController.DefaultPaging | backend/src/controllers/userController.js:12-40 | Without `page` and `limit` the reply reports page 1 and limit 10. |
| UserController.SelectionIsOneFilter | backend/src/controllers/userController.js:17-30 | The role filter and the search together equal one filter, and the search may be applied first. |
| UserController.CreateUserData | backend/src/controllers/userController.js:190-193 | `isActive` becomes true only when undefined. Every other field passes unchanged. |
| UserController.CreateKeepsExplicitFlag | backend/src/controllers/userController.js:193 | A missing flag becomes true; an explicit `false` or `null` is kept as given. |
| UserController.CreateUser | backend/src/controllers/userController.js:188-232 | 201 exactly when the service succeeds. A service error is 409 iff it mentions "username" and "exists", else 400 iff it mentions "role" or "foreign key", else 500 "Failed to create user". |
| UserController.UpdateData | backend/src/controllers/userController.js:240-250 | `password` and `id` are always removed. `roleId` and `isActive` are removed unless the caller is an Admin. Every other field passes unchanged. |
| UserController.AdminAndOthersDifferOnlyInPrivilegedFields | backend/src/controllers/userController.js:247-250 | A non-admin's update is the admin's update without `roleId` and `isActive`. |
| UserController.UpdateDataIdempotent | backend/src/controllers/userController.js:243-250 | Stripping twice is stripping once. |
| UserController.UpdateUser | backend/src/controllers/userController.js:263-287 | 200 exactly on success. A service error is 404 iff it mentions "not found", else 409 iff it mentions "username" and "exists", else 500 "Failed to update user". |
| UserController.GuardedAction | backend/src/controllers/userController.js:293-333 | A target equal to the caller's id is refused before the service. Otherwise success is 200 with the action's message, a "not found" error is 404, and any other error is 500 with the action's failure message. |
| UserController.DeleteUser | backend/src/controllers/userController.js:293-333 | The caller's own id gets "Cannot delete your own account". Otherwise 200 exactly when the deletion succeeds. |
| UserController.DeactivateUser | backend/src/controllers/userController.js:374-415 | The caller's own id gets "Cannot deactivate your own account". Otherwise 200 exactly when the deactivation succeeds. |
| UserController.NoSelfRemoval | backend/src/controllers/userController.js:298-304 | Whether the id arrives as a number or as its decimal string, callers cannot delete themselves, whatever the service would answer. The same holds for deactivation (lines 379-385). |
| UserController.InactiveUsersFailureHasNoStatus | backend/src/controllers/userController.js:92-98 | As written, a failing inactive-user listing passes no status at all, while the active-user listing passes 500. |
| UserController.InactiveUsersStatus | backend/src/controllers/userController.js:81-101 | Corrected: the inactive-user listing always answers a valid status, the same as the active-user listing. |
| Promotions.IncrementUsage | backend/src/services/promotionService.js:82-102 | A missing promotion raises "not found". The call raises "usage limit reached" exactly when a truthy limit is already met. Otherwise the count grows by one from `usedCount or 0`, and the limit and every other column are unchanged. |
| Promotions.UncappedAlwaysIncrements | backend/src/services/promotionService.js:89 | A null or 0 limit never refuses. |
| Promotions.Redeem | backend/src/services/promotionService.js:82-102 | After `n` sequential calls, at most `n` succeed. The count grows by exactly the number that succeeded, and nothing else changes. |
| Promotions.CapNeverExceeded | backend/src/services/promotionService.js:89-96 | Starting at or below a positive limit, the count never passes it. The calls granted are the smaller of `n` and the room that was left. |
| Promotions.UncappedGrantsAll | backend/src/services/promotionService.js:89-96 | Without a cap every call succeeds and the count grows by exactly `n`. |
| Text.Trim | backend/src/middleware/validationMiddeware.js:103 | The trimmed string is a contiguous slice of the input with only white space cut off on either side, and it neither starts nor ends with white space. A string without white space is unchanged. |
| Text.TrimIdempotent | backend/src/middleware/validationMiddeware.js:398 | Trimming twice is trimming once. |
| Text.TrimEmptyIffBlank | backend/src/middleware/validationMiddeware.js:314 | The trimmed string is empty iff the string is all white space. |
| Text.Lower | backend/src/controllers/userController.js:24-28 | Lower-casing keeps the length and leaves no upper-case letter. |
| Text.LowerIdempotent | backend/src/controllers/userController.js:24-28 | Lower-casing twice is lower-casing once. |
| Text.IncludesNeedsChar | backend/src/controllers/authController.js:113 | A string lacking some character of the searched text does not include it. |
| Text.IncludesIffOccurs | backend/src/controllers/userController.js:26-28 | The scan finds the substring iff it occurs at some position. |
| Text.ParseIntRoundTrip | backend/src/middleware/validationMiddeware.js:375-384 | `parseInt(String(i)) == i` for every integer. |
| Values.LengthOf | backend/src/middleware/validationMiddeware.js:109 | Reading `.length` throws exactly on `null` and `undefined`. Among the modelled values it gives a number exactly for strings. |
| Values.ParseIntOfNum | backend/src/middleware/validationMiddeware.js:375 | `parseInt` of an integral number is that number. |
| Seqs.KeptCounts | backend/src/middleware/rateLimitMiddleware.js:35 | A list that keeps exactly the elements passing a test, in order, is a subsequence of the input and holds each passing value as often as the input does, and no other value. |
| Seqs.KeptUnique | backend/src/controllers/userController.js:19-29 | Only one list keeps exactly the passing elements in order, so `filter` has a single possible answer. |
| RateLimiter.PruneKeepsEachSurvivor | backend/src/middleware/rateLimitMiddleware.js:35 | The pruned list is a subsequence of the stored one and holds each later timestamp as often as before, and no earlier one. |
| RatePolicy.KeyFor | backend/src/middleware/rateLimitMiddleware.js:111-274 | The key of each rule: the client address by default, and for the five named rules a tagged key built from the username, the user id or the address (see `KeyStartsWithHead` and `KeysOfDistinctRulesDiffer`). |
| RatePolicy.ShouldSkip | backend/src/middleware/rateLimitMiddleware.js:155-157 | An outcome is skipped when it is below 400 and the policy skips successes, or 400 or more and the policy skips failures. |
| RatePolicy.DropLast | backend/src/middleware/rateLimitMiddleware.js:161-163 | `pop` on a non-empty list removes its last element and keeps the rest; an empty list stays empty. |
| RatePolicy.Replay | backend/src/middleware/rateLimitMiddleware.js:118-176 | Sequential requests through the corrected middleware (`AdmitCorrected`, which is the code for every limit ≥ 1), each settled before the next: one decision per request (see `ReplayMatchesBurst` and `RefusalsCarryMessage`). |
| RatePolicy.NamedPoliciesAreConfigured | backend/src/middleware/rateLimitMiddleware.js:183-275 | The six named policies (auth, API, password, registration, user creation, user operations) are exactly `createRateLimit` applied to the options the source passes: their limits, windows, messages, key rules and skip flags. |
| SessionGuard.AccessAttempt | backend/src/middleware/authMiddleware.js:46-73 | The access path falls through only when decoding or the lookup throws. It admits without writing cookies, and refuses only with the 401 that clears the session cookies. |
| SessionGuard.RefreshAttempt | backend/src/middleware/authMiddleware.js:76-133 | Every refusal on the refresh path is a 401 that clears the session cookies, with one of the three refresh messages. An admission needs a refresh token and a signed access token, and writes exactly that access cookie. |
| RoleGuard.UnreadableTargetDeniesAdmin | backend/src/middleware/roleMiddleware.js:108-146 | An Admin whose request has no body and no truthy route parameter gets the 500 "Authorization check failed". |
| UserController.InRole | backend/src/controllers/userController.js:18-20 | A user is in the wanted role when both role ids are present and equal. |
| UserController.MatchesSearch | backend/src/controllers/userController.js:23-29 | A user matches when the lower-cased username, employee full name or role name contains the term. |
| UserController.ReadListQuery | backend/src/controllers/userController.js:12 | `page` and `limit` default to 1 and 10 only when undefined; `search` and `roleId` are read as given. |
| UserController.SearchTerm | backend/src/controllers/userController.js:23-24 | A truthy search is lower-cased; a falsy one means no search. |
| UserController.ActiveUsersStatus | backend/src/controllers/userController.js:57-76 | The active-user listing answers 200 on success and 500 on failure. |
| UserController.InactiveUsersStatusAsWritten | backend/src/controllers/userController.js:81-100 | As written, the inactive-user listing answers 200 on success and an undefined status on failure. |
| UserController.UpdateClassifiesLikeRemoval | backend/src/controllers/userController.js:263-333 | An update error is classified like a deletion error except that a "username exists" error, when not also "not found", is 409; and every 409 of an update is also a 409 of a creation. |
| Controllers.CreateClassifiesLikeRegister | backend/src/controllers/userController.js:208-231 | `createUser` gives a service error the same status as `register` does (authController.js lines 110-133), and the same message whenever that status is not 500. |
| Validators.ValidUsername | backend/src/middleware/validationMiddeware.js:21-25 | 3 to 20 characters, each an ASCII letter, digit, underscore or hyphen. |
| Validators.StrongPassword | backend/src/middleware/validationMiddeware.js:15-19 | At least 8 characters, no line terminator, and a lower-case letter, an upper-case letter and a digit. |
| Validators.ValidPhoneNumber | backend/src/middleware/validationMiddeware.js:27-31 | "0" or "+84", then a subscriber number in the pattern's digit ranges. |
| Validators.ValidEmail | backend/src/middleware/validationMiddeware.js:10-13 | Some split into local "@" domain "." suffix with every part non-empty and free of white space and "@". |
| Validation.SanitizeInput | backend/src/middleware/validationMiddeware.js:392-412 | Body and query keep their keys and are both sanitized (see `Sanitize` and `SanitizeInputIdempotent`). |
| Validation.PositiveInteger | backend/src/middleware/validationMiddeware.js:76 | `Number.isInteger(v) && v > 0`. |
| Values.Truthy | backend/src/middleware/validationMiddeware.js:101 | JavaScript truthiness: `undefined`, `null`, `false`, 0 and "" are falsy, every object is truthy. |
| Values.StringOf | backend/src/middleware/validationMiddeware.js:375 | `String(v)`, as JavaScript prints each modelled kind of value. |
| Values.StrictEquals | backend/src/controllers/userController.js:298 | `===`: equal primitives, and never two objects (no object identity is modelled). |
| Values.ParseIntOf | backend/src/middleware/validationMiddeware.js:375 | `parseInt(v)` is `parseInt(String(v))`. |
| Text.ParseInt | backend/src/middleware/validationMiddeware.js:375 | `parseInt`: leading white space and one sign are skipped, then a "0x" prefix selects base 16, and the longest run of digits of the base is read; no digit means NaN. |
| Text.IsSpace | backend/src/middleware/validationMiddeware.js:103 | The ECMAScript white-space and line-terminator set that `trim` removes. |

## Left out

- Express plumbing is not modelled: `errorResponse`/`successResponse` and the response body layout, header formatting, ISO date strings, and console logging. `utils/response.js` is not part of this model. A reply is its status, message and cookie instructions.
- Timers and process signals are left out: the `setInterval` sweep, and the SIGTERM/SIGINT handlers that call `destroy`. Time is a parameter, and `Cleanup` is the sweep run at a given time.
- Concurrency is left out. The skip-on-outcome hook can pop another request's timestamp when requests on one key interleave. `RatePolicy.Replay` settles each request before the next arrives, so no atomicity is claimed.
- `onLimitReached` callbacks are left out: they only log.
- The `keyGenerator` option of `createRateLimit` is left out as a free function. Keys come from the six named rules and the client address.
- JWT signing and verification are left out; their answers are parameters.
- The ORM is left out, including the re-read through `getPromotionById`, and a failure of the `usedCount` update itself. The promotion is the record `findByPk` returned.
- bcrypt and the account service are left out; their answers are parameters.
- Numbers in request values are integers. Non-integral numbers are left out, and so are arrays (their `String()` joining) and the loss of precision above 2^53.
- `toLowerCase` maps ASCII letters only.
- `.length` counts code points, not UTF-16 units.
- Values.LengthOf: an object's own properties are not modelled, so a parsed JSON object such as `{"length": 2}` has no `.length` here, where JavaScript reads that property. The login, password-reset and role-description length checks therefore accept such an object where the code would compare its `length`.
- Values.StringOf: an object always prints as "[object Object]"; an own `toString` key (a JSON object cannot carry a function, so `String()` would throw) is not modelled.
- The `isEmail`, `isStrongPassword`, `isValidUsername` and `isValidPhoneNumber` regular expressions are restated as character predicates, not run by a regex engine.
- Validators that read fields of an absent `req.body` (and so throw before their first check) are not modelled; the body is a map.
- Cookie path matching is not modelled. Every session cookie lives at path "/", so a cookie name identifies it.
- The `me`, `checkAuth` and `refreshToken` handlers of the auth controller are not modelled.
- `getUserById`, `getUserStats`, `getUsersByRole` and `activateUser` of the user controller are not modelled. They are service calls with the same "not found" → 404 classification as `GuardedAction`.
- The paging itself is not modelled, because `getAllUsers` does not slice the list. Only the reported `page` and `limit` are.
- The catch arms of `requireRole` and `requireActive` are not modelled. Nothing in their bodies can throw once `req.user` is a record.
- UserController.InactiveUsersStatus: what the responder does when handed an undefined status is not stated. `utils/response.js` is not part of this model.
- Routes and their middleware wiring are left out.

## Findings

| source | as written | input that shows it | evidently intended | confidence | as-written member | corrected member |
|---|---|---|---|---|---|---|
| backend/src/middleware/rateLimitMiddleware.js:38-46, 124-128, 172-176 | With `max <= 0`, the deny branch builds the reset time from `validRequests[0]`, which is undefined for an empty list. `toISOString` then throws and the catch calls `next()`. The key never gains a timestamp, so this repeats forever. | `createRateLimit({ max: 0 })`, then any request | A limit of 0 refuses every request with 429 | high; not executed | RatePolicy.ZeroLimitAlwaysAdmits | RatePolicy.AdmitCorrected (with RatePolicy.CorrectedZeroLimitDenies and RatePolicy.CorrectionAgreesOnPositiveLimits) |
| backend/src/controllers/authController.js:78 | `register` calls `userAccountService.createUserAccount`, but `services/userAccountService.js` exports a `UserService` whose creating method is `createUser` (line 39); no method of that name exists. The call throws a `TypeError` whose message matches none of the catch's cases. | any request that passes the pre-checks with a free username | the account is created and the user is answered 201 and logged in | high; not executed | AuthController.RegisterAsWritten (with AuthController.RegisterAsWrittenFails) | AuthController.Register (with AuthController.RegistrationLogsIn) |
| backend/src/controllers/userController.js:96 | The failure branch of `getInactiveUsers` passes `StatusCodes.INTERNAL_SERVER_SERVER`, a name that does not exist, so the status is `undefined` | the service's `getInactiveUsers` throws | 500, like the sibling listings at lines 48 and 72 | high; not executed | UserController.InactiveUsersFailureHasNoStatus | UserController.InactiveUsersStatus |

=== FILE: accounts.dfy ===
/** The user record the guards and controllers read, as loaded with its role and employee. */
module Accounts {
  import opened Wrappers

  /** The associated role; its name may be missing in the database. */
  datatype Role = Role(roleName: Option<string>)

  /** The associated employee profile. */
  datatype Employee = Employee(fullName: Option<string>)

  datatype User = User(
    id: int,
    username: string,
    roleId: Option<int>,
    isActive: bool,
    role: Option<Role>,
    employee: Option<Employee>)

  /** `user.role?.roleName`. */
  function RoleNameOf(u: User): Option<string> {
    if u.role.Some? then u.role.value.roleName else None
  }

  /** `user.role?.roleName === name`. */
  predicate HasRoleName(u: User, name: string) {
    RoleNameOf(u) == Some(name)
  }
}

=== FILE: auth_controller.dfy ===
/**
 * The authentication controller's own checks: the pre-check ladders of
 * `register`, `login`, `changePassword` and `resetPassword`, the account
 * record `register` asks for, the session cookies it and `login` write,
 * `logout`'s clearing, and the mapping from a service error's message to
 * a status.
 */
module AuthController {
  import opened Wrappers
  import opened Text
  import opened Values
  import opened Cookies
  import opened Validation

  const Ok200: int := 200
  const Created: int := 201
  const BadRequest: int := 400
  const Unauthorized: int := 401
  const NotFound: int := 404
  const Conflict: int := 409
  const ServerError: int := 500

  /** Status, message and the cookie instructions of one response. */
  datatype Reply = Reply(status: int, message: string, cookies: seq<CookieOp>)

  function Plain(status: int, message: string): Reply {
    Reply(status, message, [])
  }

  /** The answers of the token signers, each a token or the error it threw. */
  datatype Signers = Signers(access: Attempt<string>, refresh: Attempt<string>)

  /**
   * After the account is known: sign both tokens and write the session
   * cookies, or pass a signing error's message to `onError`.
   */
  function IssueSession(production: bool, signers: Signers, status: int, message: string,
                        onError: string -> Reply): (r: Reply)
    ensures signers.access.Ok? && signers.refresh.Ok? ==>
      r == Reply(status, message, SessionCookies(production, signers.access.value, signers.refresh.value))
    ensures signers.access.Thrown? ==> r == onError(signers.access.message)
    ensures signers.access.Ok? && signers.refresh.Thrown? ==> r == onError(signers.refresh.message)
  {
    match signers.access
    case Thrown(m) => onError(m)
    case Ok(a) =>
      match signers.refresh
      case Thrown(m) => onError(m)
      case Ok(t) => Reply(status, message, SessionCookies(production, a, t))
  }

  // ---------------------------------------------------------------- register

  const MsgRegisterFieldsRequired: string := "Username, password, and confirm password are required"
  const MsgRegisterMismatch: string := "Password and confirm password do not match"
  const MsgRegisterShort: string := "Password must be at least 6 characters long"
  const MsgUsernameExists: string := "Username already exists"
  const MsgInvalidRole: string := "Invalid role specified"
  const MsgRegisterFailed: string := "Registration failed. Please try again."
  const MsgRegistered: string := "Registration successful"

  /** The record `register` hands to the account service. */
  datatype AccountRequest = AccountRequest(username: Value, password: Value, roleId: Value, isActive: bool)

  /** The classification of an error thrown after the pre-checks. */
  function RegisterError(m: string): (r: Reply)
    ensures r.cookies == []
    ensures r.status in {Conflict, BadRequest, ServerError}
    ensures r.status == Conflict <==> Includes(m, "username") && Includes(m, "exists")
    ensures r.status == BadRequest <==>
      !(Includes(m, "username") && Includes(m, "exists")) && (Includes(m, "role") || Includes(m, "foreign key"))
  {
    if Includes(m, "username") && Includes(m, "exists") then Plain(Conflict, MsgUsernameExists)
    else if Includes(m, "role") || Includes(m, "foreign key") then Plain(BadRequest, MsgInvalidRole)
    else Plain(ServerError, MsgRegisterFailed)
  }

  /** The pre-checks of `register`, in order; `None` when all pass. */
  function RegisterPrecheck(body: Fields): (r: Option<Reply>)
    ensures r.Some? ==> r.value.status == BadRequest && r.value.cookies == []
    ensures r.None? <==>
      var u, p, c := Get(body, "username"), Get(body, "password"), Get(body, "confirmPassword");
      Truthy(u) && Truthy(p) && Truthy(c) && StrictEquals(p, c) && !LengthBelow(p, 6)
  {
    var u, p, c := Get(body, "username"), Get(body, "password"), Get(body, "confirmPassword");
    if !Truthy(u) || !Truthy(p) || !Truthy(c) then Some(Plain(BadRequest, MsgRegisterFieldsRequired))
    else if !StrictEquals(p, c) then Some(Plain(BadRequest, MsgRegisterMismatch))
    else if LengthBelow(p, 6) then Some(Plain(BadRequest, MsgRegisterShort))
    else None
  }

  /** What `register` did: its reply, and the account it asked for if it got that far. */
  datatype Registration = Registration(reply: Reply, requested: Option<AccountRequest>)

  /**
   * `register`. `taken` answers the existence check, `created` the
   * account creation (the new user's id), `signers` the token signing.
   * An omitted or falsy role id becomes 3, and the account is active.
   */
  function Register(production: bool, body: Fields, taken: Attempt<bool>, created: Attempt<int>,
                    signers: Signers): (r: Registration)
    ensures r.requested.Some? ==>
      && r.requested.value.isActive
      && r.requested.value.username == Get(body, "username")
      && r.requested.value.password == Get(body, "password")
      && (Truthy(Get(body, "roleId")) ==> r.requested.value.roleId == Get(body, "roleId"))
      && (!Truthy(Get(body, "roleId")) ==> r.requested.value.roleId == Num(3))
    ensures r.requested.Some? <==> RegisterPrecheck(body).None? && taken == Ok(false)
    ensures r.reply.status == Created <==>
      r.requested.Some? && created.Ok? && signers.access.Ok? && signers.refresh.Ok?
    ensures RegisterPrecheck(body).Some? ==> r.reply == RegisterPrecheck(body).value
    ensures RegisterPrecheck(body).None? && taken == Ok(true) ==> r.reply == Plain(Conflict, MsgUsernameExists)
    ensures RegisterPrecheck(body).None? && taken.Thrown? ==> r.reply == RegisterError(taken.message)
    ensures r.requested.Some? && created.Thrown? ==> r.reply == RegisterError(created.message)
    ensures r.requested.Some? && created.Ok? && signers.access.Ok? && signers.refresh.Ok? ==>
      r.reply == Reply(Created, MsgRegistered, SessionCookies(production, signers.access.value, signers.refresh.value))
    ensures r.requested.Some? && created.Ok? && signers.access.Thrown? ==>
      r.reply == RegisterError(signers.access.message)
    ensures r.requested.Some? && created.Ok? && signers.access.Ok? && signers.refresh.Thrown? ==>
      r.reply == RegisterError(signers.refresh.message)
  {
    match RegisterPrecheck(body)
    case Some(rejection) => Registration(rejection, None)
    case None =>
      match taken
      case Thrown(m) => Registration(RegisterError(m), None)
      case Ok(exists_) =>
        if exists_ then Registration(Plain(Conflict, MsgUsernameExists), None)
        else
          var role := Get(body, "roleId");
          var account := AccountRequest(Get(body, "username"), Get(body, "password"),
                                        if Truthy(role) then role else Num(3), true);
          match created
          case Thrown(m) => Registration(RegisterError(m), Some(account))
          case Ok(_) => Registration(IssueSession(production, signers, Created, MsgRegistered, RegisterError), Some(account))
  }

  /**
   * The error every call of `userAccountService.createUserAccount` throws:
   * the account service defines `createUser`, and no method of that name.
   */
  const MsgNoCreateUserAccount: string := "userAccountService" + ".createUserAccount" + " is not a function"

  /**
   * `register` as written: the account-creation call always throws, and
   * the catch classifies the `TypeError` as an unexpected failure. No
   * registration ever succeeds or writes a cookie.
   */
  function RegisterAsWritten(production: bool, body: Fields, taken: Attempt<bool>, signers: Signers): (r: Registration)
    ensures r.reply.status != Created && r.reply.cookies == []
    ensures RegisterPrecheck(body).None? && taken == Ok(false) ==> r.reply == Plain(ServerError, MsgRegisterFailed)
    ensures !(RegisterPrecheck(body).None? && taken == Ok(false)) ==>
      r.reply == Register(production, body, taken, Ok(0), signers).reply
  {
    NoCreateUserAccountIsUnexpected();
    Register(production, body, taken, Thrown(MsgNoCreateUserAccount), signers)
  }

  // The three pieces of the message lack the letters 'm', 'l' and 'k', one
  // piece per lemma so that each literal is unfolded on its own.
  lemma ServicePieceLacksMLK()
    ensures var w := "userAccountService"; 'm' !in w && 'l' !in w && 'k' !in w
  {
  }

  lemma MethodPieceLacksMLK()
    ensures var w := ".createUserAccount"; 'm' !in w && 'l' !in w && 'k' !in w
  {
  }

  lemma TailPieceLacksMLK()
    ensures var w := " is not a function"; 'm' !in w && 'l' !in w && 'k' !in w
  {
  }

  /** The `TypeError`'s message mentions neither a taken username nor a role. */
  lemma NoCreateUserAccountIsUnexpected()
    ensures RegisterError(MsgNoCreateUserAccount) == Plain(ServerError, MsgRegisterFailed)
  {
    assert "username"[6] == 'm' && "role"[2] == 'l' && "foreign key"[8] == 'k';
    ServicePieceLacksMLK();
    MethodPieceLacksMLK();
    TailPieceLacksMLK();
    IncludesNeedsChar(MsgNoCreateUserAccount, "username", 'm');
    IncludesNeedsChar(MsgNoCreateUserAccount, "role", 'l');
    IncludesNeedsChar(MsgNoCreateUserAccount, "foreign key", 'k');
  }

  /**
   * The discrepancy: a request that passes every check and names a free
   * username gets the 500 as written, where the intended controller
   * answers 201 and logs the new user in.
   */
  lemma RegisterAsWrittenFails(production: bool, body: Fields, id: int, a: string, t: string)
    requires RegisterPrecheck(body).None?
    ensures RegisterAsWritten(production, body, Ok(false), Signers(Ok(a), Ok(t))).reply == Plain(ServerError, MsgRegisterFailed)
    ensures Register(production, body, Ok(false), Ok(id), Signers(Ok(a), Ok(t))).reply.status == Created
  {
  }

  /** A request the pre-checks refuse never reaches the services: their answers cannot matter. */
  lemma RegisterPrecheckShortCircuits(production: bool, body: Fields, t1: Attempt<bool>, c1: Attempt<int>, s1: Signers,
                                      t2: Attempt<bool>, c2: Attempt<int>, s2: Signers)
    requires RegisterPrecheck(body).Some?
    ensures Register(production, body, t1, c1, s1) == Register(production, body, t2, c2, s2)
    ensures Register(production, body, t1, c1, s1).requested.None?
  {
  }

  /** Whatever registration validation lets through passes the controller's own pre-checks. */
  lemma ValidatedRegistrationPassesPrecheck(body: Fields, taken: Attempt<bool>)
    requires ValidateRegister(body, taken).Next?
    ensures RegisterPrecheck(body).None?
  {
  }

  /** A successful registration logs the new user in: the browser ends up holding the fresh session. */
  lemma RegistrationLogsIn(production: bool, body: Fields, id: int, a: string, t: string, jar: Jar)
    requires RegisterPrecheck(body).None?
    ensures var r := Register(production, body, Ok(false), Ok(id), Signers(Ok(a), Ok(t)));
      && r.reply.status == Created
      && Apply(jar, r.reply.cookies) == jar[AccessCookie := a][RefreshCookie := t][LoginFlagCookie := "true"]
  {
    LoginInstallsSession(jar, production, a, t);
  }

  // ---------------------------------------------------------------- login and logout

  const MsgLoginFieldsRequired: string := "Username and password are required"
  const MsgLoginFailed: string := "Invalid username or password"
  const MsgLoggedIn: string := "Login successful"
  const MsgLoggedOut: string := "Logout successful"

  /** `login`: `authenticated` is the account service's answer (the user's id) or its error. */
  function Login(production: bool, body: Fields, authenticated: Attempt<int>, signers: Signers): (r: Reply)
    ensures !Truthy(Get(body, "username")) || !Truthy(Get(body, "password")) ==>
      r == Plain(BadRequest, MsgLoginFieldsRequired)
    ensures r.status == Ok200 <==>
      Truthy(Get(body, "username")) && Truthy(Get(body, "password"))
      && authenticated.Ok? && signers.access.Ok? && signers.refresh.Ok?
    ensures r.status != Ok200 ==> r.cookies == []
  {
    if !Truthy(Get(body, "username")) || !Truthy(Get(body, "password")) then
      Plain(BadRequest, MsgLoginFieldsRequired)
    else
      match authenticated
      case Thrown(_) => Plain(Unauthorized, MsgLoginFailed)
      case Ok(_) => IssueSession(production, signers, Ok200, MsgLoggedIn, _ => Plain(Unauthorized, MsgLoginFailed))
  }

  /** Every authentication failure reads the same, whatever the service said went wrong. */
  lemma LoginFailuresIndistinguishable(production: bool, body: Fields, m1: string, m2: string, s1: Signers, s2: Signers)
    requires Truthy(Get(body, "username")) && Truthy(Get(body, "password"))
    ensures Login(production, body, Thrown(m1), s1) == Login(production, body, Thrown(m2), s2)
      == Plain(Unauthorized, MsgLoginFailed)
  {
  }

  /** `logout`: clears the three session cookies. */
  function Logout(production: bool): (r: Reply)
    ensures r.status == Ok200 && r.message == MsgLoggedOut
    ensures r.cookies == ControllerLogout(production)
  {
    Reply(Ok200, MsgLoggedOut, ControllerLogout(production))
  }

  /** Logging in and then out leaves the browser without a session and otherwise as it was. */
  lemma LoginLogoutRoundTrip(production: bool, body: Fields, id: int, a: string, t: string, jar: Jar)
    requires Truthy(Get(body, "username")) && Truthy(Get(body, "password"))
    ensures var inJar := Apply(jar, Login(production, body, Ok(id), Signers(Ok(a), Ok(t))).cookies);
      Apply(inJar, Logout(production).cookies) == jar - SessionNames
  {
    LoginThenLogout(jar, production, a, t);
  }

  // ---------------------------------------------------------------- changePassword and resetPassword

  const MsgChangeFieldsRequired: string := "Old password, new password, and confirm password are required"
  const MsgChangeMismatch: string := "New password and confirm password do not match"
  const MsgNewShort: string := "New password must be at least 6 characters long"
  const MsgCurrentIncorrect: string := "Current password is incorrect"
  const MsgChangeFailed: string := "Failed to change password"
  const MsgChanged: string := "Password changed successfully"
  const MsgResetFieldsRequired: string := "User ID and new password are required"
  const MsgUserNotFound: string := "User not found"
  const MsgResetFailed: string := "Failed to reset password"
  const MsgReset: string := "Password reset successfully"

  function ChangePasswordPrecheck(body: Fields): (r: Option<Reply>)
    ensures r.Some? ==> r.value.status == BadRequest
    ensures r.None? <==>
      var o, n, c := Get(body, "oldPassword"), Get(body, "newPassword"), Get(body, "confirmPassword");
      Truthy(o) && Truthy(n) && Truthy(c) && StrictEquals(n, c) && !LengthBelow(n, 6)
  {
    var o, n, c := Get(body, "oldPassword"), Get(body, "newPassword"), Get(body, "confirmPassword");
    if !Truthy(o) || !Truthy(n) || !Truthy(c) then Some(Plain(BadRequest, MsgChangeFieldsRequired))
    else if !StrictEquals(n, c) then Some(Plain(BadRequest, MsgChangeMismatch))
    else if LengthBelow(n, 6) then Some(Plain(BadRequest, MsgNewShort))
    else None
  }

  /** `changePassword`: `changed` is the account service's answer. */
  function ChangePassword(body: Fields, changed: Attempt<()>): (r: Reply)
    ensures ChangePasswordPrecheck(body).Some? ==> r == ChangePasswordPrecheck(body).value
    ensures ChangePasswordPrecheck(body).None? && changed.Thrown? ==>
      (r == Plain(BadRequest, MsgCurrentIncorrect) <==> Includes(changed.message, MsgCurrentIncorrect))
      && (r == Plain(ServerError, MsgChangeFailed) <==> !Includes(changed.message, MsgCurrentIncorrect))
    ensures r.status == Ok200 <==> ChangePasswordPrecheck(body).None? && changed.Ok?
  {
    match ChangePasswordPrecheck(body)
    case Some(rejection) => rejection
    case None =>
      match changed
      case Ok(_) => Plain(Ok200, MsgChanged)
      case Thrown(m) =>
        if Includes(m, MsgCurrentIncorrect) then Plain(BadRequest, MsgCurrentIncorrect)
        else Plain(ServerError, MsgChangeFailed)
  }

  /** Whatever password-change validation lets through reaches the account service. */
  lemma ValidatedChangeReachesService(body: Fields)
    requires ValidatePasswordChange(body).Next?
    ensures ChangePasswordPrecheck(body).None?
  {
  }

  function ResetPasswordPrecheck(body: Fields): (r: Option<Reply>)
    ensures r.Some? ==> r.value.status == BadRequest
    ensures r.None? <==>
      Truthy(Get(body, "userId")) && Truthy(Get(body, "newPassword")) && !LengthBelow(Get(body, "newPassword"), 6)
  {
    var id, n := Get(body, "userId"), Get(body, "newPassword");
    if !Truthy(id) || !Truthy(n) then Some(Plain(BadRequest, MsgResetFieldsRequired))
    else if LengthBelow(n, 6) then Some(Plain(BadRequest, MsgNewShort))
    else None
  }

  /** `resetPassword`: `reset` is the account service's answer. */
  function ResetPassword(body: Fields, reset: Attempt<()>): (r: Reply)
    ensures ResetPasswordPrecheck(body).Some? ==> r == ResetPasswordPrecheck(body).value
    ensures ResetPasswordPrecheck(body).None? && reset.Thrown? ==>
      (r.status == NotFound <==> Includes(reset.message, "User account not found"))
      && (r.status == ServerError <==> !Includes(reset.message, "User account not found"))
    ensures r.status == Ok200 <==> ResetPasswordPrecheck(body).None? && reset.Ok?
  {
    match ResetPasswordPrecheck(body)
    case Some(rejection) => rejection
    case None =>
      match reset
      case Ok(_) => Plain(Ok200, MsgReset)
      case Thrown(m) =>
        if Includes(m, "User account not found") then Plain(NotFound, MsgUserNotFound)
        else Plain(ServerError, MsgResetFailed)
  }

  /** Whatever password-reset validation lets through reaches the account service. */
  lemma ValidatedResetReachesService(body: Fields)
    requires ValidatePasswordReset(body).Next?
    ensures ResetPasswordPrecheck(body).None?
  {
  }
}

=== FILE: controllers.dfy ===
/**
 * Facts that relate the two controllers: `createUser` classifies a service
 * error the way `register` does.
 */
module Controllers {
  import opened Wrappers
  import AuthController
  import UserController

  /**
   * `createUser` and `register` give every service error the same status,
   * and the same message unless it is the final 500.
   */
  lemma CreateClassifiesLikeRegister(m: string)
    ensures UserController.CreateUser(Thrown(m)).status == AuthController.RegisterError(m).status
    ensures UserController.CreateUser(Thrown(m)).status != 500 ==>
      UserController.CreateUser(Thrown(m)).message == AuthController.RegisterError(m).message
  {
  }
}

=== FILE: cookies.dfy ===
/**
 * The session cookies the guard and the authentication controller write
 * and clear, and the browser cookie jar those instructions act on.
 */
module Cookies {
  import opened Wrappers

  /** The cookie attributes the code sets; `sameSite` is always "strict" here. */
  datatype CookieOptions = CookieOptions(
    httpOnly: bool,
    secure: bool,
    strictSameSite: bool,
    path: Option<string>,
    maxAgeMs: Option<int>)

  /** One `res.cookie` or `res.clearCookie` instruction. */
  datatype CookieOp =
    | SetCookie(name: string, value: string, opts: CookieOptions)
    | ClearCookie(name: string, opts: CookieOptions)
  {
    function Name(): string {
      match this
      case SetCookie(n, _, _) => n
      case ClearCookie(n, _) => n
    }
  }

  const AccessCookie: string := "accessToken"
  const RefreshCookie: string := "refreshToken"
  const LoginFlagCookie: string := "isLogin"

  /** The three cookies that make up a session. */
  const SessionNames: set<string> := {AccessCookie, RefreshCookie, LoginFlagCookie}

  const MinuteMs: int := 60 * 1000
  const DayMs: int := 24 * 60 * MinuteMs

  /** The guard's clearing options: secure only in production, no explicit path. */
  function GuardClearOptions(production: bool): CookieOptions {
    CookieOptions(true, production, true, None, None)
  }

  /** The guard's `logout(res)`: clears the three session cookies. */
  function GuardLogout(production: bool): (ops: seq<CookieOp>)
    ensures |ops| == 3
    ensures forall i :: 0 <= i < |ops| ==> ops[i].ClearCookie? && ops[i].opts.httpOnly
    ensures forall i :: 0 <= i < |ops| ==> ops[i].Name() in SessionNames
  {
    var o := GuardClearOptions(production);
    [ClearCookie(AccessCookie, o), ClearCookie(RefreshCookie, o), ClearCookie(LoginFlagCookie, o)]
  }

  /** The access cookie the guard writes after a refresh: httpOnly, strict, seven days. */
  function GuardAccessCookie(production: bool, token: string): (op: CookieOp)
    ensures op.SetCookie? && op.name == AccessCookie && op.value == token
    ensures op.opts.httpOnly && op.opts.maxAgeMs == Some(7 * DayMs)
  {
    SetCookie(AccessCookie, token, CookieOptions(true, production, true, None, Some(7 * DayMs)))
  }

  /** The controller's base options: httpOnly, strict, path "/". */
  function ControllerOptions(production: bool, httpOnly: bool, maxAgeMs: Option<int>): CookieOptions {
    CookieOptions(httpOnly, production, true, Some("/"), maxAgeMs)
  }

  /**
   * The cookies a successful login or registration writes: the access
   * token for fifteen minutes, the refresh token for seven days, and an
   * `isLogin` flag readable by scripts for seven days.
   */
  function SessionCookies(production: bool, access: string, refresh: string): (ops: seq<CookieOp>)
    ensures |ops| == 3 && forall i :: 0 <= i < 3 ==> ops[i].SetCookie?
    ensures ops[0] == SetCookie(AccessCookie, access, ControllerOptions(production, true, Some(15 * MinuteMs)))
    ensures ops[1] == SetCookie(RefreshCookie, refresh, ControllerOptions(production, true, Some(7 * DayMs)))
    ensures ops[2] == SetCookie(LoginFlagCookie, "true", ControllerOptions(production, false, Some(7 * DayMs)))
  {
    [SetCookie(AccessCookie, access, ControllerOptions(production, true, Some(15 * MinuteMs))),
     SetCookie(RefreshCookie, refresh, ControllerOptions(production, true, Some(7 * DayMs))),
     SetCookie(LoginFlagCookie, "true", ControllerOptions(production, false, Some(7 * DayMs)))]
  }

  /** The controller's logout: clears the three session cookies at path "/". */
  function ControllerLogout(production: bool): (ops: seq<CookieOp>)
    ensures |ops| == 3 && forall i :: 0 <= i < 3 ==> ops[i].ClearCookie?
    ensures forall i :: 0 <= i < |ops| ==> ops[i].Name() in SessionNames
  {
    [ClearCookie(AccessCookie, ControllerOptions(production, true, None)),
     ClearCookie(RefreshCookie, ControllerOptions(production, true, None)),
     ClearCookie(LoginFlagCookie, ControllerOptions(production, false, None))]
  }

  /**
   * What a browser holds, by cookie name. Every cookie here lives at path
   * "/" (the framework's default when no path is given), so a name
   * identifies it.
   */
  type Jar = map<string, string>

  function ApplyOne(jar: Jar, op: CookieOp): Jar {
    match op
    case SetCookie(n, v, _) => jar[n := v]
    case ClearCookie(n, _) => jar - {n}
  }

  /** The browser applying a response's cookie instructions in order. */
  function Apply(jar: Jar, ops: seq<CookieOp>): (r: Jar)
    decreases |ops|
  {
    if ops == [] then jar else Apply(ApplyOne(jar, ops[0]), ops[1..])
  }

  /** Cookies a response does not name are left as they were. */
  lemma {:induction false} ApplyLeavesOthers(jar: Jar, ops: seq<CookieOp>, n: string)
    requires forall i :: 0 <= i < |ops| ==> ops[i].Name() != n
    ensures n in Apply(jar, ops) <==> n in jar
    ensures n in jar ==> Apply(jar, ops)[n] == jar[n]
    decreases |ops|
  {
    if ops != [] {
      assert ops[0].Name() != n;
      ApplyLeavesOthers(ApplyOne(jar, ops[0]), ops[1..], n);
    }
  }

  lemma ApplyThree(jar: Jar, ops: seq<CookieOp>)
    requires |ops| == 3
    ensures Apply(jar, ops) == ApplyOne(ApplyOne(ApplyOne(jar, ops[0]), ops[1]), ops[2])
  {
    var j1 := ApplyOne(jar, ops[0]);
    var j2 := ApplyOne(j1, ops[1]);
    assert Apply(jar, ops) == Apply(j1, ops[1..]);
    assert Apply(j1, ops[1..]) == Apply(j2, ops[2..]);
    assert Apply(j2, ops[2..]) == Apply(ApplyOne(j2, ops[2]), ops[3..]);
  }

  /** After the guard's logout the browser holds no session cookie, and nothing else changed. */
  lemma GuardLogoutEndsSession(jar: Jar, production: bool)
    ensures Apply(jar, GuardLogout(production)) == jar - SessionNames
  {
    ApplyThree(jar, GuardLogout(production));
  }

  /** The controller's logout has the same effect on the browser. */
  lemma ControllerLogoutEndsSession(jar: Jar, production: bool)
    ensures Apply(jar, ControllerLogout(production)) == jar - SessionNames
  {
    ApplyThree(jar, ControllerLogout(production));
  }

  /** A login followed by a logout leaves the browser as it was, minus any older session. */
  lemma LoginThenLogout(jar: Jar, production: bool, access: string, refresh: string)
    ensures Apply(Apply(jar, SessionCookies(production, access, refresh)), ControllerLogout(production))
      == jar - SessionNames
  {
    var afterLogin := Apply(jar, SessionCookies(production, access, refresh));
    LoginInstallsSession(jar, production, access, refresh);
    ControllerLogoutEndsSession(afterLogin, production);
  }

  /** After a login the browser holds the issued tokens and the login flag, and nothing else changed. */
  lemma LoginInstallsSession(jar: Jar, production: bool, access: string, refresh: string)
    ensures Apply(jar, SessionCookies(production, access, refresh))
      == jar[AccessCookie := access][RefreshCookie := refresh][LoginFlagCookie := "true"]
  {
    ApplyThree(jar, SessionCookies(production, access, refresh));
  }

  /** Of the session cookies only the login flag is readable by page scripts. */
  lemma OnlyLoginFlagIsScriptVisible(production: bool, access: string, refresh: string, i: int)
    requires 0 <= i < 3
    ensures var op := SessionCookies(production, access, refresh)[i];
      !op.opts.httpOnly <==> op.name == LoginFlagCookie
  {
  }
}

=== FILE: promotion.dfy ===
/**
 * `promotionService.incrementUsageCount`: a usage counter with an optional
 * cap. The stored record is a parameter (the lookup's answer) and the
 * result is the record as saved, or the error the service raises.
 */
module Promotions {
  import opened Wrappers
  import opened Values

  /** The two columns the counter reads, and every other column as it is stored. */
  datatype Promotion = Promotion(usageLimit: Option<int>, usedCount: Option<int>, others: Fields)

  /** A null count reads as 0, both in the `>=` comparison and in `usedCount || 0`. */
  function Used(p: Promotion): int {
    p.usedCount.GetOr(0)
  }

  /** Only a truthy limit caps the counter: null and 0 mean unlimited. */
  predicate HasCap(p: Promotion) {
    p.usageLimit.Some? && p.usageLimit.value != 0
  }

  predicate Exhausted(p: Promotion) {
    HasCap(p) && Used(p) >= p.usageLimit.value
  }

  const ErrorPrefix: string := "Error incrementing usage count: "
  const MsgNotFound: string := ErrorPrefix + "Promotion not found"
  const MsgLimitReached: string := ErrorPrefix + "Promotion usage limit reached"

  /** `incrementUsageCount`, given what `findByPk` returned. */
  function IncrementUsage(found: Option<Promotion>): (r: Attempt<Promotion>)
    ensures found.None? ==> r == Thrown(MsgNotFound)
    ensures found.Some? ==> (r.Thrown? <==> Exhausted(found.value))
    ensures found.Some? && r.Thrown? ==> r.message == MsgLimitReached
    ensures r.Ok? ==> Used(r.value) == Used(found.value) + 1
    ensures r.Ok? ==> r.value.usageLimit == found.value.usageLimit && r.value.others == found.value.others
  {
    match found
    case None => Thrown(MsgNotFound)
    case Some(p) =>
      if p.usageLimit.Some? && p.usageLimit.value != 0 && Used(p) >= p.usageLimit.value then Thrown(MsgLimitReached)
      else Ok(p.(usedCount := Some(Used(p) + 1)))
  }

  /** With no limit, or a limit of 0, every increment succeeds. */
  lemma UncappedAlwaysIncrements(p: Promotion)
    requires p.usageLimit == None || p.usageLimit == Some(0)
    ensures IncrementUsage(Some(p)).Ok?
  {
  }

  /**
   * `n` sequential calls on one promotion: the record after them and how
   * many succeeded. A refused call leaves the record as it was.
   */
  function Redeem(p: Promotion, n: nat): (r: (Promotion, nat))
    ensures r.1 <= n
    ensures r.0.usageLimit == p.usageLimit && r.0.others == p.others
    ensures Used(r.0) == Used(p) + r.1
    decreases n
  {
    if n == 0 then (p, 0)
    else
      match IncrementUsage(Some(p))
      case Ok(q) => var after := Redeem(q, n - 1); (after.0, after.1 + 1)
      case Thrown(_) => Redeem(p, n - 1)
  }

  /**
   * Starting at or below a positive limit, any number of sequential calls
   * stops exactly at the limit: the count never passes it, and the calls
   * granted are as many as the room that was left.
   */
  lemma {:induction false} CapNeverExceeded(p: Promotion, n: nat)
    requires p.usageLimit.Some? && p.usageLimit.value > 0 && Used(p) <= p.usageLimit.value
    ensures Used(Redeem(p, n).0) <= p.usageLimit.value
    ensures Redeem(p, n).1 == if n <= p.usageLimit.value - Used(p) then n else p.usageLimit.value - Used(p)
    decreases n
  {
    if n > 0 {
      match IncrementUsage(Some(p))
      case Ok(q) => CapNeverExceeded(q, n - 1);
      case Thrown(_) => CapNeverExceeded(p, n - 1);
    }
  }

  /** Without a cap every call is granted and the count grows by exactly `n`. */
  lemma {:induction false} UncappedGrantsAll(p: Promotion, n: nat)
    requires !HasCap(p)
    ensures Redeem(p, n).1 == n
    ensures Used(Redeem(p, n).0) == Used(p) + n
    decreases n
  {
    if n > 0 {
      UncappedGrantsAll(p.(usedCount := Some(Used(p) + 1)), n - 1);
    }
  }
}

=== FILE: rate_limiter.dfy ===
/**
 * The in-memory sliding-window log behind every rate-limit policy: a map from
 * a key to the timestamps (milliseconds) of the requests counted against it.
 * The clock is a parameter; each operation returns the new registry.
 */
module RateLimiter {
  import opened Wrappers
  import opened Seqs

  /** Each key's counted request timestamps, oldest first. */
  type Registry = map<string, seq<int>>

  /** How long `cleanup` keeps a timestamp: 24 hours. */
  const RetentionMs: int := 24 * 60 * 60 * 1000

  /** A key's history; a key never seen has none. */
  function History(reg: Registry, key: string): seq<int> {
    if key in reg then reg[key] else []
  }

  predicate Sorted(ts: seq<int>) {
    forall i, j :: 0 <= i < j < |ts| ==> ts[i] <= ts[j]
  }

  /** The test `Prune` keeps a timestamp by. */
  function After(windowStart: int): int -> bool {
    t => t > windowStart
  }

  /** The timestamps strictly after `windowStart`, in their original order. */
  function Prune(ts: seq<int>, windowStart: int): (r: seq<int>)
    ensures |r| <= |ts|
    ensures forall t :: t in r <==> t in ts && t > windowStart
    ensures KeepsExactly(r, ts, After(windowStart))
    ensures Sorted(ts) ==> Sorted(r)
    ensures (forall i :: 0 <= i < |ts| ==> ts[i] > windowStart) ==> r == ts
    ensures (forall i :: 0 <= i < |ts| ==> ts[i] <= windowStart) ==> r == []
    decreases |ts|
  {
    if ts == [] then []
    else
      var rest := Prune(ts[1..], windowStart);
      if ts[0] > windowStart then
        assert ([ts[0]] + rest)[1..] == rest;
        [ts[0]] + rest
      else rest
  }

  /**
   * Pruning keeps every timestamp inside the window as often as it was
   * recorded, drops every older one, and keeps the recorded order.
   */
  lemma PruneKeepsEachSurvivor(ts: seq<int>, windowStart: int)
    ensures IsSubsequence(Prune(ts, windowStart), ts)
    ensures forall t :: multiset(Prune(ts, windowStart))[t] == if t > windowStart then multiset(ts)[t] else 0
  {
    KeptCounts(Prune(ts, windowStart), ts, After(windowStart));
  }

  /** Pruning at an earlier start and then at a later one is pruning at the later one. */
  lemma {:induction false} PruneTwice(ts: seq<int>, a: int, b: int)
    requires a <= b
    ensures Prune(Prune(ts, a), b) == Prune(ts, b)
    decreases |ts|
  {
    if ts != [] {
      PruneTwice(ts[1..], a, b);
      if ts[0] > a {
        assert Prune(ts, a) == [ts[0]] + Prune(ts[1..], a);
        assert ([ts[0]] + Prune(ts[1..], a))[1..] == Prune(ts[1..], a);
      }
    }
  }

  /** The answer `checkLimit` gives; `resetTime` is absent when it would be an invalid date. */
  datatype LimitInfo = LimitInfo(allowed: bool, remaining: int, resetTime: Option<int>, total: int)

  datatype Checked = Checked(registry: Registry, info: LimitInfo)

  /**
   * `checkLimit(key, limit, windowMs)` at time `now`: the key's history is
   * pruned to the window and stored back; a full window denies, otherwise
   * `now` is recorded. A deny with no survivors (only possible when
   * `limit <= 0`) reads the missing first element, so its reset time is absent.
   */
  function CheckLimit(reg: Registry, key: string, limit: int, windowMs: int, now: int): (r: Checked)
    ensures r.info.total == limit
    ensures r.registry.Keys == reg.Keys + {key}
    ensures forall k :: k in reg && k != key ==> r.registry[k] == reg[k]
    ensures r.info.allowed ==> |r.registry[key]| >= 1 && r.registry[key][|r.registry[key]| - 1] == now
    ensures r.info.allowed ==> r.info.remaining == limit - |r.registry[key]| >= 0
    ensures !r.info.allowed ==> r.info.remaining == 0 && |r.registry[key]| >= limit
  {
    var live := Prune(History(reg, key), now - windowMs);
    if |live| >= limit then
      Checked(reg[key := live],
              LimitInfo(false, 0, if |live| > 0 then Some(live[0] + windowMs) else None, limit))
    else
      Checked(reg[key := live + [now]],
              LimitInfo(true, limit - (|live| + 1), Some(now + windowMs), limit))
  }

  /** A key with no history is admitted, with one slot used and the window starting now. */
  lemma FirstRequestAdmitted(reg: Registry, key: string, limit: int, windowMs: int, now: int)
    requires History(reg, key) == []
    requires limit >= 1
    ensures var r := CheckLimit(reg, key, limit, windowMs, now);
      && r.info == LimitInfo(true, limit - 1, Some(now + windowMs), limit)
      && r.registry[key] == [now]
  {
  }

  /**
   * Whatever the answer, the stored history starts with exactly the
   * survivors of the window, i.e. the timestamps after `now - windowMs`.
   */
  lemma StoredHistoryIsPruned(reg: Registry, key: string, limit: int, windowMs: int, now: int)
    ensures var r := CheckLimit(reg, key, limit, windowMs, now);
      var live := Prune(History(reg, key), now - windowMs);
      && |live| <= |r.registry[key]|
      && r.registry[key][..|live|] == live
      && (forall t :: t in live <==> t in History(reg, key) && t > now - windowMs)
  {
    var live := Prune(History(reg, key), now - windowMs);
    if |live| < limit {
      assert (live + [now])[..|live|] == live;
    }
  }

  /** Deny exactly when the survivors fill the limit; a deny records nothing and names the oldest survivor. */
  lemma DenyIffWindowFull(reg: Registry, key: string, limit: int, windowMs: int, now: int)
    ensures var r := CheckLimit(reg, key, limit, windowMs, now);
      var live := Prune(History(reg, key), now - windowMs);
      && (!r.info.allowed <==> |live| >= limit)
      && (!r.info.allowed ==> r.registry[key] == live)
      && (!r.info.allowed && live != [] ==> r.info.resetTime == Some(live[0] + windowMs))
      && (!r.info.allowed && live == [] ==> r.info.resetTime.None? && limit <= 0)
  {
  }

  /** An admit appends `now` after the survivors, and the window ends `windowMs` from now. */
  lemma AdmitAppendsNow(reg: Registry, key: string, limit: int, windowMs: int, now: int)
    ensures var r := CheckLimit(reg, key, limit, windowMs, now);
      r.info.allowed ==>
        && r.registry[key] == Prune(History(reg, key), now - windowMs) + [now]
        && r.info.resetTime == Some(now + windowMs)
  {
  }

  /** With one limit per key, the stored history never grows past the limit. */
  lemma HistoryStaysWithinLimit(reg: Registry, key: string, limit: int, windowMs: int, now: int)
    requires limit >= 0 && |History(reg, key)| <= limit
    ensures |CheckLimit(reg, key, limit, windowMs, now).registry[key]| <= limit
  {
    var live := Prune(History(reg, key), now - windowMs);
    assert |live| <= |History(reg, key)|;
  }

  /** With a clock that never runs backwards, the stored history stays oldest-first. */
  lemma HistoryStaysSorted(reg: Registry, key: string, limit: int, windowMs: int, now: int)
    requires Sorted(History(reg, key))
    requires forall t :: t in History(reg, key) ==> t <= now
    ensures var h := CheckLimit(reg, key, limit, windowMs, now).registry[key];
      Sorted(h) && forall t :: t in h ==> t <= now
  {
    var live := Prune(History(reg, key), now - windowMs);
    var h := live + [now];
    forall i, j | 0 <= i < j < |h| ensures h[i] <= h[j] {
      if j < |live| {
      } else {
        assert h[i] in live;
      }
    }
  }

  /** Once every recorded request is at least one window old, the key is admitted again. */
  lemma AdmittedAfterWindowPasses(reg: Registry, key: string, limit: int, windowMs: int, now: int)
    requires limit >= 1
    requires forall t :: t in History(reg, key) ==> t + windowMs <= now
    ensures CheckLimit(reg, key, limit, windowMs, now).info.allowed
  {
    var h := History(reg, key);
    forall i | 0 <= i < |h| ensures h[i] <= now - windowMs {
      assert h[i] in h;
    }
  }

  // ---------------------------------------------------------------- bursts

  datatype BurstResult = BurstResult(registry: Registry, answers: seq<bool>)

  /** Sequential `checkLimit` calls on one key, at the given times. */
  function Burst(reg: Registry, key: string, limit: int, windowMs: int, nows: seq<int>): (r: BurstResult)
    ensures |r.answers| == |nows|
    decreases |nows|
  {
    if nows == [] then BurstResult(reg, [])
    else
      var c := CheckLimit(reg, key, limit, windowMs, nows[0]);
      var rest := Burst(c.registry, key, limit, windowMs, nows[1..]);
      BurstResult(rest.registry, [c.info.allowed] + rest.answers)
  }

  /** Requests of one burst shorter than the window all survive pruning at any of its times. */
  lemma BurstSurvives(all: seq<int>, k: nat, windowMs: int)
    requires k < |all| && Sorted(all)
    requires all[|all| - 1] - all[0] < windowMs
    ensures Prune(all[..k], all[k] - windowMs) == all[..k]
  {
    var done := all[..k];
    forall i | 0 <= i < |done| ensures done[i] > all[k] - windowMs {
      assert all[0] <= done[i];
      assert all[k] <= all[|all| - 1];
    }
  }

  /** One call of a burst: admitted while the burst has not yet filled the limit. */
  lemma BurstStep(reg: Registry, key: string, limit: nat, windowMs: int, all: seq<int>, k: nat)
    requires |all| == limit + 1 && k <= limit
    requires Sorted(all)
    requires all[|all| - 1] - all[0] < windowMs
    requires History(reg, key) == all[..k]
    ensures var c := CheckLimit(reg, key, limit, windowMs, all[k]);
      && (c.info.allowed <==> k < limit)
      && (k < limit ==> History(c.registry, key) == all[..k + 1])
  {
    BurstSurvives(all, k, windowMs);
    assert all[..k] + [all[k]] == all[..k + 1];
  }

  lemma BurstUnfold(reg: Registry, key: string, limit: int, windowMs: int, all: seq<int>, k: nat)
    requires k < |all|
    ensures var c := CheckLimit(reg, key, limit, windowMs, all[k]);
      Burst(reg, key, limit, windowMs, all[k..]).answers
        == [c.info.allowed] + Burst(c.registry, key, limit, windowMs, all[k + 1..]).answers
  {
    assert all[k..][0] == all[k];
    assert all[k..][1..] == all[k + 1..];
  }

  /** The call that finds the window full. */
  lemma BurstLast(reg: Registry, key: string, limit: nat, windowMs: int, all: seq<int>)
    requires |all| == limit + 1
    requires Sorted(all)
    requires all[|all| - 1] - all[0] < windowMs
    requires History(reg, key) == all[..limit]
    ensures Burst(reg, key, limit, windowMs, all[limit..]).answers == [false]
  {
    BurstStep(reg, key, limit, windowMs, all, limit);
    BurstUnfold(reg, key, limit, windowMs, all, limit);
  }

  lemma {:induction false} BurstFrom(reg: Registry, key: string, limit: nat, windowMs: int, all: seq<int>, k: nat)
    requires |all| == limit + 1 && k <= limit
    requires Sorted(all)
    requires all[|all| - 1] - all[0] < windowMs
    requires History(reg, key) == all[..k]
    ensures var out := Burst(reg, key, limit, windowMs, all[k..]).answers;
      && (forall i :: 0 <= i < |out| - 1 ==> out[i])
      && !out[|out| - 1]
    decreases limit - k
  {
    if k == limit {
      BurstLast(reg, key, limit, windowMs, all);
    } else {
      var next := CheckLimit(reg, key, limit, windowMs, all[k]).registry;
      BurstStep(reg, key, limit, windowMs, all, k);
      BurstUnfold(reg, key, limit, windowMs, all, k);
      BurstFrom(next, key, limit, windowMs, all, k + 1);
      AdmittedThenLast(Burst(next, key, limit, windowMs, all[k + 1..]).answers);
    }
  }

  /** An admit in front of answers that end in the only deny still ends in the only deny. */
  lemma AdmittedThenLast(rest: seq<bool>)
    requires rest != [] && !rest[|rest| - 1]
    requires forall i :: 0 <= i < |rest| - 1 ==> rest[i]
    ensures var out := [true] + rest; (forall i :: 0 <= i < |out| - 1 ==> out[i]) && !out[|out| - 1]
  {
    var out := [true] + rest;
    forall i | 0 < i < |out| - 1 ensures out[i] {
      assert out[i] == rest[i - 1];
    }
  }

  /**
   * A key with no history, limit `L` and window `W`: of `L + 1` calls that
   * all fall within one window, the first `L` are admitted and the last denied.
   */
  lemma BurstLockout(reg: Registry, key: string, limit: nat, windowMs: int, nows: seq<int>)
    requires History(reg, key) == []
    requires |nows| == limit + 1
    requires Sorted(nows)
    requires nows[limit] - nows[0] < windowMs
    ensures var out := Burst(reg, key, limit, windowMs, nows).answers;
      (forall i :: 0 <= i < limit ==> out[i]) && !out[limit]
  {
    assert nows[..0] == [];
    assert nows[0..] == nows;
    BurstFrom(reg, key, limit, windowMs, nows, 0);
  }

  // ---------------------------------------------------------------- sweep and reset

  /**
   * `cleanup()` at time `now`: every key keeps the timestamps younger than
   * 24 hours, in order, and keys left with none are deleted.
   */
  function Cleanup(reg: Registry, now: int): (r: Registry)
    ensures forall k :: k in r ==> k in reg && r[k] != [] && |r[k]| <= |reg[k]|
    ensures forall k, t :: k in r ==> (t in r[k] <==> t in reg[k] && now - t < RetentionMs)
    ensures forall k, t :: k in reg && k !in r && t in reg[k] ==> now - t >= RetentionMs
    ensures forall k :: k in r && Sorted(reg[k]) ==> Sorted(r[k])
  {
    map k | k in reg && Prune(reg[k], now - RetentionMs) != [] :: Prune(reg[k], now - RetentionMs)
  }

  /** Sweeping twice at the same time is sweeping once. */
  lemma CleanupIdempotent(reg: Registry, now: int)
    ensures Cleanup(Cleanup(reg, now), now) == Cleanup(reg, now)
  {
    var h := now - RetentionMs;
    var c := Cleanup(reg, now);
    forall k | k in c ensures Prune(c[k], h) == c[k] {
      PruneTwice(reg[k], h, h);
    }
  }

  /** A check looks at a key's history only through its survivors. */
  lemma CheckSeesOnlySurvivors(reg1: Registry, reg2: Registry, key: string, limit: int, windowMs: int, now: int)
    requires Prune(History(reg1, key), now - windowMs) == Prune(History(reg2, key), now - windowMs)
    ensures CheckLimit(reg1, key, limit, windowMs, now).info == CheckLimit(reg2, key, limit, windowMs, now).info
    ensures CheckLimit(reg1, key, limit, windowMs, now).registry[key]
         == CheckLimit(reg2, key, limit, windowMs, now).registry[key]
  {
  }

  /** After a sweep, a key's history is its old history cut at the 24-hour horizon. */
  lemma CleanupHistory(reg: Registry, now: int, key: string)
    ensures History(Cleanup(reg, now), key) == Prune(History(reg, key), now - RetentionMs)
  {
  }

  /**
   * The sweep never changes a later `checkLimit` answer whose window starts
   * no earlier than the sweep's horizon (any window up to 24 hours at a later time).
   */
  lemma CleanupInvisibleToCheck(reg: Registry, sweptAt: int, key: string, limit: int, windowMs: int, now: int)
    requires sweptAt - RetentionMs <= now - windowMs
    ensures CheckLimit(Cleanup(reg, sweptAt), key, limit, windowMs, now).info
         == CheckLimit(reg, key, limit, windowMs, now).info
    ensures CheckLimit(Cleanup(reg, sweptAt), key, limit, windowMs, now).registry[key]
         == CheckLimit(reg, key, limit, windowMs, now).registry[key]
  {
    var swept := Cleanup(reg, sweptAt);
    var h := History(reg, key);
    CleanupHistory(reg, sweptAt, key);
    assert History(swept, key) == Prune(h, sweptAt - RetentionMs);
    PruneTwice(h, sweptAt - RetentionMs, now - windowMs);
    assert Prune(History(swept, key), now - windowMs) == Prune(h, now - windowMs);
    CheckSeesOnlySurvivors(swept, reg, key, limit, windowMs, now);
  }

  /** `reset()` and `destroy()`: the store is emptied. */
  function ResetAll(reg: Registry): (r: Registry)
    ensures forall k :: History(r, k) == []
  {
    map[]
  }

  /** Deleting one key (what `resetRateLimit` does). */
  function ForgetKey(reg: Registry, key: string): (r: Registry)
    ensures key !in r
    ensures forall k :: k != key ==> History(r, k) == History(reg, k)
  {
    reg - {key}
  }

  /** After a key is forgotten its next check behaves as its first-ever one. */
  lemma ForgottenKeyStartsAfresh(reg: Registry, key: string, limit: int, windowMs: int, now: int)
    ensures CheckLimit(ForgetKey(reg, key), key, limit, windowMs, now).info
         == CheckLimit(map[], key, limit, windowMs, now).info
  {
  }
}

=== FILE: rate_policy.dfy ===
/**
 * The policy layer over the sliding-window limiter: `createRateLimit`
 * options and defaults, the six named policies and their key derivations,
 * the middleware's admit/deny decision with its fail-open path, the
 * skip-on-outcome compensation, the read-only `checkRateLimit` peek and the
 * per-key `resetRateLimit`.
 */
module RatePolicy {
  import opened Wrappers
  import opened Text
  import opened Values
  import opened RateLimiter

  /** How a policy derives the key a request is counted under. */
  datatype KeyRule =
    | ClientAddress   // the default: the client address alone
    | LoginAttempt    // "auth:<address>:<username>"
    | ApiCaller       // "api:user:<id>" or "api:ip:<address>"
    | PasswordChange  // "password:<id>:<address>"
    | Registration    // "register:<address>"
    | UserCreation    // "user-creation:<id>"
    | PerUser         // "user:<id>" or "guest:<address>"

  /**
   * What a key derivation sees of a request: the client address (already
   * resolved from `req.ip` or the socket), `req.body.username`, and the
   * authenticated user's id when there is one.
   */
  datatype Caller = Caller(address: string, username: Value, userId: Option<int>)

  /** `req.user?.id` is truthy. */
  predicate HasUserId(c: Caller) {
    c.userId.Some? && c.userId.value != 0
  }

  /** `${req.user?.id || fallback}` */
  function UserIdOr(c: Caller, fallback: string): string {
    if HasUserId(c) then IntToString(c.userId.value) else fallback
  }

  function KeyFor(rule: KeyRule, c: Caller): string {
    match rule
    case ClientAddress => c.address
    case LoginAttempt =>
      "auth:" + c.address + ":" + (if Truthy(c.username) then StringOf(c.username) else "unknown")
    case ApiCaller =>
      if HasUserId(c) then "api:user:" + IntToString(c.userId.value) else "api:ip:" + c.address
    case PasswordChange => "password:" + UserIdOr(c, "anonymous") + ":" + c.address
    case Registration => "register:" + c.address
    case UserCreation => "user-creation:" + UserIdOr(c, "anonymous")
    case PerUser =>
      if HasUserId(c) then "user:" + IntToString(c.userId.value) else "guest:" + c.address
  }

  /** The first five characters of every key a rule derives. */
  function KeyHead(rule: KeyRule, c: Caller): (h: string)
    requires rule != ClientAddress
    ensures |h| == 5
  {
    match rule
    case LoginAttempt => "auth:"
    case ApiCaller => if HasUserId(c) then "api:u" else "api:i"
    case PasswordChange => "passw"
    case Registration => "regis"
    case UserCreation => "user-"
    case PerUser => if HasUserId(c) then "user:" else "guest"
  }

  lemma KeyStartsWithHead(rule: KeyRule, c: Caller)
    requires rule != ClientAddress
    ensures StartsWith(KeyFor(rule, c), KeyHead(rule, c))
  {
  }

  /**
   * Each named policy counts in its own key space: two different rules
   * never derive the same key, whoever the callers are, so one caller gets
   * an independent quota per operation.
   */
  lemma KeysOfDistinctRulesDiffer(a: KeyRule, b: KeyRule, c1: Caller, c2: Caller)
    requires a != ClientAddress && b != ClientAddress && a != b
    ensures KeyFor(a, c1) != KeyFor(b, c2)
  {
    KeyStartsWithHead(a, c1);
    KeyStartsWithHead(b, c2);
    assert KeyHead(a, c1) != KeyHead(b, c2);
  }

  /** Requests of a signed-in user and of an anonymous address never share an API quota. */
  lemma ApiUserAndAddressKeysDiffer(c1: Caller, c2: Caller)
    requires HasUserId(c1) && !HasUserId(c2)
    ensures KeyFor(ApiCaller, c1) != KeyFor(ApiCaller, c2)
    ensures KeyFor(PerUser, c1) != KeyFor(PerUser, c2)
  {
    assert KeyFor(ApiCaller, c1)[4] == 'u' && KeyFor(ApiCaller, c2)[4] == 'i';
    assert KeyFor(PerUser, c1)[0] == 'u' && KeyFor(PerUser, c2)[0] == 'g';
  }

  // ---------------------------------------------------------------- policies

  datatype Policy = Policy(
    max: int,
    windowMs: int,
    rule: KeyRule,
    message: string,
    skipSuccessful: bool,
    skipFailed: bool)

  /** The options object of `createRateLimit`; `None` is an option left undefined. */
  datatype Options = Options(
    max: Option<int>,
    windowMs: Option<int>,
    rule: Option<KeyRule>,
    message: Option<string>,
    skipSuccessful: Option<bool>,
    skipFailed: Option<bool>)

  const DefaultMax: int := 100
  const DefaultWindowMs: int := 15 * 60 * 1000
  const DefaultMessage: string := "Too many requests, please try again later"

  /** Destructuring with defaults: only an undefined option takes its default. */
  function Configure(o: Options): (p: Policy)
    ensures o.max.Some? ==> p.max == o.max.value
    ensures o.windowMs.Some? ==> p.windowMs == o.windowMs.value
    ensures o.rule.Some? ==> p.rule == o.rule.value
    ensures o.max.None? ==> p.max == DefaultMax
    ensures o.windowMs.None? ==> p.windowMs == DefaultWindowMs
    ensures o.rule.None? ==> p.rule == ClientAddress
    ensures o.message.Some? ==> p.message == o.message.value
    ensures o.message.None? ==> p.message == DefaultMessage
    ensures p.skipSuccessful <==> o.skipSuccessful == Some(true)
    ensures p.skipFailed <==> o.skipFailed == Some(true)
  {
    Policy(
      o.max.GetOr(DefaultMax),
      o.windowMs.GetOr(DefaultWindowMs),
      o.rule.GetOr(ClientAddress),
      o.message.GetOr(DefaultMessage),
      o.skipSuccessful.GetOr(false),
      o.skipFailed.GetOr(false))
  }

  const HourMs: int := 60 * 60 * 1000

  const AuthPolicy: Policy :=
    Policy(5, 15 * 60 * 1000, LoginAttempt,
           "Too many login attempts, please try again after 15 minutes", true, false)
  const ApiPolicy: Policy :=
    Policy(1000, HourMs, ApiCaller, "API rate limit exceeded, please try again later", false, false)
  const PasswordPolicy: Policy :=
    Policy(3, HourMs, PasswordChange, "Too many password change attempts, please try again later", false, false)
  const RegisterPolicy: Policy :=
    Policy(3, HourMs, Registration, "Too many registration attempts, please try again later", false, false)
  const UserCreationPolicy: Policy :=
    Policy(10, HourMs, UserCreation, "Too many user creation attempts, please try again later", false, false)
  const UserPolicy: Policy :=
    Policy(500, HourMs, PerUser, "User rate limit exceeded, please slow down", false, false)

  /** The options each named policy passes to `createRateLimit`; none sets `skipFailedRequests`. */
  const AuthOptions: Options :=
    Options(Some(5), Some(15 * 60 * 1000), Some(LoginAttempt),
            Some("Too many login attempts, please try again after 15 minutes"), Some(true), None)
  const ApiOptions: Options :=
    Options(Some(1000), Some(60 * 60 * 1000), Some(ApiCaller),
            Some("API rate limit exceeded, please try again later"), None, None)
  const PasswordOptions: Options :=
    Options(Some(3), Some(60 * 60 * 1000), Some(PasswordChange),
            Some("Too many password change attempts, please try again later"), None, None)
  const RegisterOptions: Options :=
    Options(Some(3), Some(60 * 60 * 1000), Some(Registration),
            Some("Too many registration attempts, please try again later"), None, None)
  const UserCreationOptions: Options :=
    Options(Some(10), Some(60 * 60 * 1000), Some(UserCreation),
            Some("Too many user creation attempts, please try again later"), None, None)
  const UserOptions: Options :=
    Options(Some(500), Some(60 * 60 * 1000), Some(PerUser),
            Some("User rate limit exceeded, please slow down"), None, None)

  /** Each named policy is what `createRateLimit` makes of the options it is given. */
  lemma NamedPoliciesAreConfigured()
    ensures Configure(AuthOptions) == AuthPolicy
    ensures Configure(ApiOptions) == ApiPolicy
    ensures Configure(PasswordOptions) == PasswordPolicy
    ensures Configure(RegisterOptions) == RegisterPolicy
    ensures Configure(UserCreationOptions) == UserCreationPolicy
    ensures Configure(UserOptions) == UserPolicy
  {
  }

  predicate IsNamedPolicy(p: Policy) {
    p in {AuthPolicy, ApiPolicy, PasswordPolicy, RegisterPolicy, UserCreationPolicy, UserPolicy}
  }

  // ---------------------------------------------------------------- the middleware

  /** The largest magnitude, in milliseconds, a JavaScript `Date` can hold. */
  const MaxDateMs: int := 8_640_000_000_000_000

  /** `new Date(t).toISOString()` succeeds: `t` is a number within the date range. */
  predicate Printable(t: Option<int>) {
    t.Some? && -MaxDateMs <= t.value <= MaxDateMs
  }

  datatype RateHeaders = RateHeaders(limit: int, remaining: int, resetTime: int)

  datatype Decision =
    /** `next()`; no headers when the limiter failed open; `settleLater` when the skip hook is installed. */
    | Proceed(headers: Option<RateHeaders>, settleLater: bool)
    /** 429 with the policy's message. */
    | TooManyRequests(limits: RateHeaders, message: string)

  datatype Gate = Gate(registry: Registry, decision: Decision)

  /**
   * The middleware `createRateLimit` returns, applied at time `now`. Any
   * error inside it (here: a reset time that is not a printable date) is
   * caught and the request proceeds, with the limiter's bookkeeping kept.
   */
  function Admit(reg: Registry, p: Policy, c: Caller, now: int): (g: Gate)
    ensures var r := CheckLimit(reg, KeyFor(p.rule, c), p.max, p.windowMs, now);
      && g.registry == r.registry
      && (r.info.allowed ==> g.decision.Proceed?)
      && (g.decision.TooManyRequests? ==> g.decision.limits.remaining == 0 && g.decision.message == p.message)
      && (g.decision.Proceed? && g.decision.headers.None? <==> !Printable(r.info.resetTime))
      && (!r.info.allowed && Printable(r.info.resetTime) ==> g.decision.TooManyRequests?)
    ensures var r := CheckLimit(reg, KeyFor(p.rule, c), p.max, p.windowMs, now);
      g.decision.Proceed? && g.decision.headers.Some? ==>
        && Printable(r.info.resetTime)
        && g.decision.headers.value == RateHeaders(r.info.total, r.info.remaining, r.info.resetTime.value)
        && g.decision.settleLater == (p.skipSuccessful || p.skipFailed)
    ensures g.decision.Proceed? && g.decision.headers.None? ==> !g.decision.settleLater
    ensures var r := CheckLimit(reg, KeyFor(p.rule, c), p.max, p.windowMs, now);
      g.decision.TooManyRequests? ==>
        Printable(r.info.resetTime) && g.decision.limits == RateHeaders(r.info.total, 0, r.info.resetTime.value)
  {
    var r := CheckLimit(reg, KeyFor(p.rule, c), p.max, p.windowMs, now);
    if !Printable(r.info.resetTime) then
      Gate(r.registry, Proceed(None, false))
    else
      var h := RateHeaders(r.info.total, r.info.remaining, r.info.resetTime.value);
      if !r.info.allowed then Gate(r.registry, TooManyRequests(h, p.message))
      else Gate(r.registry, Proceed(Some(h), p.skipSuccessful || p.skipFailed))
  }

  /** Within the date range, the middleware denies exactly when the limiter does. */
  lemma AdmitFollowsLimiter(reg: Registry, p: Policy, c: Caller, now: int)
    requires p.max >= 1
    requires -MaxDateMs <= now + p.windowMs <= MaxDateMs
    requires forall t :: t in History(reg, KeyFor(p.rule, c)) ==> -MaxDateMs <= t + p.windowMs <= MaxDateMs
    ensures Admit(reg, p, c, now).decision.TooManyRequests?
        <==> !CheckLimit(reg, KeyFor(p.rule, c), p.max, p.windowMs, now).info.allowed
  {
    var key := KeyFor(p.rule, c);
    var live := Prune(History(reg, key), now - p.windowMs);
    if |live| >= p.max {
      assert live[0] in History(reg, key);
    }
  }

  /**
   * With `max <= 0` a key's history stays empty, so every deny reads the
   * missing first timestamp, the date is invalid, and the request proceeds:
   * such a policy admits every request.
   */
  lemma ZeroLimitAlwaysAdmits(reg: Registry, p: Policy, c: Caller, now: int)
    requires p.max <= 0
    requires History(reg, KeyFor(p.rule, c)) == []
    ensures Admit(reg, p, c, now).decision == Proceed(None, false)
    ensures History(Admit(reg, p, c, now).registry, KeyFor(p.rule, c)) == []
  {
  }

  /**
   * The decision as evidently intended: a deny with no surviving timestamp
   * reports the window ending `windowMs` from now (as `checkRateLimit`
   * does), so a non-positive limit denies instead of failing open.
   */
  function AdmitCorrected(reg: Registry, p: Policy, c: Caller, now: int): (g: Gate)
    ensures g.registry == CheckLimit(reg, KeyFor(p.rule, c), p.max, p.windowMs, now).registry
    ensures g.decision.TooManyRequests? ==> g.decision.message == p.message && g.decision.limits.remaining == 0
    ensures var r := CheckLimit(reg, KeyFor(p.rule, c), p.max, p.windowMs, now);
      var reset := r.info.resetTime.GetOr(now + p.windowMs);
      && (r.info.allowed ==> g.decision.Proceed?)
      && (!r.info.allowed && Printable(Some(reset)) ==> g.decision.TooManyRequests?)
      && (g.decision.Proceed? && g.decision.headers.None? <==> !Printable(Some(reset)))
      && (g.decision.Proceed? && g.decision.headers.Some? ==>
            && g.decision.headers.value == RateHeaders(r.info.total, r.info.remaining, reset)
            && g.decision.settleLater == (p.skipSuccessful || p.skipFailed))
      && (g.decision.Proceed? && g.decision.headers.None? ==> !g.decision.settleLater)
      && (g.decision.TooManyRequests? ==> g.decision.limits == RateHeaders(r.info.total, 0, reset))
  {
    var r := CheckLimit(reg, KeyFor(p.rule, c), p.max, p.windowMs, now);
    var reset := r.info.resetTime.GetOr(now + p.windowMs);
    if !Printable(Some(reset)) then
      Gate(r.registry, Proceed(None, false))
    else
      var h := RateHeaders(r.info.total, r.info.remaining, reset);
      if !r.info.allowed then Gate(r.registry, TooManyRequests(h, p.message))
      else Gate(r.registry, Proceed(Some(h), p.skipSuccessful || p.skipFailed))
  }

  /** Corrected: a policy with `max <= 0` denies every request (with 0 remaining). */
  lemma CorrectedZeroLimitDenies(reg: Registry, p: Policy, c: Caller, now: int)
    requires p.max <= 0
    requires -MaxDateMs <= now + p.windowMs <= MaxDateMs
    requires forall t :: t in History(reg, KeyFor(p.rule, c)) ==> -MaxDateMs <= t + p.windowMs <= MaxDateMs
    ensures AdmitCorrected(reg, p, c, now).decision.TooManyRequests?
    ensures AdmitCorrected(reg, p, c, now).decision.limits.remaining == 0
  {
    var key := KeyFor(p.rule, c);
    var live := Prune(History(reg, key), now - p.windowMs);
    if live != [] {
      assert live[0] in History(reg, key);
    }
  }

  /** For every positive limit the correction changes nothing. */
  lemma CorrectionAgreesOnPositiveLimits(reg: Registry, p: Policy, c: Caller, now: int)
    requires p.max >= 1
    ensures AdmitCorrected(reg, p, c, now) == Admit(reg, p, c, now)
  {
  }

  lemma NamedPoliciesHavePositiveLimits(p: Policy)
    requires IsNamedPolicy(p)
    ensures p.max >= 1 && p.windowMs > 0
  {
  }

  // ---------------------------------------------------------------- skip on outcome

  /** The response status decides whether the just-recorded request is taken back. */
  predicate ShouldSkip(p: Policy, status: int) {
    (p.skipSuccessful && status < 400) || (p.skipFailed && status >= 400)
  }

  /** `requests.pop()`: a no-op on an empty list. */
  function DropLast(ts: seq<int>): (r: seq<int>)
    ensures ts != [] ==> ts == r + [ts[|ts| - 1]]
  {
    if ts == [] then [] else ts[..|ts| - 1]
  }

  /**
   * The wrapped `res.send` once the status is known: when the outcome is
   * one the policy skips, the key's last timestamp is popped and the list
   * stored back (a missing key becomes an empty list).
   */
  function Settle(reg: Registry, p: Policy, key: string, status: int): (r: Registry)
    ensures forall k :: k != key ==> History(r, k) == History(reg, k)
    ensures ShouldSkip(p, status) ==> key in r && |History(r, key)| == if History(reg, key) == [] then 0 else |History(reg, key)| - 1
    ensures ShouldSkip(p, status) ==> History(r, key) == DropLast(History(reg, key))
    ensures !ShouldSkip(p, status) ==> r == reg
  {
    if ShouldSkip(p, status) then reg[key := DropLast(History(reg, key))] else reg
  }

  /**
   * Run sequentially, recording a request and then taking it back on a
   * skipped outcome leaves the key as if the request had never been
   * counted: only the window's pruning remains.
   */
  lemma SkippedRequestNotCounted(reg: Registry, p: Policy, c: Caller, now: int, status: int)
    requires Admit(reg, p, c, now).decision.Proceed?
    requires Admit(reg, p, c, now).decision.settleLater
    requires ShouldSkip(p, status)
    ensures var key := KeyFor(p.rule, c);
      History(Settle(Admit(reg, p, c, now).registry, p, key, status), key)
        == Prune(History(reg, key), now - p.windowMs)
  {
    var key := KeyFor(p.rule, c);
    var live := Prune(History(reg, key), now - p.windowMs);
    var g := Admit(reg, p, c, now);
    var r := CheckLimit(reg, key, p.max, p.windowMs, now);
    assert g.decision.headers.Some?;
    assert r.info.allowed;
    assert History(g.registry, key) == live + [now];
    assert DropLast(live + [now]) == live;
  }

  /** Outcomes the policy does not skip leave the count as recorded. */
  lemma CountedOutcomeKept(reg: Registry, p: Policy, key: string, status: int)
    requires !ShouldSkip(p, status)
    ensures Settle(reg, p, key, status) == reg
  {
  }

  // ---------------------------------------------------------------- a sequence of requests

  /** One request of a caller: its arrival time and the status its handler answered with. */
  datatype Exchange = Exchange(now: int, status: int)

  datatype Replayed = Replayed(registry: Registry, decisions: seq<Decision>)

  function Times(xs: seq<Exchange>): (r: seq<int>)
    ensures |r| == |xs| && forall i :: 0 <= i < |xs| ==> r[i] == xs[i].now
  {
    seq(|xs|, i requires 0 <= i < |xs| => xs[i].now)
  }

  /**
   * The middleware applied to one caller's requests in turn, each settled
   * before the next arrives. It uses the corrected decision, which differs
   * from the code only for limits below 1.
   */
  function Replay(reg: Registry, p: Policy, c: Caller, xs: seq<Exchange>): (r: Replayed)
    ensures |r.decisions| == |xs|
    decreases |xs|
  {
    if xs == [] then Replayed(reg, [])
    else
      var g := AdmitCorrected(reg, p, c, xs[0].now);
      var settled :=
        if g.decision.Proceed? && g.decision.settleLater
        then Settle(g.registry, p, KeyFor(p.rule, c), xs[0].status)
        else g.registry;
      var rest := Replay(settled, p, c, xs[1..]);
      Replayed(rest.registry, [g.decision] + rest.decisions)
  }

  /** Every reset time the limiter may report from these timestamps is a printable date. */
  predicate DatesInRange(ts: seq<int>, windowMs: int) {
    forall t :: t in ts ==> -MaxDateMs <= t + windowMs <= MaxDateMs
  }

  /** Every refusal in a replay is the policy's 429, with nothing remaining. */
  lemma {:induction false} RefusalsCarryMessage(reg: Registry, p: Policy, c: Caller, xs: seq<Exchange>)
    ensures RefusalsAre(Replay(reg, p, c, xs).decisions, p.message)
    decreases |xs|
  {
    if xs != [] {
      var g := AdmitCorrected(reg, p, c, xs[0].now);
      var settled :=
        if g.decision.Proceed? && g.decision.settleLater
        then Settle(g.registry, p, KeyFor(p.rule, c), xs[0].status)
        else g.registry;
      var tail := Replay(settled, p, c, xs[1..]).decisions;
      RefusalsCarryMessage(settled, p, c, xs[1..]);
      assert Replay(reg, p, c, xs).decisions == [g.decision] + tail;
      RefusalsInStep(g.decision, tail, p.message);
    }
  }

  predicate RefusalsAre(out: seq<Decision>, message: string) {
    forall i :: 0 <= i < |out| && out[i].TooManyRequests? ==>
      out[i].message == message && out[i].limits.remaining == 0
  }

  lemma RefusalsInStep(d: Decision, rest: seq<Decision>, message: string)
    requires d.TooManyRequests? ==> d.message == message && d.limits.remaining == 0
    requires RefusalsAre(rest, message)
    ensures RefusalsAre([d] + rest, message)
  {
    var out := [d] + rest;
    forall i | 0 <= i < |out| && out[i].TooManyRequests?
      ensures out[i].message == message && out[i].limits.remaining == 0
    {
      if i > 0 {
        assert out[i] == rest[i - 1];
      }
    }
  }

  /** One step of a replay whose outcome is not skipped: the decision, then the rest from the checked registry. */
  lemma ReplayUnfold(reg: Registry, p: Policy, c: Caller, xs: seq<Exchange>)
    requires xs != [] && !ShouldSkip(p, xs[0].status)
    ensures var chk := CheckLimit(reg, KeyFor(p.rule, c), p.max, p.windowMs, xs[0].now);
      Replay(reg, p, c, xs).decisions
        == [AdmitCorrected(reg, p, c, xs[0].now).decision] + Replay(chk.registry, p, c, xs[1..]).decisions
  {
  }

  /** The dates a check stores stay printable when its inputs were. */
  lemma DatesStayInRange(reg: Registry, p: Policy, key: string, xs: seq<Exchange>)
    requires xs != []
    requires DatesInRange(Times(xs), p.windowMs)
    requires DatesInRange(History(reg, key), p.windowMs)
    ensures DatesInRange(History(CheckLimit(reg, key, p.max, p.windowMs, xs[0].now).registry, key), p.windowMs)
    ensures DatesInRange(Times(xs[1..]), p.windowMs)
  {
    var now := xs[0].now;
    assert now in Times(xs);
    var chk := CheckLimit(reg, key, p.max, p.windowMs, now);
    var live := Prune(History(reg, key), now - p.windowMs);
    forall t | t in History(chk.registry, key)
      ensures -MaxDateMs <= t + p.windowMs <= MaxDateMs
    {
      assert t in live || t == now;
    }
    assert Times(xs)[1..] == Times(xs[1..]);
    forall t | t in Times(xs[1..]) ensures -MaxDateMs <= t + p.windowMs <= MaxDateMs {
      assert t in Times(xs);
    }
  }

  /**
   * When no outcome is skipped and every date is printable, the middleware
   * denies exactly the requests the bare limiter denies.
   */
  lemma {:induction false} ReplayMatchesBurst(reg: Registry, p: Policy, c: Caller, xs: seq<Exchange>)
    requires p.max >= 1
    requires forall i :: 0 <= i < |xs| ==> !ShouldSkip(p, xs[i].status)
    requires DatesInRange(Times(xs), p.windowMs)
    requires DatesInRange(History(reg, KeyFor(p.rule, c)), p.windowMs)
    ensures DeniedExactlyWhen(Replay(reg, p, c, xs).decisions,
                              Burst(reg, KeyFor(p.rule, c), p.max, p.windowMs, Times(xs)).answers)
    decreases |xs|
  {
    if xs != [] {
      var key := KeyFor(p.rule, c);
      var now := xs[0].now;
      assert now in Times(xs);
      AdmitFollowsLimiter(reg, p, c, now);
      CorrectionAgreesOnPositiveLimits(reg, p, c, now);
      var chk := CheckLimit(reg, key, p.max, p.windowMs, now);
      ReplayUnfold(reg, p, c, xs);
      DatesStayInRange(reg, p, key, xs);
      ReplayMatchesBurst(chk.registry, p, c, xs[1..]);
      assert Times(xs)[0] == now;
      assert Times(xs)[1..] == Times(xs[1..]);
      assert Burst(reg, key, p.max, p.windowMs, Times(xs)).answers
        == [chk.info.allowed] + Burst(chk.registry, key, p.max, p.windowMs, Times(xs[1..])).answers;
      DeniedInStep(AdmitCorrected(reg, p, c, now).decision, Replay(chk.registry, p, c, xs[1..]).decisions,
                   chk.info.allowed, Burst(chk.registry, key, p.max, p.windowMs, Times(xs[1..])).answers);
    }
  }

  /** The middleware answers 429 exactly where the limiter said no. */
  predicate DeniedExactlyWhen(ds: seq<Decision>, answers: seq<bool>) {
    |ds| == |answers| && forall i :: 0 <= i < |ds| ==> (ds[i].TooManyRequests? <==> !answers[i])
  }

  /** Decisions and answers that agree at the head and along the tails agree everywhere. */
  lemma DeniedInStep(d: Decision, rest: seq<Decision>, allowed: bool, answers: seq<bool>)
    requires d.TooManyRequests? <==> !allowed
    requires DeniedExactlyWhen(rest, answers)
    ensures DeniedExactlyWhen([d] + rest, [allowed] + answers)
  {
    var ds, out := [d] + rest, [allowed] + answers;
    forall i | 0 < i < |ds| ensures ds[i].TooManyRequests? <==> !out[i] {
      assert ds[i] == rest[i - 1] && out[i] == answers[i - 1];
    }
  }

  /**
   * The login scenario: five failed logins from one address and username
   * within fifteen minutes are let through to the handler, and the sixth is
   * answered 429 with the policy's message.
   */
  lemma FailedLoginsLockOut(reg: Registry, c: Caller, xs: seq<Exchange>)
    requires History(reg, KeyFor(LoginAttempt, c)) == []
    requires |xs| == 6
    requires Sorted(Times(xs))
    requires xs[5].now - xs[0].now < 15 * 60 * 1000
    requires forall i :: 0 <= i < 6 ==> xs[i].status >= 400
    requires DatesInRange(Times(xs), 15 * 60 * 1000)
    ensures var out := Replay(reg, AuthPolicy, c, xs).decisions;
      && (forall i :: 0 <= i < 5 ==> out[i].Proceed?)
      && out[5].TooManyRequests? && out[5].message == AuthPolicy.message
  {
    PolicyLocksOut(reg, AuthPolicy, c, xs);
  }

  /**
   * Any policy with a positive limit: on a fresh key, `max` counted
   * requests inside one window pass and the next one is refused.
   */
  lemma PolicyLocksOut(reg: Registry, p: Policy, c: Caller, xs: seq<Exchange>)
    requires p.max >= 1
    requires History(reg, KeyFor(p.rule, c)) == []
    requires |xs| == p.max + 1
    requires Sorted(Times(xs))
    requires xs[p.max].now - xs[0].now < p.windowMs
    requires forall i :: 0 <= i < |xs| ==> !ShouldSkip(p, xs[i].status)
    requires DatesInRange(Times(xs), p.windowMs)
    ensures var out := Replay(reg, p, c, xs).decisions;
      && (forall i :: 0 <= i < p.max ==> out[i].Proceed?)
      && out[p.max].TooManyRequests? && out[p.max].message == p.message
  {
    var key := KeyFor(p.rule, c);
    var nows := Times(xs);
    var answers := Burst(reg, key, p.max, p.windowMs, nows).answers;
    var out := Replay(reg, p, c, xs).decisions;
    BurstLockout(reg, key, p.max, p.windowMs, nows);
    ReplayMatchesBurst(reg, p, c, xs);
    RefusalsCarryMessage(reg, p, c, xs);
    assert out[p.max].TooManyRequests? <==> !answers[p.max];
  }

  /** A successful login takes its own request back out of the login count. */
  lemma SuccessfulLoginNotCounted(reg: Registry, c: Caller, now: int, status: int)
    requires Admit(reg, AuthPolicy, c, now).decision.Proceed?
    requires Admit(reg, AuthPolicy, c, now).decision.headers.Some?
    requires status < 400
    ensures var key := KeyFor(LoginAttempt, c);
      History(Settle(Admit(reg, AuthPolicy, c, now).registry, AuthPolicy, key, status), key)
        == Prune(History(reg, key), now - 15 * 60 * 1000)
  {
    SkippedRequestNotCounted(reg, AuthPolicy, c, now, status);
  }

  // ---------------------------------------------------------------- peek and reset

  datatype Peek = Peek(limit: int, remaining: int, resetTime: int, used: nat)

  /**
   * `checkRateLimit`: reports the key's standing without recording
   * anything (it returns no registry). A caught error changes nothing here:
   * the report is attached before the headers are printed.
   */
  function PeekLimit(reg: Registry, o: Options, c: Caller, now: int): (r: Peek)
    ensures var p := Configure(o);
      var live := Prune(History(reg, KeyFor(p.rule, c)), now - p.windowMs);
      && r.limit == p.max
      && r.used == |live| <= |History(reg, KeyFor(p.rule, c))|
      && r.remaining >= 0
      && (r.remaining == 0 <==> r.used >= p.max)
      && (r.remaining > 0 ==> r.remaining == p.max - r.used)
      && (live != [] ==> r.resetTime == live[0] + p.windowMs)
      && (live == [] ==> r.resetTime == now + p.windowMs)
  {
    var p := Configure(o);
    var live := Prune(History(reg, KeyFor(p.rule, c)), now - p.windowMs);
    Peek(p.max,
         if p.max - |live| > 0 then p.max - |live| else 0,
         if |live| > 0 then live[0] + p.windowMs else now + p.windowMs,
         |live|)
  }

  /**
   * The peek predicts the limiter: a check at the same time would admit
   * exactly when the peek shows room, would then leave one slot fewer, and
   * a deny would report the same reset time.
   */
  lemma PeekPredictsCheck(reg: Registry, o: Options, c: Caller, now: int)
    ensures var p := Configure(o);
      var r := PeekLimit(reg, o, c, now);
      var chk := CheckLimit(reg, KeyFor(p.rule, c), p.max, p.windowMs, now);
      && (chk.info.allowed <==> r.remaining > 0)
      && (chk.info.allowed ==> chk.info.remaining == r.remaining - 1)
      && (!chk.info.allowed && r.used > 0 ==> chk.info.resetTime == Some(r.resetTime))
  {
  }

  /** `resetRateLimit(keyGenerator)`: deletes the caller's key and nothing else. */
  function ResetFor(reg: Registry, rule: KeyRule, c: Caller): (r: Registry)
    ensures KeyFor(rule, c) !in r
    ensures forall k :: k != KeyFor(rule, c) ==> History(r, k) == History(reg, k)
  {
    ForgetKey(reg, KeyFor(rule, c))
  }

  /** After a reset the caller's next request is treated as its first. */
  lemma ResetCallerStartsAfresh(reg: Registry, p: Policy, c: Caller, now: int)
    ensures Admit(ResetFor(reg, p.rule, c), p, c, now).decision == Admit(map[], p, c, now).decision
  {
    ForgottenKeyStartsAfresh(reg, KeyFor(p.rule, c), p.max, p.windowMs, now);
  }
}

=== FILE: role_guard.dfy ===
/**
 * The authorization guards that run after the session guard:
 * `requireRole` and its three fixed instances, `requireOwnerOrAdmin`,
 * `requirePermission` and `requireActive`. Each is an ordered ladder of
 * checks on the attached user and ends in `next()` or an error status.
 */
module RoleGuard {
  import opened Wrappers
  import opened Text
  import opened Values
  import opened Accounts

  const Unauthorized: int := 401
  const Forbidden: int := 403
  const ServerError: int := 500

  const MsgAuthRequired: string := "Authentication required"
  const MsgRoleNotFound: string := "User role not found"
  const MsgInactive: string := "User account is inactive"
  const MsgInsufficient: string := "Insufficient permissions"
  const MsgAuthorizationFailed: string := "Authorization check failed"
  const MsgNotOwner: string := "Access denied. You can only access your own resources."
  const MsgPermissionFailed: string := "Permission check failed"
  const MsgAccountInactive: string := "Account is inactive. Please contact administrator."

  datatype Verdict = Pass | Deny(status: int, message: string)

  // ---------------------------------------------------------------- requireRole

  /** The argument of `requireRole`: one role name or a list of them. */
  datatype Allowed = One(name: string) | Many(names: seq<string>)

  /** A single role name is treated as a one-element list. */
  function Normalise(a: Allowed): (roles: seq<string>)
    ensures forall n :: n in roles <==> (if a.One? then n == a.name else n in a.names)
  {
    match a
    case One(n) => [n]
    case Many(ns) => ns
  }

  /** The user has a role with a non-empty name. */
  predicate HasNamedRole(u: User) {
    RoleNameOf(u).Some? && RoleNameOf(u).value != ""
  }

  /**
   * Checks in order: a user is attached (else 401), it has a named role
   * (else 403), it is active (else 403), the role is allowed (else 403).
   */
  function RequireRole(allowed: Allowed, user: Option<User>): (v: Verdict)
    ensures v.Pass? <==>
      user.Some? && HasNamedRole(user.value) && user.value.isActive
      && RoleNameOf(user.value).value in Normalise(allowed)
    ensures v.Deny? ==> v.status in {Unauthorized, Forbidden}
    ensures v.Deny? && v.status == Unauthorized <==> user.None?
  {
    if user.None? then Deny(Unauthorized, MsgAuthRequired)
    else
      var u := user.value;
      if u.role.None? || u.role.value.roleName.None? || u.role.value.roleName.value == "" then
        Deny(Forbidden, MsgRoleNotFound)
      else if !u.isActive then Deny(Forbidden, MsgInactive)
      else if u.role.value.roleName.value !in Normalise(allowed) then Deny(Forbidden, MsgInsufficient)
      else Pass
  }

  /** The ladder's order: a missing role is reported before inactivity, and inactivity before the role list. */
  lemma RoleLadderOrder(allowed: Allowed, u: User)
    ensures !HasNamedRole(u) ==> RequireRole(allowed, Some(u)) == Deny(Forbidden, MsgRoleNotFound)
    ensures HasNamedRole(u) && !u.isActive ==> RequireRole(allowed, Some(u)) == Deny(Forbidden, MsgInactive)
    ensures HasNamedRole(u) && u.isActive && RoleNameOf(u).value !in Normalise(allowed)
      ==> RequireRole(allowed, Some(u)) == Deny(Forbidden, MsgInsufficient)
  {
  }

  /** Naming one role is the same as listing it alone. */
  lemma SingleRoleIsOneElementList(name: string, user: Option<User>)
    ensures RequireRole(One(name), user) == RequireRole(Many([name]), user)
  {
  }

  const RequireAdmin: Allowed := One("Admin")
  const RequireManager: Allowed := Many(["Admin", "Manager"])
  const RequireUser: Allowed := Many(["Admin", "Manager", "User", "Employee"])

  /** The fixed guards are nested: whoever passes a stricter one passes the looser ones. */
  lemma FixedGuardsNested(user: Option<User>)
    ensures RequireRole(RequireAdmin, user).Pass? ==> RequireRole(RequireManager, user).Pass?
    ensures RequireRole(RequireManager, user).Pass? ==> RequireRole(RequireUser, user).Pass?
  {
  }

  /** Widening the allowed list never turns a pass into a denial. */
  lemma WiderListAdmitsMore(a: Allowed, b: Allowed, user: Option<User>)
    requires forall n :: n in Normalise(a) ==> n in Normalise(b)
    ensures RequireRole(a, user).Pass? ==> RequireRole(b, user).Pass?
  {
  }

  // ---------------------------------------------------------------- requireOwnerOrAdmin

  /** Where the target id can come from; the body is absent when no body was parsed. */
  datatype Request = Request(params: Fields, body: Option<Fields>, query: Fields)

  /**
   * The target id: parsed from the first of params, body and query whose
   * field is truthy; `None` when no source has it or it does not parse.
   * Reading a field of an absent body throws.
   */
  function TargetId(req: Request, field: string): (r: Attempt<Option<int>>)
    ensures Truthy(Get(req.params, field)) ==> r == Ok(ParseIntOf(Get(req.params, field)))
    ensures r.Thrown? <==> !Truthy(Get(req.params, field)) && req.body.None?
    ensures !Truthy(Get(req.params, field)) && req.body.Some? && Truthy(Get(req.body.value, field))
      ==> r == Ok(ParseIntOf(Get(req.body.value, field)))
    ensures !Truthy(Get(req.params, field)) && req.body.Some? && !Truthy(Get(req.body.value, field)) ==>
      r == if Truthy(Get(req.query, field)) then Ok(ParseIntOf(Get(req.query, field))) else Ok(None)
  {
    if Truthy(Get(req.params, field)) then Ok(ParseIntOf(Get(req.params, field)))
    else if req.body.None? then Thrown("Cannot read properties of undefined")
    else if Truthy(Get(req.body.value, field)) then Ok(ParseIntOf(Get(req.body.value, field)))
    else if Truthy(Get(req.query, field)) then Ok(ParseIntOf(Get(req.query, field)))
    else Ok(None)
  }

  /** The body is only read when params lacks the field, and the query only when both lack it. */
  lemma TargetPrecedence(req: Request, field: string, body: Fields, query: Fields)
    ensures Truthy(Get(req.params, field)) ==> TargetId(req.(body := Some(body), query := query), field) == TargetId(req, field)
    ensures req.body.Some? && Truthy(Get(req.body.value, field))
      ==> TargetId(req.(query := query), field) == TargetId(req, field)
  {
  }

  /**
   * `requireOwnerOrAdmin(field)`. The target is read before the role is
   * looked at, so a failure to read it denies even an administrator.
   */
  function RequireOwnerOrAdmin(field: string, user: Option<User>, req: Request): (v: Verdict)
    ensures user.None? ==> v == Deny(Unauthorized, MsgAuthRequired)
    ensures user.Some? && TargetId(req, field).Ok? ==>
      (v.Pass? <==> HasRoleName(user.value, "Admin") || TargetId(req, field).value == Some(user.value.id))
    ensures user.Some? && TargetId(req, field).Thrown? ==> v == Deny(ServerError, MsgAuthorizationFailed)
    ensures v.Deny? ==> v.status in {Unauthorized, Forbidden, ServerError}
    ensures v.Deny? && v.status == Forbidden ==> v.message == MsgNotOwner
  {
    if user.None? then Deny(Unauthorized, MsgAuthRequired)
    else
      match TargetId(req, field)
      case Thrown(_) => Deny(ServerError, MsgAuthorizationFailed)
      case Ok(target) =>
        if HasRoleName(user.value, "Admin") then Pass
        else if target == Some(user.value.id) then Pass
        else Deny(Forbidden, MsgNotOwner)
  }

  /**
   * A user addressing their own record by its decimal id in the route
   * passes, whatever their role and even when inactive.
   */
  lemma OwnerPassesByRouteId(field: string, u: User, req: Request)
    requires Get(req.params, field) == Str(IntToString(u.id))
    ensures RequireOwnerOrAdmin(field, Some(u), req) == Pass
    ensures RequireOwnerOrAdmin(field, Some(u.(isActive := false)), req) == Pass
  {
    ParseIntRoundTrip(u.id);
    assert Truthy(Get(req.params, field));
  }

  /** A non-administrator addressing another id is refused with 403. */
  lemma StrangerRefused(field: string, u: User, req: Request, other: int)
    requires !HasRoleName(u, "Admin")
    requires Get(req.params, field) == Str(IntToString(other)) && other != u.id
    ensures RequireOwnerOrAdmin(field, Some(u), req) == Deny(Forbidden, MsgNotOwner)
  {
    ParseIntRoundTrip(other);
    assert Truthy(Get(req.params, field));
  }

  /**
   * With no truthy route parameter and no parsed body, reading the target
   * throws before the role is looked at: even an administrator gets the 500.
   */
  lemma UnreadableTargetDeniesAdmin(field: string, u: User, req: Request)
    requires HasRoleName(u, "Admin")
    requires !Truthy(Get(req.params, field)) && req.body.None?
    ensures RequireOwnerOrAdmin(field, Some(u), req) == Deny(ServerError, MsgAuthorizationFailed)
  {
  }

  /** With nothing to read the target from, only an administrator passes. */
  lemma NoTargetOnlyAdmin(field: string, u: User, req: Request)
    requires !Truthy(Get(req.params, field)) && req.body.Some?
    requires !Truthy(Get(req.body.value, field)) && !Truthy(Get(req.query, field))
    ensures RequireOwnerOrAdmin(field, Some(u), req).Pass? <==> HasRoleName(u, "Admin")
  {
  }

  // ---------------------------------------------------------------- requirePermission and requireActive

  /**
   * `requirePermission(check, message)`: `answer` is what the check
   * resolved to (or the error it threw); `message` is `None` when left to
   * its default.
   */
  function RequirePermission(answer: Attempt<Value>, message: Option<string>, user: Option<User>): (v: Verdict)
    ensures v.Pass? <==> user.Some? && answer.Ok? && Truthy(answer.value)
    ensures user.Some? && answer.Thrown? ==> v == Deny(ServerError, MsgPermissionFailed)
    ensures user.Some? && answer.Ok? && !Truthy(answer.value) ==>
      v == Deny(Forbidden, message.GetOr(MsgInsufficient))
  {
    if user.None? then Deny(Unauthorized, MsgAuthRequired)
    else
      match answer
      case Thrown(_) => Deny(ServerError, MsgPermissionFailed)
      case Ok(granted) => if Truthy(granted) then Pass else Deny(Forbidden, message.GetOr(MsgInsufficient))
  }

  /** Without a user the check is never run: its answer cannot matter. */
  lemma PermissionNeedsUserFirst(a1: Attempt<Value>, a2: Attempt<Value>, message: Option<string>)
    ensures RequirePermission(a1, message, None) == RequirePermission(a2, message, None) == Deny(Unauthorized, MsgAuthRequired)
  {
  }

  /** `requireActive`: 401 without a user, 403 for an inactive one. */
  function RequireActive(user: Option<User>): (v: Verdict)
    ensures v.Pass? <==> user.Some? && user.value.isActive
    ensures user.Some? && !user.value.isActive ==> v == Deny(Forbidden, MsgAccountInactive)
  {
    if user.None? then Deny(Unauthorized, MsgAuthRequired)
    else if !user.value.isActive then Deny(Forbidden, MsgAccountInactive)
    else Pass
  }

  /** Any role guard that passes implies the activity guard passes. */
  lemma RolePassImpliesActive(allowed: Allowed, user: Option<User>)
    ensures RequireRole(allowed, user).Pass? ==> RequireActive(user).Pass?
  {
  }

  /** The two guards agree on who is unauthenticated. */
  lemma GuardsAgreeOnMissingUser(allowed: Allowed, field: string, req: Request, answer: Attempt<Value>, message: Option<string>)
    ensures RequireRole(allowed, None) == RequireActive(None) == RequireOwnerOrAdmin(field, None, req)
      == RequirePermission(answer, message, None) == Deny(Unauthorized, MsgAuthRequired)
  {
  }
}

=== FILE: seqs.dfy ===
/** Order and multiplicity facts about sequences, shared by the filters of the model. */
module Seqs {

  /** `a` is `b` with some elements left out, the rest kept in their order. */
  ghost predicate IsSubsequence<T>(a: seq<T>, b: seq<T>)
    decreases |b|
  {
    if a == [] then true
    else if b == [] then false
    else if a[0] == b[0] then IsSubsequence(a[1..], b[1..])
    else IsSubsequence(a, b[1..])
  }

  /**
   * `r` is `s` with exactly the elements `keep` refuses left out, walking
   * `s` from the front: an accepted element must come next in `r`, a
   * refused one must not be there.
   */
  ghost predicate KeepsExactly<T>(r: seq<T>, s: seq<T>, keep: T -> bool)
    decreases |s|
  {
    if s == [] then r == []
    else if keep(s[0]) then r != [] && r[0] == s[0] && KeepsExactly(r[1..], s[1..], keep)
    else KeepsExactly(r, s[1..], keep)
  }

  /**
   * What `KeepsExactly` means for the result: it is a subsequence of `s`,
   * and it holds every accepted value as often as `s` does and no refused value.
   */
  lemma {:induction false} KeptCounts<T(!new)>(r: seq<T>, s: seq<T>, keep: T -> bool)
    requires KeepsExactly(r, s, keep)
    ensures IsSubsequence(r, s)
    ensures forall t :: multiset(r)[t] == if keep(t) then multiset(s)[t] else 0
    decreases |s|
  {
    if s != [] {
      assert s == [s[0]] + s[1..];
      if keep(s[0]) {
        KeptCounts(r[1..], s[1..], keep);
        assert r == [r[0]] + r[1..];
      } else {
        KeptCounts(r, s[1..], keep);
        if r != [] {
          assert multiset(r)[r[0]] > 0;
        }
      }
    }
  }

  /** `KeepsExactly` determines its result: two sequences that both keep exactly the same elements are equal. */
  lemma {:induction false} KeptUnique<T>(r1: seq<T>, r2: seq<T>, s: seq<T>, keep: T -> bool)
    requires KeepsExactly(r1, s, keep) && KeepsExactly(r2, s, keep)
    ensures r1 == r2
    decreases |s|
  {
    if s != [] {
      if keep(s[0]) {
        KeptUnique(r1[1..], r2[1..], s[1..], keep);
        assert r1 == [r1[0]] + r1[1..] && r2 == [r2[0]] + r2[1..];
      } else {
        KeptUnique(r1, r2, s[1..], keep);
      }
    }
  }
}

=== FILE: session_guard.dfy ===
/**
 * `authMiddleware`: the session guard in front of every protected route.
 * It tries the access token first (reusing an already attached user when
 * the ids agree), falls back to the refresh token, and either lets the
 * request through with a user or answers 401.
 */
module SessionGuard {
  import opened Wrappers
  import opened Text
  import opened Values
  import opened Cookies
  import opened Accounts

  const Unauthorized: int := 401

  const MsgNoRefresh: string := "Authentication expired. Please log in again."
  const MsgInvalidRefresh: string := "Invalid authentication. Please log in again."
  const MsgRefreshExpired: string := "Session expired. Please log in again."
  const MsgUnauthorized: string := "Authentication required. Please log in."

  /**
   * The calls the guard makes into code outside the model, given as their
   * answers: verifying a token yields its `userId` claim or throws, the
   * lookup by id yields a user, nothing, or throws, and signing a new
   * access token yields the token or throws.
   */
  datatype Services = Services(
    decodeAccess: string -> Attempt<Value>,
    decodeRefresh: string -> Attempt<Value>,
    findUser: Value -> Attempt<Option<User>>,
    mintAccess: int -> Attempt<string>)

  /** The request's `accessToken` and `refreshToken` cookies. */
  datatype Presented = Presented(access: Option<string>, refresh: Option<string>)

  /** A cookie value is truthy: present and non-empty. */
  predicate Present(t: Option<string>) {
    t.Some? && t.value != ""
  }

  datatype GuardOutcome =
    /** `next()` with `req.user` set; `cookies` is what the response writes. */
    | Admit(user: User, cookies: seq<CookieOp>)
    /** The error response, with the cookie instructions sent alongside it. */
    | Reject(status: int, message: string, cookies: seq<CookieOp>)

  /** `req.user?.id` as a value: `undefined` when no user is attached. */
  function AttachedId(cached: Option<User>): Value {
    if cached.Some? then Num(cached.value.id) else Undefined
  }

  /** The message for a thrown refresh failure. */
  function RefreshFailureMessage(thrown: string): (m: string)
    ensures m == MsgRefreshExpired <==> Includes(thrown, "expired")
    ensures m == MsgInvalidRefresh <==> !Includes(thrown, "expired")
  {
    if Includes(thrown, "expired") then MsgRefreshExpired else MsgInvalidRefresh
  }

  /**
   * The access-token attempt. `None` means it threw (verification or
   * lookup failed) and control falls through to the refresh token.
   */
  function AccessAttempt(production: bool, token: string, cached: Option<User>, svc: Services): (r: Option<GuardOutcome>)
    ensures r.None? ==> svc.decodeAccess(token).Thrown? || svc.findUser(svc.decodeAccess(token).value).Thrown?
    ensures r.Some? && r.value.Admit? ==> r.value.cookies == []
    ensures r.Some? && r.value.Reject? ==> r.value == Reject(Unauthorized, MsgUnauthorized, GuardLogout(production))
  {
    match svc.decodeAccess(token)
    case Thrown(_) => None
    case Ok(claim) =>
      if StrictEquals(AttachedId(cached), claim) then
        if cached.Some? then Some(Admit(cached.value, []))
        else Some(Reject(Unauthorized, MsgUnauthorized, GuardLogout(production)))
      else
        match svc.findUser(claim)
        case Thrown(_) => None
        case Ok(None) => Some(Reject(Unauthorized, MsgUnauthorized, GuardLogout(production)))
        case Ok(Some(u)) => Some(Admit(u, []))
  }

  /** The refresh-token path, reached when the access token is absent or failed. */
  function RefreshAttempt(production: bool, token: Option<string>, svc: Services): (r: GuardOutcome)
    ensures r.Reject? ==> r.status == Unauthorized && r.cookies == GuardLogout(production)
    ensures r.Reject? ==> r.message in {MsgNoRefresh, MsgInvalidRefresh, MsgRefreshExpired}
    ensures r.Admit? ==> Present(token) && svc.mintAccess(r.user.id).Ok?
    ensures r.Admit? ==> r.cookies == [GuardAccessCookie(production, svc.mintAccess(r.user.id).value)]
  {
    if !Present(token) then Reject(Unauthorized, MsgNoRefresh, GuardLogout(production))
    else
      match svc.decodeRefresh(token.value)
      case Thrown(m) => Reject(Unauthorized, RefreshFailureMessage(m), GuardLogout(production))
      case Ok(claim) =>
        match svc.findUser(claim)
        case Thrown(m) => Reject(Unauthorized, RefreshFailureMessage(m), GuardLogout(production))
        case Ok(None) => Reject(Unauthorized, MsgInvalidRefresh, GuardLogout(production))
        case Ok(Some(u)) =>
          match svc.mintAccess(u.id)
          case Thrown(m) => Reject(Unauthorized, RefreshFailureMessage(m), GuardLogout(production))
          case Ok(minted) => Admit(u, [GuardAccessCookie(production, minted)])
  }

  /**
   * The whole guard. `cached` is a user an earlier middleware already
   * attached to the request. Every outcome is a pass or a 401; a 401
   * clears the session cookies unless the request carried no token at all;
   * a pass writes at most the one renewed access cookie.
   */
  function Authenticate(production: bool, tokens: Presented, cached: Option<User>, svc: Services): (r: GuardOutcome)
    ensures r.Reject? ==> r.status == Unauthorized
    ensures r.Reject? ==> (r.cookies == [] <==> !Present(tokens.access) && !Present(tokens.refresh))
    ensures r.Reject? && r.cookies != [] ==> r.cookies == GuardLogout(production)
    ensures r.Reject? ==> r.message in {MsgUnauthorized, MsgNoRefresh, MsgInvalidRefresh, MsgRefreshExpired}
    ensures r.Admit? ==> |r.cookies| <= 1
    ensures r.Admit? && r.cookies != [] ==> r.cookies[0].SetCookie? && r.cookies == [GuardAccessCookie(production, r.cookies[0].value)]
  {
    if !Present(tokens.access) && !Present(tokens.refresh) then
      Reject(Unauthorized, MsgUnauthorized, [])
    else
      var viaAccess := if Present(tokens.access) then AccessAttempt(production, tokens.access.value, cached, svc) else None;
      if viaAccess.Some? then viaAccess.value else RefreshAttempt(production, tokens.refresh, svc)
  }

  /** No token at all: 401 without touching any cookie, whatever the services would answer. */
  lemma NoTokensRejectedUntouched(production: bool, tokens: Presented, cached: Option<User>, svc: Services)
    requires !Present(tokens.access) && !Present(tokens.refresh)
    ensures Authenticate(production, tokens, cached, svc) == Reject(Unauthorized, MsgUnauthorized, [])
  {
  }

  /**
   * A valid access token whose user is found lets the request through
   * with that user and writes no cookie; the refresh token and its
   * services are never consulted.
   */
  lemma ValidAccessTokenAdmits(production: bool, tokens: Presented, cached: Option<User>, svc: Services,
                               claim: Value, u: User, otherRefresh: Option<string>, other: Services)
    requires Present(tokens.access)
    requires svc.decodeAccess(tokens.access.value) == Ok(claim)
    requires !StrictEquals(AttachedId(cached), claim)
    requires svc.findUser(claim) == Ok(Some(u))
    requires other.decodeAccess == svc.decodeAccess && other.findUser == svc.findUser
    ensures Authenticate(production, tokens, cached, svc) == Admit(u, [])
    ensures Authenticate(production, tokens.(refresh := otherRefresh), cached, other) == Admit(u, [])
  {
  }

  /** A user already attached under the token's id is reused without a lookup. */
  lemma AttachedUserReused(production: bool, tokens: Presented, u: User, svc: Services, other: Services)
    requires Present(tokens.access)
    requires svc.decodeAccess(tokens.access.value) == Ok(Num(u.id))
    requires other.decodeAccess == svc.decodeAccess
    ensures Authenticate(production, tokens, Some(u), svc) == Admit(u, [])
    ensures Authenticate(production, tokens, Some(u), other) == Admit(u, [])
  {
  }

  /**
   * A valid access token whose user no longer exists ends the session:
   * the cookies are cleared and 401 is returned without trying the
   * refresh token.
   */
  lemma AccessUserMissingEndsSession(production: bool, tokens: Presented, cached: Option<User>, svc: Services,
                                     claim: Value, otherRefresh: Option<string>, other: Services)
    requires Present(tokens.access)
    requires svc.decodeAccess(tokens.access.value) == Ok(claim)
    requires !StrictEquals(AttachedId(cached), claim)
    requires svc.findUser(claim) == Ok(None)
    requires other.decodeAccess == svc.decodeAccess && other.findUser == svc.findUser
    ensures Authenticate(production, tokens, cached, svc) == Reject(Unauthorized, MsgUnauthorized, GuardLogout(production))
    ensures Authenticate(production, tokens.(refresh := otherRefresh), cached, other)
      == Reject(Unauthorized, MsgUnauthorized, GuardLogout(production))
  {
  }

  /**
   * When the access token is absent, or its verification or lookup
   * throws, the outcome is exactly the refresh path's.
   */
  lemma FailedAccessFallsThrough(production: bool, tokens: Presented, cached: Option<User>, svc: Services)
    requires Present(tokens.access) || Present(tokens.refresh)
    requires Present(tokens.access) ==>
      || svc.decodeAccess(tokens.access.value).Thrown?
      || (!StrictEquals(AttachedId(cached), svc.decodeAccess(tokens.access.value).value)
          && svc.findUser(svc.decodeAccess(tokens.access.value).value).Thrown?)
    ensures Authenticate(production, tokens, cached, svc) == RefreshAttempt(production, tokens.refresh, svc)
  {
  }

  /** On the refresh path a missing refresh token ends the session with "authentication expired". */
  lemma MissingRefreshEndsSession(production: bool, token: Option<string>, svc: Services)
    requires !Present(token)
    ensures RefreshAttempt(production, token, svc) == Reject(Unauthorized, MsgNoRefresh, GuardLogout(production))
  {
  }

  /**
   * A valid refresh token whose user exists renews the session: exactly
   * one new access cookie, signed for that user's id, and the request
   * passes with that user. In the browser the access cookie becomes the
   * new token and nothing else changes.
   */
  lemma RefreshRenewsAccess(production: bool, token: Option<string>, svc: Services, claim: Value, u: User,
                            minted: string, jar: Jar)
    requires Present(token)
    requires svc.decodeRefresh(token.value) == Ok(claim)
    requires svc.findUser(claim) == Ok(Some(u))
    requires svc.mintAccess(u.id) == Ok(minted)
    ensures RefreshAttempt(production, token, svc) == Admit(u, [GuardAccessCookie(production, minted)])
    ensures Apply(jar, RefreshAttempt(production, token, svc).cookies) == jar[AccessCookie := minted]
  {
    var ops := [GuardAccessCookie(production, minted)];
    assert Apply(jar, ops) == Apply(jar[AccessCookie := minted], ops[1..]);
  }

  /** A valid refresh token whose user is gone: cleared cookies and "invalid authentication". */
  lemma RefreshUserMissingRejected(production: bool, token: Option<string>, svc: Services, claim: Value)
    requires Present(token)
    requires svc.decodeRefresh(token.value) == Ok(claim)
    requires svc.findUser(claim) == Ok(None)
    ensures RefreshAttempt(production, token, svc) == Reject(Unauthorized, MsgInvalidRefresh, GuardLogout(production))
  {
  }

  /** A refresh token that fails verification: "session expired" exactly when the error mentions expiry. */
  lemma RefreshFailureClassified(production: bool, token: Option<string>, svc: Services, thrown: string)
    requires Present(token)
    requires svc.decodeRefresh(token.value) == Thrown(thrown)
    ensures var r := RefreshAttempt(production, token, svc);
      && r.Reject? && r.cookies == GuardLogout(production)
      && (r.message == MsgRefreshExpired <==> Includes(thrown, "expired"))
      && (r.message == MsgInvalidRefresh <==> !Includes(thrown, "expired"))
  {
  }

  /** Every 401 that clears cookies leaves the browser without a session. */
  lemma RejectionEndsBrowserSession(production: bool, tokens: Presented, cached: Option<User>, svc: Services, jar: Jar)
    requires Present(tokens.access) || Present(tokens.refresh)
    requires Authenticate(production, tokens, cached, svc).Reject?
    ensures Apply(jar, Authenticate(production, tokens, cached, svc).cookies) == jar - SessionNames
  {
    GuardLogoutEndsSession(jar, production);
  }

  /**
   * The guard does not look at `isActive`: a deactivated account found
   * through a valid token is let through just like an active one.
   */
  lemma ActivityNotChecked(production: bool, tokens: Presented, cached: Option<User>, svc: Services,
                           claim: Value, u: User)
    requires Present(tokens.access)
    requires svc.decodeAccess(tokens.access.value) == Ok(claim)
    requires !StrictEquals(AttachedId(cached), claim)
    requires svc.findUser(claim) == Ok(Some(u.(isActive := false)))
    ensures Authenticate(production, tokens, cached, svc) == Admit(u.(isActive := false), [])
  {
  }
}

=== FILE: text.dfy ===
/**
 * The handful of JavaScript string primitives the request guards rely on:
 * `trim`, ASCII `toLowerCase`, `includes`, number-to-string and `parseInt`.
 * A `string` here is a sequence of Unicode code points; JavaScript's own
 * strings are UTF-16 code units, which this model does not distinguish.
 */
module Text {
  import opened Wrappers

  /** ECMAScript WhiteSpace and LineTerminator code points: what `trim` strips and `\s` matches. */
  predicate IsSpace(c: char) {
    || c == '\t' || c == '\n' || c == '\U{B}' || c == '\U{C}' || c == '\r' || c == ' '
    || c == '\U{A0}' || c == '\U{1680}' || ('\U{2000}' <= c <= '\U{200A}')
    || c == '\U{2028}' || c == '\U{2029}' || c == '\U{202F}' || c == '\U{205F}'
    || c == '\U{3000}' || c == '\U{FEFF}'
  }

  /** The characters a regular-expression `.` refuses to match. */
  predicate IsLineTerminator(c: char) {
    c == '\n' || c == '\r' || c == '\U{2028}' || c == '\U{2029}'
  }

  predicate IsDigit(c: char) { '0' <= c <= '9' }
  predicate IsLower(c: char) { 'a' <= c <= 'z' }
  predicate IsUpper(c: char) { 'A' <= c <= 'Z' }

  // ---------------------------------------------------------------- trim

  /** Drops leading white space. */
  function TrimStart(s: string): (r: string)
    ensures |r| <= |s| && r == s[|s| - |r|..]
    ensures forall i :: 0 <= i < |s| - |r| ==> IsSpace(s[i])
    ensures r == [] || !IsSpace(r[0])
  {
    if |s| > 0 && IsSpace(s[0]) then TrimStart(s[1..]) else s
  }

  /** Drops trailing white space. */
  function TrimEnd(s: string): (r: string)
    ensures |r| <= |s| && r == s[..|r|]
    ensures forall i :: |r| <= i < |s| ==> IsSpace(s[i])
    ensures r == [] || !IsSpace(r[|r| - 1])
  {
    if |s| > 0 && IsSpace(s[|s| - 1]) then TrimEnd(s[..|s| - 1]) else s
  }

  /** `String.prototype.trim`: the text with white space removed at both ends. */
  function Trim(s: string): (r: string)
    ensures |r| <= |s|
    ensures r == [] || (!IsSpace(r[0]) && !IsSpace(r[|r| - 1]))
    ensures (forall i :: 0 <= i < |s| ==> !IsSpace(s[i])) ==> r == s
    ensures BlankCut(r, s)
  {
    TrimCutsBlanks(s);
    TrimEnd(TrimStart(s))
  }

  predicate AllSpace(t: string) {
    forall i :: 0 <= i < |t| ==> IsSpace(t[i])
  }

  /** `r` is a slice of `s` and everything cut off on either side is white space. */
  ghost predicate BlankCut(r: string, s: string) {
    exists a, b :: 0 <= a <= b <= |s| && r == s[a..b] && AllSpace(s[..a]) && AllSpace(s[b..])
  }

  lemma TrimStartCutsBlanks(s: string)
    ensures AllSpace(s[..|s| - |TrimStart(s)|])
  {
    var a := |s| - |TrimStart(s)|;
    forall j | 0 <= j < a ensures IsSpace(s[..a][j]) {
      assert s[..a][j] == s[j];
    }
  }

  lemma TrimEndCutsBlanks(t: string)
    ensures AllSpace(t[|TrimEnd(t)|..])
  {
    var b := |TrimEnd(t)|;
    forall j | 0 <= j < |t| - b ensures IsSpace(t[b..][j]) {
      assert t[b..][j] == t[b + j];
    }
  }

  lemma TrimCutsBlanks(s: string)
    ensures BlankCut(TrimEnd(TrimStart(s)), s)
  {
    var t := TrimStart(s);
    var r := TrimEnd(t);
    var a := |s| - |t|;
    TrimStartCutsBlanks(s);
    TrimEndCutsBlanks(t);
    assert s[a + |r|..] == t[|r|..];
    assert r == s[a..a + |r|];
    assert 0 <= a <= a + |r| <= |s| && r == s[a..a + |r|] && AllSpace(s[..a]) && AllSpace(s[a + |r|..]);
  }

  /** Trimming twice is trimming once. */
  lemma TrimIdempotent(s: string)
    ensures Trim(Trim(s)) == Trim(s)
  {
    var t := Trim(s);
    if t != [] {
      assert TrimStart(t) == t;
      assert TrimEnd(t) == t;
    }
  }

  /** The trimmed text is empty exactly when the text is all white space. */
  lemma TrimEmptyIffBlank(s: string)
    ensures Trim(s) == [] <==> forall i :: 0 <= i < |s| ==> IsSpace(s[i])
  {
    var a := TrimStart(s);
    if a != [] {
      assert a[0] == s[|s| - |a|];
      assert !IsSpace(a[0]);
    }
  }

  // ---------------------------------------------------------------- case

  /** `toLowerCase` on one character; only ASCII letters are mapped. */
  function LowerChar(c: char): (d: char)
    ensures !IsUpper(d)
    ensures !IsUpper(c) ==> d == c
    ensures IsUpper(c) ==> IsLower(d)
  {
    if IsUpper(c) then (c as int + 32) as char else c
  }

  function Lower(s: string): (r: string)
    ensures |r| == |s|
    ensures forall i :: 0 <= i < |r| ==> !IsUpper(r[i])
  {
    seq(|s|, i requires 0 <= i < |s| => LowerChar(s[i]))
  }

  lemma LowerIdempotent(s: string)
    ensures Lower(Lower(s)) == Lower(s)
  {
  }

  // ---------------------------------------------------------------- includes

  predicate StartsWith(s: string, prefix: string) {
    |prefix| <= |s| && s[..|prefix|] == prefix
  }

  /** `sub` occurs in `s` starting at index `i`. */
  predicate OccursAt(s: string, sub: string, i: nat) {
    i + |sub| <= |s| && s[i..i + |sub|] == sub
  }

  /** `String.prototype.includes`, as a left-to-right scan. */
  predicate Includes(s: string, sub: string)
    decreases |s|
  {
    StartsWith(s, sub) || (|s| > 0 && Includes(s[1..], sub))
  }

  /** The scan finds `sub` exactly when it occurs somewhere in `s`. */
  lemma {:induction false} IncludesIffOccurs(s: string, sub: string)
    ensures Includes(s, sub) <==> exists i: nat :: OccursAt(s, sub, i)
    decreases |s|
  {
    if StartsWith(s, sub) {
      assert OccursAt(s, sub, 0);
    } else if |s| > 0 {
      IncludesIffOccurs(s[1..], sub);
      if Includes(s[1..], sub) {
        var i: nat :| OccursAt(s[1..], sub, i);
        assert s[i + 1..i + 1 + |sub|] == s[1..][i..i + |sub|];
        assert OccursAt(s, sub, i + 1);
      }
      if exists i: nat :: OccursAt(s, sub, i) {
        var i: nat :| OccursAt(s, sub, i);
        assert i != 0;
        assert s[1..][i - 1..i - 1 + |sub|] == s[i..i + |sub|];
        assert OccursAt(s[1..], sub, i - 1);
      }
    } else {
      assert |sub| > 0;
    }
  }

  /** A message that contains `sub` at a known place includes it. */
  lemma IncludesWitness(s: string, sub: string, i: nat)
    requires OccursAt(s, sub, i)
    ensures Includes(s, sub)
  {
    IncludesIffOccurs(s, sub);
  }

  /** Wherever `sub` occurs in `s`, each of its characters is in `s`. */
  lemma OccurrenceCarriesChars(s: string, sub: string, c: char)
    requires c in sub
    ensures forall i: nat :: OccursAt(s, sub, i) ==> c in s
  {
    var k :| 0 <= k < |sub| && sub[k] == c;
    forall i: nat | OccursAt(s, sub, i)
      ensures c in s
    {
      assert s[i + k] == s[i..i + |sub|][k];
    }
  }

  /** A character of `sub` that `s` lacks rules out every occurrence. */
  lemma IncludesNeedsChar(s: string, sub: string, c: char)
    requires c in sub && c !in s
    ensures !Includes(s, sub)
  {
    IncludesIffOccurs(s, sub);
    OccurrenceCarriesChars(s, sub, c);
  }

  // ---------------------------------------------------------------- numbers

  function DigitChar(d: int): (c: char)
    requires 0 <= d < 10
    ensures IsDigit(c)
  {
    "0123456789"[d]
  }

  /** Decimal rendering of a natural number, as `String(n)` prints it. */
  function NatToString(n: nat): (r: string)
    ensures |r| > 0
    ensures forall i :: 0 <= i < |r| ==> IsDigit(r[i])
    decreases n
  {
    if n < 10 then [DigitChar(n)] else NatToString(n / 10) + [DigitChar(n % 10)]
  }

  /** `String(i)` for an integer value. */
  function IntToString(i: int): (r: string)
    ensures |r| > 0 && !IsSpace(r[0])
    ensures r[0] == '-' <==> i < 0
  {
    if i < 0 then "-" + NatToString(-i) else NatToString(i)
  }

  /** The value of a character as a hexadecimal digit; 99 when it is not one. */
  function DigitValue(c: char): (v: nat)
    ensures IsDigit(c) ==> v == c as int - '0' as int
    ensures v < 16 || v == 99
  {
    if IsDigit(c) then c as int - '0' as int
    else if 'a' <= c <= 'f' then c as int - 'a' as int + 10
    else if 'A' <= c <= 'F' then c as int - 'A' as int + 10
    else 99
  }

  predicate IsRadixDigit(c: char, radix: nat) { DigitValue(c) < radix }

  /** The longest prefix of `s` made of digits of the given radix. */
  function DigitsPrefix(s: string, radix: nat): (r: string)
    ensures |r| <= |s| && r == s[..|r|]
    ensures forall i :: 0 <= i < |r| ==> IsRadixDigit(r[i], radix)
    ensures |r| == |s| || !IsRadixDigit(s[|r|], radix)
    decreases |s|
  {
    if |s| > 0 && IsRadixDigit(s[0], radix) then [s[0]] + DigitsPrefix(s[1..], radix) else []
  }

  /** The number a digit string denotes in the given radix. */
  function DigitsValue(z: string, radix: nat): nat
    decreases |z|
  {
    if z == [] then 0
    else DigitsValue(z[..|z| - 1], radix) * radix + (if DigitValue(z[|z| - 1]) < 16 then DigitValue(z[|z| - 1]) else 0)
  }

  /**
   * The unsigned part of `parseInt`: a `0x`/`0X` prefix switches to base 16,
   * and the longest run of digits after that is the number; no digits is `NaN`.
   */
  function ParseUnsigned(u: string): Option<nat> {
    var hex := |u| >= 2 && u[0] == '0' && (u[1] == 'x' || u[1] == 'X');
    var radix := if hex then 16 else 10;
    var z := DigitsPrefix(if hex then u[2..] else u, radix);
    if z == [] then None else Some(DigitsValue(z, radix))
  }

  /**
   * `parseInt(s)` with no radix: leading white space is skipped and one sign
   * is read before the unsigned part; `NaN` is `None`.
   */
  function ParseInt(s: string): Option<int> {
    var t := TrimStart(s);
    var negative := |t| > 0 && t[0] == '-';
    var u := if |t| > 0 && (t[0] == '-' || t[0] == '+') then t[1..] else t;
    match ParseUnsigned(u)
    case None => None
    case Some(v) => var n: int := v; Some(if negative then -n else n)
  }

  lemma {:induction false} DigitsPrefixOfDigits(a: string, b: string, radix: nat)
    requires forall i :: 0 <= i < |a| ==> IsRadixDigit(a[i], radix)
    ensures DigitsPrefix(a + b, radix) == a + DigitsPrefix(b, radix)
    decreases |a|
  {
    if a != [] {
      assert (a + b)[1..] == a[1..] + b;
      DigitsPrefixOfDigits(a[1..], b, radix);
    } else {
      assert a + b == b;
    }
  }

  lemma {:induction false} NatToStringValue(n: nat)
    ensures DigitsValue(NatToString(n), 10) == n
    decreases n
  {
    var s := NatToString(n);
    if n >= 10 {
      NatToStringValue(n / 10);
      assert s[..|s| - 1] == NatToString(n / 10);
    }
  }

  lemma ParseUnsignedPrinted(m: nat, rest: string)
    requires rest == [] || !(IsDigit(rest[0]) || rest[0] == 'x' || rest[0] == 'X')
    ensures ParseUnsigned(NatToString(m) + rest) == Some(m)
  {
    var digits := NatToString(m);
    var u := digits + rest;
    assert NotHex: !(|u| >= 2 && u[0] == '0' && (u[1] == 'x' || u[1] == 'X')) by {
      if |digits| >= 2 {
        assert u[1] == digits[1];
      } else if |u| >= 2 {
        assert u[1] == rest[0];
      }
    }
    assert forall k :: 0 <= k < |digits| ==> IsRadixDigit(digits[k], 10);
    DigitsPrefixOfDigits(digits, rest, 10);
    assert DigitsPrefix(rest, 10) == [] by {
      if rest != [] {
        assert !IsRadixDigit(rest[0], 10);
      }
    }
    assert DigitsPrefix(u, 10) == digits by {
      assert digits + [] == digits;
    }
    NatToStringValue(m);
  }

  /**
   * `parseInt` reads back what `String` printed, and stops at the first
   * character that cannot continue the number (`parseInt("12abc") == 12`).
   */
  lemma ParseIntUnsigned(u: string, v: nat)
    requires u != [] && !IsSpace(u[0]) && u[0] != '-' && u[0] != '+'
    requires ParseUnsigned(u) == Some(v)
    ensures ParseInt(u) == Some(v)
  {
    assert TrimStart(u) == u;
  }

  lemma ParseIntNegative(u: string, v: nat)
    requires ParseUnsigned(u) == Some(v)
    ensures ParseInt("-" + u) == Some(0 - v as int)
  {
    var s := "-" + u;
    assert TrimStart(s) == s;
    assert s[1..] == u;
  }

  /**
   * `parseInt` reads back what `String` printed, and stops at the first
   * character that cannot continue the number (`parseInt("12abc") == 12`).
   */
  lemma ParseIntPrintedPrefix(i: int, rest: string)
    requires rest == [] || !(IsDigit(rest[0]) || rest[0] == 'x' || rest[0] == 'X')
    ensures ParseInt(IntToString(i) + rest) == Some(i)
  {
    if i < 0 {
      PrintedNegative(i, rest);
    } else {
      PrintedNonNegative(i, rest);
    }
  }

  lemma PrintedNonNegative(i: nat, rest: string)
    requires rest == [] || !(IsDigit(rest[0]) || rest[0] == 'x' || rest[0] == 'X')
    ensures ParseInt(IntToString(i) + rest) == Some(i)
  {
    var u := NatToString(i) + rest;
    assert ParseUnsigned(u) == Some(i) by {
      ParseUnsignedPrinted(i, rest);
    }
    assert IntToString(i) + rest == u;
    assert IsDigit(u[0]) by {
      assert u[0] == NatToString(i)[0];
    }
    ParseIntUnsigned(u, i);
  }

  lemma PrintedNegative(i: int, rest: string)
    requires i < 0
    requires rest == [] || !(IsDigit(rest[0]) || rest[0] == 'x' || rest[0] == 'X')
    ensures ParseInt(IntToString(i) + rest) == Some(i)
  {
    var m: nat := -i;
    var u := NatToString(m) + rest;
    assert IntToString(i) + rest == "-" + u by {
      assert IntToString(i) == "-" + NatToString(m);
      Regroup("-", NatToString(m), rest);
    }
    calc {
      ParseInt(IntToString(i) + rest);
      ParseInt("-" + u);
      { SignedPrinted(m, rest); }
      Some(0 - m);
    }
  }

  lemma Regroup(a: string, b: string, c: string)
    ensures (a + b) + c == a + (b + c)
  {
  }

  lemma SignedPrinted(m: nat, rest: string)
    requires rest == [] || !(IsDigit(rest[0]) || rest[0] == 'x' || rest[0] == 'X')
    ensures ParseInt("-" + (NatToString(m) + rest)) == Some(0 - m)
  {
    ParseUnsignedPrinted(m, rest);
    ParseIntNegative(NatToString(m) + rest, m);
  }

  /** `parseInt(String(i)) == i`. */
  lemma ParseIntRoundTrip(i: int)
    ensures ParseInt(IntToString(i)) == Some(i)
  {
    ParseIntPrintedPrefix(i, []);
    assert IntToString(i) + [] == IntToString(i);
  }
}

=== FILE: user_controller.dfy ===
/**
 * The user controller's own logic: the role filter and text search of
 * `getAllUsers`, the default of `createUser`, the fields `updateUser`
 * strips, the self-action guards of `deleteUser` and `deactivateUser`, and
 * the mapping from a service error's message to a status.
 */
module UserController {
  import opened Wrappers
  import opened Text
  import opened Values
  import opened Accounts
  import opened Seqs

  const Ok200: int := 200
  const Created: int := 201
  const BadRequest: int := 400
  const NotFound: int := 404
  const Conflict: int := 409
  const ServerError: int := 500

  datatype Reply = Reply(status: int, message: string)

  // ---------------------------------------------------------------- filtering

  /** The users `keep` accepts, in their original order. */
  function Filter(users: seq<User>, keep: User -> bool): (r: seq<User>)
    ensures |r| <= |users|
    ensures forall u :: u in r <==> u in users && keep(u)
    ensures KeepsExactly(r, users, keep)
  {
    if users == [] then []
    else
      var rest := Filter(users[1..], keep);
      if keep(users[0]) then
        assert ([users[0]] + rest)[1..] == rest;
        [users[0]] + rest
      else rest
  }

  /** Filtering by one condition and then another is filtering by both at once, in either order. */
  lemma {:induction false} FiltersCompose(users: seq<User>, p: User -> bool, q: User -> bool, both: User -> bool)
    requires forall u :: both(u) == (p(u) && q(u))
    ensures Filter(Filter(users, p), q) == Filter(users, both)
    ensures Filter(Filter(users, p), q) == Filter(Filter(users, q), p)
  {
    if users != [] {
      FiltersCompose(users[1..], p, q, both);
    }
  }

  /** `user.roleId === parseInt(roleId)`: a missing role id or an unparsable filter matches nobody. */
  predicate InRole(u: User, wanted: Option<int>) {
    u.roleId.Some? && wanted.Some? && u.roleId.value == wanted.value
  }

  /** A string field is non-empty and, lower-cased, contains the term. */
  predicate FieldMatches(field: Option<string>, term: string) {
    field.Some? && field.value != [] && Includes(Lower(field.value), term)
  }

  /** The search: the term in the username, the employee's full name or the role name, ignoring case. */
  predicate MatchesSearch(u: User, term: string) {
    || Includes(Lower(u.username), term)
    || (u.employee.Some? && FieldMatches(u.employee.value.fullName, term))
    || FieldMatches(RoleNameOf(u), term)
  }

  datatype Listing =
    | Listed(users: seq<User>, total: int, page: Option<int>, limit: Option<int>)
    | ListFailed(reply: Reply)

  /** The query fields `getAllUsers` destructures; `page` and `limit` default to 1 and 10 only when undefined. */
  datatype ListQuery = ListQuery(page: Value, limit: Value, search: Value, roleId: Value)

  const DefaultPage: int := 1
  const DefaultPageSize: int := 10

  function ReadListQuery(query: Fields): ListQuery {
    var page, limit := Get(query, "page"), Get(query, "limit");
    ListQuery(if page.Undefined? then Num(DefaultPage) else page,
              if limit.Undefined? then Num(DefaultPageSize) else limit,
              Get(query, "search"), Get(query, "roleId"))
  }

  /** The users left after the role filter (when asked for) and the lower-cased search term (when given). */
  function Selected(all: seq<User>, roleId: Value, term: Option<string>): (r: seq<User>)
    ensures |r| <= |all|
    ensures forall u :: u in r <==>
      && u in all
      && (Truthy(roleId) ==> InRole(u, ParseIntOf(roleId)))
      && (term.Some? ==> MatchesSearch(u, term.value))
  {
    var wanted := ParseIntOf(roleId);
    var byRole := if Truthy(roleId) then Filter(all, u => InRole(u, wanted)) else all;
    if term.Some? then Filter(byRole, u => MatchesSearch(u, term.value)) else byRole
  }

  /** The lower-cased search term, when one is given. */
  function SearchTerm(q: ListQuery): Option<string>
    requires !Truthy(q.search) || q.search.Str?
  {
    if Truthy(q.search) then Some(Lower(q.search.s)) else None
  }

  /**
   * `getAllUsers`: `everyone` is the service's list (or its error). A
   * search term that is not a string cannot be lower-cased and fails the
   * request like a service error.
   */
  function ListUsers(q: ListQuery, everyone: Attempt<seq<User>>): (r: Listing)
    ensures r.ListFailed? <==> everyone.Thrown? || (Truthy(q.search) && !q.search.Str?)
    ensures r.ListFailed? ==> r.reply == Reply(ServerError, "Failed to retrieve users")
    ensures r.Listed? ==> r.total == |r.users| && |r.users| <= |everyone.value|
    ensures r.Listed? ==> r.users == Selected(everyone.value, q.roleId, SearchTerm(q))
    ensures r.Listed? ==> r.page == ParseIntOf(q.page) && r.limit == ParseIntOf(q.limit)
  {
    match everyone
    case Thrown(_) => ListFailed(Reply(ServerError, "Failed to retrieve users"))
    case Ok(all) =>
      if Truthy(q.search) && !q.search.Str? then ListFailed(Reply(ServerError, "Failed to retrieve users"))
      else
        var found := Selected(all, q.roleId, SearchTerm(q));
        Listed(found, |found|, ParseIntOf(q.page), ParseIntOf(q.limit))
  }

  /**
   * The listed users are exactly those of the service's list with the
   * requested role id (when one is given) that match the search term,
   * ignoring case (when one is given).
   */
  lemma ListedUsersMatch(q: ListQuery, all: seq<User>, u: User)
    requires !Truthy(q.search) || q.search.Str?
    ensures ListUsers(q, Ok(all)).Listed?
    ensures u in ListUsers(q, Ok(all)).users <==>
      && u in all
      && (Truthy(q.roleId) ==> InRole(u, ParseIntOf(q.roleId)))
      && (Truthy(q.search) ==> MatchesSearch(u, Lower(q.search.s)))
  {
  }

  /** The search ignores case: two terms that lower-case alike select the same users. */
  lemma SearchIgnoresCase(q: ListQuery, everyone: Attempt<seq<User>>, s1: string, s2: string)
    requires s1 != [] && s2 != [] && Lower(s1) == Lower(s2)
    ensures ListUsers(q.(search := Str(s1)), everyone) == ListUsers(q.(search := Str(s2)), everyone)
  {
    assert SearchTerm(q.(search := Str(s1))) == SearchTerm(q.(search := Str(s2)));
  }

  /** Without paging parameters the reply reports page 1 of size 10. */
  lemma DefaultPaging(query: Fields, all: seq<User>)
    requires "page" !in query && "limit" !in query
    requires !Truthy(Get(query, "search")) || Get(query, "search").Str?
    ensures ListUsers(ReadListQuery(query), Ok(all)).page == Some(1)
    ensures ListUsers(ReadListQuery(query), Ok(all)).limit == Some(10)
  {
    ParseIntOfNum(1);
    ParseIntOfNum(10);
  }

  /**
   * With both a role and a term, the selection is one combined test, and
   * filtering by the term first would select the same users in the same order.
   */
  lemma SelectionIsOneFilter(all: seq<User>, roleId: Value, term: string)
    requires Truthy(roleId)
    ensures Selected(all, roleId, Some(term)) == Filter(all, u => InRole(u, ParseIntOf(roleId)) && MatchesSearch(u, term))
    ensures Selected(all, roleId, Some(term))
      == Filter(Filter(all, u => MatchesSearch(u, term)), u => InRole(u, ParseIntOf(roleId)))
  {
    var wanted := ParseIntOf(roleId);
    FiltersCompose(all, u => InRole(u, wanted), u => MatchesSearch(u, term), u => InRole(u, wanted) && MatchesSearch(u, term));
  }

  // ---------------------------------------------------------------- create and update

  /** `createUser`'s data: `isActive` becomes true only when it is undefined. */
  function CreateUserData(body: Fields): (r: Fields)
    ensures r.Keys == body.Keys + {"isActive"}
    ensures Get(body, "isActive").Undefined? ==> r["isActive"] == Bool(true)
    ensures !Get(body, "isActive").Undefined? ==> r["isActive"] == Get(body, "isActive")
    ensures forall k :: k in body && k != "isActive" ==> r[k] == body[k]
  {
    var active := Get(body, "isActive");
    body["isActive" := if active.Undefined? then Bool(true) else active]
  }

  /** A user created without an activity flag is active; an explicit `false` or `null` is kept. */
  lemma CreateKeepsExplicitFlag(body: Fields)
    ensures "isActive" !in body ==> CreateUserData(body)["isActive"] == Bool(true)
    ensures Get(body, "isActive") == Bool(false) ==> CreateUserData(body) == body
    ensures Get(body, "isActive") == Null ==> CreateUserData(body) == body
  {
  }

  /** The service's error says the username is taken. */
  predicate UsernameTaken(m: string) {
    Includes(m, "username") && Includes(m, "exists")
  }

  /** The service's error is about the role: a bad role name or a broken foreign key. */
  predicate RoleRejected(m: string) {
    Includes(m, "role") || Includes(m, "foreign key")
  }

  /** The service's error says the record is missing. */
  predicate Missing(m: string) {
    Includes(m, "not found")
  }

  /** `createUser`'s reply to the service's answer. */
  function CreateUser(created: Attempt<()>): (r: Reply)
    ensures r.status == Created <==> created.Ok?
    ensures created.Thrown? ==>
      && (r == Reply(Conflict, "Username already exists") <==> UsernameTaken(created.message))
      && (r == Reply(BadRequest, "Invalid role specified") <==> !UsernameTaken(created.message) && RoleRejected(created.message))
      && (r == Reply(ServerError, "Failed to create user") <==> !UsernameTaken(created.message) && !RoleRejected(created.message))
  {
    match created
    case Ok(_) => Reply(Created, "User created successfully")
    case Thrown(m) =>
      if Includes(m, "username") && Includes(m, "exists") then Reply(Conflict, "Username already exists")
      else if Includes(m, "role") || Includes(m, "foreign key") then Reply(BadRequest, "Invalid role specified")
      else Reply(ServerError, "Failed to create user")
  }

  /** The fields `updateUser` removes before saving: always the password and id, and for non-administrators also the role and activity. */
  function StrippedFields(caller: User): set<string> {
    if HasRoleName(caller, "Admin") then {"password", "id"} else {"password", "id", "roleId", "isActive"}
  }

  function UpdateData(body: Fields, caller: User): (r: Fields)
    ensures r.Keys == body.Keys - StrippedFields(caller)
    ensures forall k :: k in r ==> r[k] == body[k]
    ensures "password" !in r && "id" !in r
    ensures !HasRoleName(caller, "Admin") ==> "roleId" !in r && "isActive" !in r
  {
    body - StrippedFields(caller)
  }

  /** Only an administrator's update can carry a role or activity change; everything else passes for anyone. */
  lemma AdminAndOthersDifferOnlyInPrivilegedFields(body: Fields, admin: User, other: User)
    requires HasRoleName(admin, "Admin") && !HasRoleName(other, "Admin")
    ensures UpdateData(body, other) == UpdateData(body, admin) - {"roleId", "isActive"}
  {
  }

  /** Stripping is idempotent: the saved data has nothing left to strip. */
  lemma UpdateDataIdempotent(body: Fields, caller: User)
    ensures UpdateData(UpdateData(body, caller), caller) == UpdateData(body, caller)
  {
  }

  /** `updateUser`'s reply to the service's answer; "not found" is checked before "exists". */
  function UpdateUser(updated: Attempt<()>): (r: Reply)
    ensures r.status == Ok200 <==> updated.Ok?
    ensures updated.Thrown? ==>
      && (r == Reply(NotFound, "User not found") <==> Missing(updated.message))
      && (r == Reply(Conflict, "Username already exists") <==> !Missing(updated.message) && UsernameTaken(updated.message))
      && (r == Reply(ServerError, "Failed to update user") <==> !Missing(updated.message) && !UsernameTaken(updated.message))
  {
    match updated
    case Ok(_) => Reply(Ok200, "User updated successfully")
    case Thrown(m) =>
      if Includes(m, "not found") then Reply(NotFound, "User not found")
      else if Includes(m, "username") && Includes(m, "exists") then Reply(Conflict, "Username already exists")
      else Reply(ServerError, "Failed to update user")
  }

  /**
   * `updateUser` classifies a service error like the delete and deactivate
   * handlers do, except for a username conflict, which it reports as 409
   * just as `createUser` does.
   */
  lemma UpdateClassifiesLikeRemoval(m: string, id: Value, caller: User, selfMessage: string, okMessage: string,
                                    failMessage: string)
    requires !TargetsSelf(id, caller)
    ensures UpdateUser(Thrown(m)).status
      == if !Missing(m) && UsernameTaken(m) then Conflict
         else GuardedAction(id, caller, Thrown(m), selfMessage, okMessage, failMessage).status
    ensures UpdateUser(Thrown(m)).status == Conflict ==> CreateUser(Thrown(m)).status == Conflict
  {
  }

  // ---------------------------------------------------------------- self-action guards

  /** `parseInt(id) === req.user.id`: an unparsable id is never the caller's. */
  predicate TargetsSelf(id: Value, caller: User) {
    ParseIntOf(id) == Some(caller.id)
  }

  /** The shared shape of `deleteUser` and `deactivateUser`: refuse the caller's own id, then ask the service. */
  function GuardedAction(id: Value, caller: User, done: Attempt<()>, selfMessage: string, okMessage: string,
                         failMessage: string): (r: Reply)
    ensures TargetsSelf(id, caller) ==> r == Reply(BadRequest, selfMessage)
    ensures !TargetsSelf(id, caller) ==>
      && (r.status == Ok200 <==> done.Ok?)
      && (done.Ok? ==> r == Reply(Ok200, okMessage))
      && (done.Thrown? ==> (r == Reply(NotFound, "User not found") <==> Missing(done.message)))
      && (done.Thrown? && !Missing(done.message) ==> r == Reply(ServerError, failMessage))
  {
    if TargetsSelf(id, caller) then Reply(BadRequest, selfMessage)
    else
      match done
      case Ok(_) => Reply(Ok200, okMessage)
      case Thrown(m) => if Includes(m, "not found") then Reply(NotFound, "User not found") else Reply(ServerError, failMessage)
  }

  function DeleteUser(id: Value, caller: User, deleted: Attempt<()>): (r: Reply)
    ensures TargetsSelf(id, caller) ==> r == Reply(BadRequest, "Cannot delete your own account")
    ensures r.status == Ok200 <==> !TargetsSelf(id, caller) && deleted.Ok?
  {
    GuardedAction(id, caller, deleted, "Cannot delete your own account", "User deleted successfully", "Failed to delete user")
  }

  function DeactivateUser(id: Value, caller: User, deactivated: Attempt<()>): (r: Reply)
    ensures TargetsSelf(id, caller) ==> r == Reply(BadRequest, "Cannot deactivate your own account")
    ensures r.status == Ok200 <==> !TargetsSelf(id, caller) && deactivated.Ok?
  {
    GuardedAction(id, caller, deactivated, "Cannot deactivate your own account", "User deactivated successfully",
                  "Failed to deactivate user")
  }

  /**
   * An administrator can neither delete nor deactivate their own account,
   * whether the id arrives as validated number or as route text, and the
   * service is never asked.
   */
  lemma NoSelfRemoval(caller: User, d1: Attempt<()>, d2: Attempt<()>)
    ensures DeleteUser(Num(caller.id), caller, d1) == DeleteUser(Str(IntToString(caller.id)), caller, d2)
      == Reply(BadRequest, "Cannot delete your own account")
    ensures DeactivateUser(Num(caller.id), caller, d1) == DeactivateUser(Str(IntToString(caller.id)), caller, d2)
      == Reply(BadRequest, "Cannot deactivate your own account")
  {
    ParseIntOfNum(caller.id);
    ParseIntRoundTrip(caller.id);
  }

  // ---------------------------------------------------------------- listing by activity

  /** An HTTP status as passed to the error responder: a number, or `undefined` for a misspelt constant. */
  datatype Status = Code(n: int) | UndefinedStatus

  /** `getActiveUsers`'s reply: 500 on a service error. */
  function ActiveUsersStatus(listed: Attempt<seq<User>>): Status {
    if listed.Ok? then Code(Ok200) else Code(ServerError)
  }

  /** `getInactiveUsers` as written: the failure status names a constant that does not exist. */
  function InactiveUsersStatusAsWritten(listed: Attempt<seq<User>>): Status {
    if listed.Ok? then Code(Ok200) else UndefinedStatus
  }

  /** As written, a failing inactive-user listing hands the responder no status at all. */
  lemma InactiveUsersFailureHasNoStatus(m: string)
    ensures InactiveUsersStatusAsWritten(Thrown(m)) == UndefinedStatus
    ensures ActiveUsersStatus(Thrown(m)) == Code(ServerError)
  {
  }

  /** `getInactiveUsers` as intended: every outcome has a status, and a failure is a 500 like its sibling's. */
  function InactiveUsersStatus(listed: Attempt<seq<User>>): (s: Status)
    ensures s.Code? && 100 <= s.n <= 599
    ensures s == ActiveUsersStatus(listed)
  {
    if listed.Ok? then Code(Ok200) else Code(ServerError)
  }
}

=== FILE: validation.dfy ===
/**
 * The request-validation middlewares. Each collects one error message per
 * offending field and lets the request through exactly when the list is
 * empty; otherwise it answers 400 "Validation failed" with the list.
 * A synchronous validator that calls a string method on a non-string
 * throws, which the framework turns into a 500; that is `Crashed` here.
 */
module Validation {
  import opened Wrappers
  import opened Text
  import opened Values
  import opened Validators

  datatype Verdict =
    | Next
    | Rejected(errors: seq<string>)
    | Crashed

  /** The list is turned into a verdict: an empty list lets the request through. */
  function Conclude(errors: seq<string>): (v: Verdict)
    ensures v.Next? <==> errors == []
    ensures v.Rejected? ==> v.errors == errors
  {
    if errors == [] then Next else Rejected(errors)
  }

  const MsgUsernameRequired: string := "Username is required"
  const MsgUsernameFormat: string :=
    "Username must be 3-20 characters long and contain only letters, numbers, underscore, or dash"
  const MsgUsernameTaken: string := "Username already exists"
  const MsgUsernameCheckFailed: string := "Failed to validate username"
  const MsgPasswordRequired: string := "Password is required"
  const MsgPasswordWeak: string :=
    "Password must be at least 8 characters long and contain at least one uppercase letter, one lowercase letter, and one number"
  const MsgConfirmRequired: string := "Confirm password is required"
  const MsgConfirmMismatch: string := "Password and confirm password do not match"
  const MsgRoleIdInvalid: string := "Invalid role ID"
  const MsgRoleRequired: string := "Role is required"
  const MsgUsernameShort: string := "Username must be at least 3 characters long"
  const MsgPasswordShort: string := "Password must be at least 6 characters long"
  const MsgCurrentRequired: string := "Current password is required"
  const MsgNewRequired: string := "New password is required"
  const MsgNewWeak: string :=
    "New password must be at least 8 characters long and contain at least one uppercase letter, one lowercase letter, and one number"
  const MsgNewMismatch: string := "New password and confirm password do not match"
  const MsgNewSame: string := "New password must be different from current password"
  const MsgUserIdRequired: string := "User ID is required"
  const MsgUserIdInvalid: string := "Invalid user ID"
  const MsgRoleNameRequired: string := "Role name is required"
  const MsgRoleNameShort: string := "Role name must be at least 2 characters long"
  const MsgRoleNameLong: string := "Role name must not exceed 50 characters"
  const MsgDescriptionLong: string := "Description must not exceed 255 characters"

  /** A positive integer, as `Number.isInteger(v) && v > 0` checks it. */
  predicate PositiveInteger(v: Value) {
    IsInteger(v) && v.n > 0
  }

  /**
   * The username ladder shared by registration and user creation. The
   * existence check (`taken`: its answer, or the error it threw) is made
   * only once the format is right.
   */
  function UsernameErrors(username: Value, taken: Attempt<bool>): (e: seq<string>)
    ensures |e| <= 1
    ensures e == [] <==> Truthy(username) && ValidUsername(StringOf(username)) && taken == Ok(false)
  {
    if !Truthy(username) then [MsgUsernameRequired]
    else if !ValidUsername(StringOf(username)) then [MsgUsernameFormat]
    else
      match taken
      case Thrown(_) => [MsgUsernameCheckFailed]
      case Ok(exists_) => if exists_ then [MsgUsernameTaken] else []
  }

  function StrongPasswordErrors(password: Value, required: string, weak: string): (e: seq<string>)
    ensures |e| <= 1
    ensures e == [] <==> Truthy(password) && StrongPassword(StringOf(password))
  {
    if !Truthy(password) then [required]
    else if !StrongPassword(StringOf(password)) then [weak]
    else []
  }

  // ---------------------------------------------------------------- validateRegister

  /** `validateRegister`: `taken` is the answer of the username-exists check, if it is made. */
  function ValidateRegister(body: Fields, taken: Attempt<bool>): (v: Verdict)
    ensures !v.Crashed?
    ensures v.Rejected? ==> 1 <= |v.errors| <= 4
    ensures var u, p, c, r := Get(body, "username"), Get(body, "password"), Get(body, "confirmPassword"), Get(body, "roleId");
      v.Next? <==>
        && Truthy(u) && ValidUsername(StringOf(u)) && taken == Ok(false)
        && Truthy(p) && StrongPassword(StringOf(p))
        && Truthy(c) && StrictEquals(p, c)
        && (r.Undefined? || r.Null? || PositiveInteger(r))
  {
    var u, p, c, r := Get(body, "username"), Get(body, "password"), Get(body, "confirmPassword"), Get(body, "roleId");
    var confirm :=
      if !Truthy(c) then [MsgConfirmRequired]
      else if Truthy(p) && Truthy(c) && !StrictEquals(p, c) then [MsgConfirmMismatch]
      else [];
    var role := if !r.Undefined? && !r.Null? && !PositiveInteger(r) then [MsgRoleIdInvalid] else [];
    Conclude(UsernameErrors(u, taken) + StrongPasswordErrors(p, MsgPasswordRequired, MsgPasswordWeak) + confirm + role)
  }

  /** The existence check is not consulted for a missing or malformed username. */
  lemma RegisterChecksFormatBeforeExistence(body: Fields, t1: Attempt<bool>, t2: Attempt<bool>)
    requires !Truthy(Get(body, "username")) || !ValidUsername(StringOf(Get(body, "username")))
    ensures ValidateRegister(body, t1) == ValidateRegister(body, t2)
  {
  }

  // ---------------------------------------------------------------- validateLogin

  /** `validateLogin`; trimming a username that is not a string throws. */
  function ValidateLogin(body: Fields): (v: Verdict)
    ensures var u, p := Get(body, "username"), Get(body, "password");
      && (v.Crashed? <==> Truthy(u) && !u.Str?)
      && (v.Next? <==> Truthy(u) && u.Str? && |Trim(u.s)| >= 3 && Truthy(p) && !LengthBelow(p, 6))
      && (v.Rejected? ==> |v.errors| <= 2)
  {
    var u, p := Get(body, "username"), Get(body, "password");
    if Truthy(u) && !u.Str? then Crashed
    else
      var name :=
        if !Truthy(u) then [MsgUsernameRequired]
        else if |Trim(u.s)| < 3 then [MsgUsernameShort]
        else [];
      var pass :=
        if !Truthy(p) then [MsgPasswordRequired]
        else if LengthBelow(p, 6) then [MsgPasswordShort]
        else [];
      Conclude(name + pass)
  }

  /**
   * Credentials that registration accepts are accepted by the login form:
   * a valid username has no blanks to trim and is at least three long,
   * and a strong password is at least eight long.
   */
  lemma RegisteredCredentialsPassLogin(body: Fields, taken: Attempt<bool>)
    requires ValidateRegister(body, taken).Next?
    requires Get(body, "username").Str? && Get(body, "password").Str?
    ensures ValidateLogin(body).Next?
  {
    var u := Get(body, "username");
    ValidUsernameIsTrimmed(u.s);
  }

  // ---------------------------------------------------------------- validateUserCreate / validateUserUpdate

  /** `validateUserCreate`: as registration without a confirmation, but the role is required. */
  function ValidateUserCreate(body: Fields, taken: Attempt<bool>): (v: Verdict)
    ensures !v.Crashed?
    ensures var u, p, r := Get(body, "username"), Get(body, "password"), Get(body, "roleId");
      v.Next? <==>
        && Truthy(u) && ValidUsername(StringOf(u)) && taken == Ok(false)
        && Truthy(p) && StrongPassword(StringOf(p))
        && PositiveInteger(r)
  {
    var u, p, r := Get(body, "username"), Get(body, "password"), Get(body, "roleId");
    var role :=
      if !Truthy(r) then [MsgRoleRequired]
      else if !PositiveInteger(r) then [MsgRoleIdInvalid]
      else [];
    Conclude(UsernameErrors(u, taken) + StrongPasswordErrors(p, MsgPasswordRequired, MsgPasswordWeak) + role)
  }

  /**
   * Creating a user asks for what registration asks for, with the role id
   * required instead of optional and no confirmation field: given a
   * matching confirmation, creation passes exactly when registration
   * passes and the role id is a positive integer.
   */
  lemma UserCreateIsRegisterWithRequiredRole(body: Fields, taken: Attempt<bool>)
    requires StrictEquals(Get(body, "password"), Get(body, "confirmPassword"))
    ensures ValidateUserCreate(body, taken).Next? <==>
      ValidateRegister(body, taken).Next? && PositiveInteger(Get(body, "roleId"))
  {
  }

  /**
   * `validateUserUpdate`: every field is optional and checked only when
   * given; the role id is checked whenever it is not undefined (so `null`
   * is refused). `taken` answers the existence check that excludes the
   * user being updated.
   */
  function ValidateUserUpdate(body: Fields, taken: Attempt<bool>): (v: Verdict)
    ensures !v.Crashed?
    ensures var u, p, r := Get(body, "username"), Get(body, "password"), Get(body, "roleId");
      v.Next? <==>
        && (Truthy(u) ==> ValidUsername(StringOf(u)) && taken == Ok(false))
        && (Truthy(p) ==> StrongPassword(StringOf(p)))
        && (r.Undefined? || PositiveInteger(r))
  {
    var u, p, r := Get(body, "username"), Get(body, "password"), Get(body, "roleId");
    var name := if Truthy(u) then UsernameErrors(u, taken) else [];
    var pass := if Truthy(p) then StrongPasswordErrors(p, MsgPasswordRequired, MsgPasswordWeak) else [];
    var role := if !r.Undefined? && !PositiveInteger(r) then [MsgRoleIdInvalid] else [];
    Conclude(name + pass + role)
  }

  /** An update that changes nothing the validator looks at always passes. */
  lemma EmptyUpdatePasses(body: Fields, taken: Attempt<bool>)
    requires "username" !in body && "password" !in body && "roleId" !in body
    ensures ValidateUserUpdate(body, taken) == Next
  {
  }

  /** Registration accepts a `null` role id; an update refuses it. */
  lemma NullRoleIdTreatedDifferently(body: Fields, taken: Attempt<bool>)
    requires Get(body, "roleId") == Null
    ensures ValidateUserUpdate(body, taken) != Next
    ensures ValidateRegister(body, taken).Rejected? ==> MsgRoleIdInvalid !in ValidateRegister(body, taken).errors
  {
  }

  // ---------------------------------------------------------------- passwords

  /**
   * `validatePasswordChange`: the checks are independent, so one request
   * can collect several messages at once.
   */
  function ValidatePasswordChange(body: Fields): (v: Verdict)
    ensures !v.Crashed?
    ensures var o, n, c := Get(body, "oldPassword"), Get(body, "newPassword"), Get(body, "confirmPassword");
      && (v.Next? <==>
            Truthy(o) && Truthy(n) && StrongPassword(StringOf(n)) && Truthy(c)
            && StrictEquals(n, c) && !StrictEquals(o, n))
      && (Truthy(n) && !StrongPassword(StringOf(n)) ==> v.Rejected? && MsgNewWeak in v.errors)
      && (Truthy(n) && Truthy(c) && !StrictEquals(n, c) ==> v.Rejected? && MsgNewMismatch in v.errors)
      && (Truthy(o) && Truthy(n) && StrictEquals(o, n) ==> v.Rejected? && MsgNewSame in v.errors)
  {
    var o, n, c := Get(body, "oldPassword"), Get(body, "newPassword"), Get(body, "confirmPassword");
    var old_ := if !Truthy(o) then [MsgCurrentRequired] else [];
    var new_ := StrongPasswordErrors(n, MsgNewRequired, MsgNewWeak);
    var confirm := if !Truthy(c) then [MsgConfirmRequired] else [];
    var mismatch := if Truthy(n) && Truthy(c) && !StrictEquals(n, c) then [MsgNewMismatch] else [];
    var same := if Truthy(o) && Truthy(n) && StrictEquals(o, n) then [MsgNewSame] else [];
    Conclude(old_ + new_ + confirm + mismatch + same)
  }

  /** `validatePasswordReset`: a positive integer user id and a strong new password. */
  function ValidatePasswordReset(body: Fields): (v: Verdict)
    ensures !v.Crashed?
    ensures v.Next? <==>
      PositiveInteger(Get(body, "userId"))
      && Truthy(Get(body, "newPassword")) && StrongPassword(StringOf(Get(body, "newPassword")))
  {
    var id, n := Get(body, "userId"), Get(body, "newPassword");
    var user :=
      if !Truthy(id) then [MsgUserIdRequired]
      else if !PositiveInteger(id) then [MsgUserIdInvalid]
      else [];
    Conclude(user + StrongPasswordErrors(n, MsgNewRequired, MsgNewWeak))
  }

  // ---------------------------------------------------------------- roles

  /** The role name's trimmed length is within the accepted range. */
  predicate RoleNameFits(s: string) {
    2 <= |Trim(s)| <= 50
  }

  /** `validateRoleCreate`; trimming a role name that is not a string throws. */
  function ValidateRoleCreate(body: Fields): (v: Verdict)
    ensures var n, d := Get(body, "roleName"), Get(body, "description");
      && (v.Crashed? <==> Truthy(n) && !n.Str?)
      && (v.Next? <==> Truthy(n) && n.Str? && RoleNameFits(n.s) && !(d.Str? && |d.s| > 255))
  {
    var n, d := Get(body, "roleName"), Get(body, "description");
    if Truthy(n) && !n.Str? then Crashed
    else
      var name :=
        if !Truthy(n) then [MsgRoleNameRequired]
        else if |Trim(n.s)| < 2 then [MsgRoleNameShort]
        else if |Trim(n.s)| > 50 then [MsgRoleNameLong]
        else [];
      var description := if Truthy(d) && LengthAbove(d, 255) then [MsgDescriptionLong] else [];
      Conclude(name + description)
  }

  /**
   * `validateRoleUpdate`: the name is checked only when given, and the
   * description's length is read whenever it is not undefined, which
   * throws for `null`.
   */
  function ValidateRoleUpdate(body: Fields): (v: Verdict)
    ensures var n, d := Get(body, "roleName"), Get(body, "description");
      && (v.Crashed? <==> (Truthy(n) && !n.Str?) || d.Null?)
      && (v.Next? <==>
            (n.Undefined? || (n.Str? && RoleNameFits(n.s)))
            && (d.Undefined? || !(d.Str? && |d.s| > 255)) && !d.Null?)
  {
    var n, d := Get(body, "roleName"), Get(body, "description");
    if Truthy(n) && !n.Str? then Crashed
    else if d.Null? then Crashed
    else
      var name :=
        if n.Undefined? then []
        else if !Truthy(n) || |Trim(n.s)| < 2 then [MsgRoleNameShort]
        else if |Trim(n.s)| > 50 then [MsgRoleNameLong]
        else [];
      var description := if !d.Undefined? && LengthAbove(d, 255) then [MsgDescriptionLong] else [];
      Conclude(name + description)
  }

  /** Given a role name and a textual description, creating and updating agree exactly. */
  lemma RoleCreateAndUpdateAgree(body: Fields)
    requires Get(body, "roleName").Str? && Get(body, "roleName").s != []
    requires Get(body, "description").Str?
    ensures ValidateRoleCreate(body) == ValidateRoleUpdate(body)
  {
  }

  /** A role name made only of blanks is refused, by both. */
  lemma BlankRoleNameRefused(body: Fields)
    requires Get(body, "roleName").Str? && Get(body, "roleName").s != []
    requires forall i :: 0 <= i < |Get(body, "roleName").s| ==> IsSpace(Get(body, "roleName").s[i])
    ensures ValidateRoleCreate(body).Rejected? && MsgRoleNameShort in ValidateRoleCreate(body).errors
    ensures ValidateRoleUpdate(body) != Next
  {
    TrimEmptyIffBlank(Get(body, "roleName").s);
  }

  // ---------------------------------------------------------------- validateId

  datatype IdCheck = IdAccepted(params: Fields) | IdRejected(message: string)

  /**
   * `validateId(name)`: the parameter must parse to a positive integer,
   * which then replaces it.
   */
  function ValidateId(params: Fields, name: string): (r: IdCheck)
    ensures r.IdRejected? ==> r.message == "Invalid " + name + " parameter"
    ensures r.IdAccepted? <==>
      Truthy(Get(params, name)) && ParseIntOf(Get(params, name)).Some? && ParseIntOf(Get(params, name)).value > 0
    ensures r.IdAccepted? ==>
      && r.params.Keys == params.Keys + {name}
      && r.params[name] == Num(ParseIntOf(Get(params, name)).value)
      && (forall k :: k in params && k != name ==> r.params[k] == params[k])
  {
    var id := Get(params, name);
    if !Truthy(id) then IdRejected("Invalid " + name + " parameter")
    else
      match ParseIntOf(id)
      case None => IdRejected("Invalid " + name + " parameter")
      case Some(n) => if n <= 0 then IdRejected("Invalid " + name + " parameter") else IdAccepted(params[name := Num(n)])
  }

  /** Validating an already validated id changes nothing: the replaced value parses back to itself. */
  lemma ValidateIdIdempotent(params: Fields, name: string)
    requires ValidateId(params, name).IdAccepted?
    ensures ValidateId(ValidateId(params, name).params, name) == ValidateId(params, name)
  {
    var n := ParseIntOf(Get(params, name)).value;
    assert ValidateId(params, name) == IdAccepted(params[name := Num(n)]);
    NumberIdAccepted(params[name := Num(n)], name, n);
  }

  /** An id already replaced by a positive number is accepted as it stands. */
  lemma NumberIdAccepted(params: Fields, name: string, n: int)
    requires n > 0 && Get(params, name) == Num(n)
    ensures ValidateId(params, name) == IdAccepted(params)
  {
    ParseIntOfNum(n);
    assert params[name := Num(n)] == params;
  }

  /** A route id written as a positive decimal is accepted and replaced by its number. */
  lemma DecimalIdAccepted(params: Fields, name: string, n: int)
    requires n > 0 && Get(params, name) == Str(IntToString(n))
    ensures ValidateId(params, name) == IdAccepted(params[name := Num(n)])
  {
    ParseIntRoundTrip(n);
  }

  // ---------------------------------------------------------------- sanitizeInput

  function TrimValue(v: Value): (r: Value)
    ensures v.Str? <==> r.Str?
    ensures !v.Str? ==> r == v
    ensures v.Str? ==> r.s == Trim(v.s)
  {
    if v.Str? then Str(Trim(v.s)) else v
  }

  /** Every string value trimmed; keys and all other values kept. */
  function Sanitize(f: Fields): (r: Fields)
    ensures r.Keys == f.Keys
    ensures forall k :: k in f && !f[k].Str? ==> r[k] == f[k]
    ensures forall k :: k in f && f[k].Str? ==> r[k] == Str(Trim(f[k].s))
  {
    map k | k in f :: TrimValue(f[k])
  }

  /** `sanitizeInput` on body and query. */
  function SanitizeInput(body: Fields, query: Fields): (r: (Fields, Fields))
    ensures r.0.Keys == body.Keys && r.1.Keys == query.Keys
  {
    (Sanitize(body), Sanitize(query))
  }

  /** Running the sanitizer on its own output changes neither body nor query. */
  lemma SanitizeInputIdempotent(body: Fields, query: Fields)
    ensures var once := SanitizeInput(body, query);
      SanitizeInput(once.0, once.1) == once
  {
    SanitizeIdempotent(body);
    SanitizeIdempotent(query);
  }

  /** Sanitizing twice is sanitizing once. */
  lemma SanitizeIdempotent(f: Fields)
    ensures Sanitize(Sanitize(f)) == Sanitize(f)
  {
    forall k | k in f ensures Sanitize(Sanitize(f))[k] == Sanitize(f)[k] {
      if f[k].Str? {
        TrimIdempotent(f[k].s);
      }
    }
  }

  /** After sanitizing, no string value begins or ends with a blank. */
  lemma SanitizedStringsAreTrimmed(f: Fields, k: string)
    requires k in f && f[k].Str? && Sanitize(f)[k].s != []
    ensures !IsSpace(Sanitize(f)[k].s[0]) && !IsSpace(Sanitize(f)[k].s[|Sanitize(f)[k].s| - 1])
  {
  }
}

=== FILE: validators.dfy ===
/**
 * The four pattern validators (`validators.isEmail`, `isStrongPassword`,
 * `isValidUsername`, `isValidPhoneNumber`), each restated as a predicate
 * over characters, with a one-pass recogniser proved to accept exactly the
 * strings the predicate describes.
 */
module Validators {
  import opened Text

  // ---------------------------------------------------------------- username: ^[a-zA-Z0-9_-]{3,20}$

  predicate UsernameChar(c: char) {
    IsLower(c) || IsUpper(c) || IsDigit(c) || c == '_' || c == '-'
  }

  predicate ValidUsername(s: string) {
    3 <= |s| <= 20 && forall i :: 0 <= i < |s| ==> UsernameChar(s[i])
  }

  /** A valid username has nothing for trimming to remove. */
  lemma ValidUsernameIsTrimmed(s: string)
    requires ValidUsername(s)
    ensures Trim(s) == s
  {
    forall i | 0 <= i < |s| ensures !IsSpace(s[i]) {
      assert UsernameChar(s[i]);
    }
  }

  // ---------------------------------------------------------------- password: ^(?=.*[a-z])(?=.*[A-Z])(?=.*\d).{8,}$

  predicate HasLower(s: string) { exists i :: 0 <= i < |s| && IsLower(s[i]) }
  predicate HasUpper(s: string) { exists i :: 0 <= i < |s| && IsUpper(s[i]) }
  predicate HasDigit(s: string) { exists i :: 0 <= i < |s| && IsDigit(s[i]) }

  /** `.` does not match a line terminator, so the whole string must be free of them. */
  predicate SingleLine(s: string) { forall i :: 0 <= i < |s| ==> !IsLineTerminator(s[i]) }

  predicate StrongPassword(s: string) {
    |s| >= 8 && SingleLine(s) && HasLower(s) && HasUpper(s) && HasDigit(s)
  }

  /** One left-to-right pass with a flag per look-ahead of the pattern. */
  method CheckStrongPassword(s: string) returns (ok: bool)
    ensures ok <==> StrongPassword(s)
  {
    var lower, upper, digit := false, false, false;
    var i := 0;
    while i < |s|
      invariant 0 <= i <= |s|
      invariant forall k :: 0 <= k < i ==> !IsLineTerminator(s[k])
      invariant lower <==> exists k :: 0 <= k < i && IsLower(s[k])
      invariant upper <==> exists k :: 0 <= k < i && IsUpper(s[k])
      invariant digit <==> exists k :: 0 <= k < i && IsDigit(s[k])
    {
      if IsLineTerminator(s[i]) {
        return false;
      }
      lower := lower || IsLower(s[i]);
      upper := upper || IsUpper(s[i]);
      digit := digit || IsDigit(s[i]);
      i := i + 1;
    }
    ok := |s| >= 8 && lower && upper && digit;
  }

  // ---------------------------------------------------------------- phone: ^(0|\+84)[3-9]\d{8,9}$

  /** What follows the prefix: a digit 3-9, then eight or nine digits. */
  predicate SubscriberNumber(t: string) {
    (|t| == 9 || |t| == 10)
    && '3' <= t[0] <= '9'
    && forall i :: 1 <= i < |t| ==> IsDigit(t[i])
  }

  predicate ValidPhoneNumber(s: string) {
    || (|s| >= 1 && s[0] == '0' && SubscriberNumber(s[1..]))
    || (|s| >= 3 && s[..3] == "+84" && SubscriberNumber(s[3..]))
  }

  /** The two national forms of a number are accepted together or not at all. */
  lemma PhonePrefixesInterchangeable(t: string)
    ensures ValidPhoneNumber("0" + t) <==> ValidPhoneNumber("+84" + t)
  {
    var national, international := "0" + t, "+84" + t;
    assert national[1..] == t;
    assert international[..3] == "+84";
    assert international[3..] == t;
    assert international[0] != '0';
    if |national| >= 3 {
      assert national[..3][0] == '0';
    }
  }

  /** Accepted numbers are 10 to 13 characters long. */
  lemma PhoneLength(s: string)
    requires ValidPhoneNumber(s)
    ensures 10 <= |s| <= 13
  {
  }

  // ---------------------------------------------------------------- email: ^[^\s@]+@[^\s@]+\.[^\s@]+$

  predicate EmailPart(t: string) {
    |t| > 0 && forall i :: 0 <= i < |t| ==> !IsSpace(t[i]) && t[i] != '@'
  }

  /** The address splits as local "@" domain "." suffix, every part non-empty and free of blanks and "@". */
  predicate ValidEmail(s: string) {
    exists at, dot :: 0 < at < dot < |s| - 1 && ValidEmailSplit(s, at, dot)
  }

  predicate ValidEmailSplit(s: string, at: int, dot: int)
    requires 0 < at < dot < |s| - 1
  {
    s[at] == '@' && s[dot] == '.' && at + 1 < dot
    && EmailPart(s[..at]) && EmailPart(s[at + 1..dot]) && EmailPart(s[dot + 1..])
  }

  /** An accepted address holds exactly one "@" and no blank anywhere. */
  lemma EmailShape(s: string)
    requires ValidEmail(s)
    ensures forall i :: 0 <= i < |s| ==> !IsSpace(s[i])
    ensures exists at :: 0 < at < |s| && s[at] == '@' && forall i :: 0 <= i < |s| && i != at ==> s[i] != '@'
  {
    var at, dot :| 0 < at < dot < |s| - 1 && ValidEmailSplit(s, at, dot);
    forall i | 0 <= i < |s| ensures !IsSpace(s[i]) && (i != at ==> s[i] != '@') {
      if i < at {
        assert s[..at][i] == s[i];
      } else if at < i < dot {
        assert s[at + 1..dot][i - at - 1] == s[i];
      } else if dot < i {
        assert s[dot + 1..][i - dot - 1] == s[i];
      }
    }
  }

  /**
   * One pass: no blank anywhere, exactly one "@" not in first place, and a
   * "." at least two places after it that is not the last character.
   */
  method CheckEmail(s: string) returns (ok: bool)
    ensures ok <==> ValidEmail(s)
  {
    var at := -1;
    var i := 0;
    while i < |s|
      invariant 0 <= i <= |s|
      invariant forall k :: 0 <= k < i ==> !IsSpace(s[k])
      invariant -1 <= at < i
      invariant at == -1 ==> forall k :: 0 <= k < i ==> s[k] != '@'
      invariant at >= 0 ==> s[at] == '@' && forall k :: 0 <= k < i && k != at ==> s[k] != '@'
    {
      if IsSpace(s[i]) || (s[i] == '@' && at >= 0) {
        ok := false;
        NotEmailWhenBlankOrTwoAts(s, i, at);
        return;
      }
      if s[i] == '@' {
        at := i;
      }
      i := i + 1;
    }
    if at <= 0 {
      ok := false;
      NotEmailWithoutInnerAt(s, at);
      return;
    }
    var j := at + 2;
    while j < |s| - 1
      invariant at + 2 <= j
      invariant forall k :: at + 2 <= k < j && k < |s| - 1 ==> s[k] != '.'
    {
      if s[j] == '.' {
        ok := true;
        EmailFromSplit(s, at, j);
        return;
      }
      j := j + 1;
    }
    ok := false;
    NotEmailWithoutDot(s, at);
  }

  lemma NotEmailWhenBlankOrTwoAts(s: string, i: int, at: int)
    requires 0 <= i < |s| && -1 <= at < i
    requires IsSpace(s[i]) || (s[i] == '@' && at >= 0 && s[at] == '@')
    ensures !ValidEmail(s)
  {
    if ValidEmail(s) {
      EmailShape(s);
    }
  }

  lemma NotEmailWithoutInnerAt(s: string, at: int)
    requires -1 <= at < |s|
    requires at == -1 ==> forall k :: 0 <= k < |s| ==> s[k] != '@'
    requires at >= 0 ==> at == 0 && s[at] == '@' && forall k :: 0 <= k < |s| && k != at ==> s[k] != '@'
    ensures !ValidEmail(s)
  {
    forall a, d | 0 < a < d < |s| - 1 ensures !ValidEmailSplit(s, a, d) {
      assert s[a] != '@';
    }
  }

  lemma EmailFromSplit(s: string, at: int, dot: int)
    requires 0 < at && at + 2 <= dot < |s| - 1
    requires s[at] == '@' && s[dot] == '.'
    requires forall k :: 0 <= k < |s| ==> !IsSpace(s[k])
    requires forall k :: 0 <= k < |s| && k != at ==> s[k] != '@'
    ensures ValidEmail(s)
  {
    assert ValidEmailSplit(s, at, dot) by {
      var a, b, c := s[..at], s[at + 1..dot], s[dot + 1..];
      assert forall i :: 0 <= i < |a| ==> a[i] == s[i];
      assert forall i :: 0 <= i < |b| ==> b[i] == s[at + 1 + i];
      assert forall i :: 0 <= i < |c| ==> c[i] == s[dot + 1 + i];
    }
  }

  lemma NotEmailWithoutDot(s: string, at: int)
    requires 0 < at < |s| && s[at] == '@'
    requires forall k :: 0 <= k < |s| && k != at ==> s[k] != '@'
    requires forall k :: at + 2 <= k < |s| - 1 ==> s[k] != '.'
    ensures !ValidEmail(s)
  {
    forall a, d | 0 < a < d < |s| - 1 ensures !ValidEmailSplit(s, a, d) {
      if s[a] == '@' && a + 1 < d {
        assert a == at;
        assert s[d] != '.';
      }
    }
  }
}

=== FILE: values.dfy ===
/**
 * The values a parsed request body, query or route-parameter map can hold,
 * with the JavaScript coercions the guards apply to them.
 */
module Values {
  import opened Wrappers
  import opened Text

  /**
   * `Undefined` is also what reading a missing key yields. Numbers are
   * integers; `Obj` is a plain (non-array) object.
   */
  datatype Value = Undefined | Null | Bool(b: bool) | Num(n: int) | Str(s: string) | Obj

  /** A request body, query string or route-parameter map. */
  type Fields = map<string, Value>

  /** `fields[key]`: a missing key reads as `undefined`. */
  function Get(fields: Fields, key: string): Value {
    if key in fields then fields[key] else Undefined
  }

  /** JavaScript truthiness (`if (v)`, `!v`, `v || d`). */
  predicate Truthy(v: Value) {
    match v
    case Undefined => false
    case Null => false
    case Bool(b) => b
    case Num(n) => n != 0
    case Str(s) => s != []
    case Obj => true
  }

  /** `String(v)`: what a template literal or a regular-expression test sees. */
  function StringOf(v: Value): string {
    match v
    case Undefined => "undefined"
    case Null => "null"
    case Bool(b) => if b then "true" else "false"
    case Num(n) => IntToString(n)
    case Str(s) => s
    case Obj => "[object Object]"
  }

  /** `a === b`: two objects from a parsed body are never the same object. */
  predicate StrictEquals(a: Value, b: Value) {
    a == b && !a.Obj?
  }

  /** `Number.isInteger(v)`. */
  predicate IsInteger(v: Value) {
    v.Num?
  }

  /** `parseInt(v)`: the value is converted to a string first; `None` is `NaN`. */
  function ParseIntOf(v: Value): Option<int> {
    ParseInt(StringOf(v))
  }

  /** Reading `v.length`: a number, `undefined`, or a `TypeError` on `null`/`undefined`. */
  datatype LengthRead = Length(n: nat) | NoLength | LengthTypeError

  function LengthOf(v: Value): (r: LengthRead)
    ensures r.LengthTypeError? <==> v.Undefined? || v.Null?
    ensures r.Length? <==> v.Str?
  {
    match v
    case Undefined => LengthTypeError
    case Null => LengthTypeError
    case Str(s) => Length(|s|)
    case _ => NoLength
  }

  /** `v.length < n`; comparing `undefined` with a number is false. */
  predicate LengthBelow(v: Value, n: int)
    requires !LengthOf(v).LengthTypeError?
  {
    LengthOf(v).Length? && LengthOf(v).n < n
  }

  /** `v.length > n`. */
  predicate LengthAbove(v: Value, n: int)
    requires !LengthOf(v).LengthTypeError?
  {
    LengthOf(v).Length? && LengthOf(v).n > n
  }

  /** An integer reads back unchanged through `parseInt(String(n))`. */
  lemma ParseIntOfNum(n: int)
    ensures ParseIntOf(Num(n)) == Some(n)
  {
    ParseIntRoundTrip(n);
  }
}

=== FILE: wrappers.dfy ===
/** Failure-carrying datatypes shared by every module of the model. */
module Wrappers {

  /** A value that may be absent (`undefined` or `null` in the original). */
  datatype Option<+T> = None | Some(value: T) {

    /** Returns the value or `default` when absent. */
    function GetOr(default: T): T {
      match this
      case Some(v) => v
      case None => default
    }
  }

  /** The outcome of a call that may throw: either its value or the thrown error's message. */
  datatype Attempt<+T> = Ok(value: T) | Thrown(message: string)
}
